=== FILE: README.md ===
# SATMZ dashboard core, modelled in Dafny

This project models the domain layer of a multi-tenant dashboard for
inventory, warranties, service contracts and support tickets. A distributor
sells to resellers, and resellers sell to customers. It covers:

- **Access policy.** The permission table, the effective role of a reseller
  acting as distributor or as customer, customer-scope resolution, the
  order-preserving scope filter, and the role-gated sidebar.
- **Warranty-expiry classifier.** Expired, expiring soon or active, with the
  clamped day count and the colour sub-tier.
- **Record stores.** Contracts (parent and child, cascade delete, coverage
  resolver), tickets (append-only timeline, sequential ids), notifications
  (derived unread counter), inventory (conjunctive filter), customers, the
  auth session and the reseller context.
- **CSV export.** The encoder, with an RFC 4180 style round trip (section 2,
  rules 5 to 7).
- **Screen logic.** The dashboard, inventory, warranty, tickets, new-ticket,
  history, notifications, contracts, new-contract, new-product and profile
  screens, and the contract list component: filter chains, statistics,
  buckets, pagination, validators and record builders.

The source's stores hold mutable fields, so each becomes a Dafny `class` with
`seq` fields and `modifies` clauses. Each method states its new state through
a pure function over sequences, and lemmas prove that function's properties.
Screens that keep state become classes as well. They hold the wizard step,
the dialog fields and the password fields, and their handlers call the store
methods. The filter chains that reassign a local step by step become methods
with one step per filter, each proved equal to a single reference predicate.

Time is an integer count of milliseconds since the epoch (UTC), and `now` is
a parameter. The day difference truncates toward zero. Calendar dates use the
proleptic Gregorian civil-from-days arithmetic.

Modules:

| file | module |
|---|---|
| `wrappers.dfy`, `seqs.dfy`, `text.dfy`, `calendar.dfy` | generic Option/Result, filters and subsequences, strings and digits, days and dates |
| `types.dfy`, `dummy_data.dfy` | the record types and the fixture tables the logic reads |
| `permissions.dfy`, `own_scope.dfy`, `sidebar.dfy` | the access policy, the pages' direct own-customer scope, the menu |
| `date_utils.dfy`, `badges.dfy` | the expiry classifier and its badge |
| `*_store.dfy` | the seven stores |
| `export_utils.dfy` | CSV export and a reader used to state the round trip |
| `*_page.dfy`, `contract_list.dfy` | the screens |

## Model

| member | source | states |
|---|---|---|
| Permissions.EffectiveRole | lib/permissions.ts:52-66 | the looked-up role is in the table unless it is a reseller without a context; a reseller with a context maps to reseller_as_distributor or reseller_as_customer by mode |
| Permissions.HasPermissionMatchesPolicy | lib/permissions.ts:23-66 | the table grants exactly this: everything to a distributor; everything but the two deletes to a reseller acting as distributor; the five customer permissions to a customer or a reseller acting as customer; nothing to a reseller without a context (both directions) |
| Permissions.ResellerWithoutContextDenied | lib/permissions.ts:52-66 | deny by default: a reseller called without a context is refused every permission |
| Permissions.PermissionNesting | lib/permissions.ts:23-50 | customer ⊆ reseller_as_distributor ⊆ distributor |
| Permissions.ResellerAsDistributorDropsDeletes | lib/permissions.ts:24-37 | reseller_as_distributor is the distributor set minus exactly contracts.delete and inventory.delete |
| Permissions.ResellerAsCustomerIsCustomer | lib/permissions.ts:38-50 | reseller_as_customer grants exactly what customer grants |
| Permissions.ContextOnlyAffectsResellers | lib/permissions.ts:59-63 | for distributors and customers the context changes nothing |
| Permissions.OwnCustomerScope | lib/permissions.ts:82-86 | at most one id: the user's customer id when it is present and non-empty |
| Permissions.AccessibleCustomerIds | lib/permissions.ts:68-91 | signed out gives none; a distributor gets the fixture customer ids; a reseller acting as distributor gets its managed ids, or none; anyone else gets exactly their own customer id when it is set and non-empty, and nothing otherwise |
| Permissions.FilterByAccessibleCustomers | lib/permissions.ts:93-100 | an order-preserving subsequence that holds a record iff the user can access its customer |
| Permissions.GetAccessibleCustomers | lib/permissions.ts:111-118 | an order-preserving subsequence of the customers, holding a customer iff the same access test admits its own id |
| Permissions.SignedOutSeesNothing | lib/permissions.ts:68-100 | nobody signed in sees no records |
| Permissions.OwnScopeOnly | lib/permissions.ts:78-100 | a user not acting as distributor sees exactly the records of its own customer (none when its id is missing or empty) |
| OwnScope.ResellerScoped | app/inventory/page.tsx:61-65 | the pages' direct scope: an order-preserving subsequence, the whole list for non-resellers, only own-customer records for a reseller |
| OwnScope.ResellerWithoutIdSeesNothing | app/tickets/page.tsx:30-32 | a reseller without a customer id sees an empty list |
| Sidebar.SidebarRole | components/sidebar.tsx:36-38 | a signed-out visitor is treated as a reseller; otherwise the user's role |
| Sidebar.FilteredMenuItems | components/sidebar.tsx:36-38 | an order-preserving subsequence of the menu, holding an entry iff its roles include the user's role |
| Sidebar.DistributorSeesEverything | components/sidebar.tsx:21-29 | a distributor sees all seven entries |
| Sidebar.ResellerSeesAllButSettings | components/sidebar.tsx:21-29 | a reseller, or nobody signed in, sees the first six entries, everything but Settings |
| Sidebar.SixEntriesForResellers | components/sidebar.tsx:21-29 | a reseller's menu has six entries |
| Sidebar.CustomerSeesNothing | components/sidebar.tsx:21-29 | the customer role sees no entry |
| Sidebar.SettingsOnlyForDistributors | components/sidebar.tsx:28 | Settings is shown iff the user is a distributor |
| DateUtils.ClassifyIsThreeWaySplit | lib/date-utils.ts:4-27 | for a day difference d: expired iff d<0, expiring soon iff 0≤d≤90, active iff d>90 |
| DateUtils.DaysRemainingClamped | lib/date-utils.ts:9-26 | the reported days remaining is 0 when expired and d otherwise, never negative |
| DateUtils.ColorSubTiers | lib/date-utils.ts:12-24 | red iff d≤30, amber iff 31≤d≤90, green iff active |
| DateUtils.ExpiringSoonWindow | lib/date-utils.ts:30-35 | expiring soon within n days iff 0<d≤n; a same-day end date is not expiring soon though the classifier says expiring_soon |
| DateUtils.DaysUntilExpiryAgrees | lib/date-utils.ts:43-47 | days-until-expiry equals the classifier's clamped day count for every pair of instants |
| DateUtils.ExpiredVersusDayDifference | lib/date-utils.ts:37-41 | d<0 implies expired; expired implies d≤0; the expired tier implies expired |
| DateUtils.ExpiredButNotYetExpiredTier | lib/date-utils.ts:4-41 | one millisecond past the end is expired yet still in the expiring_soon tier with 0 days |
| DateUtils.ClassifierBoundaries | lib/date-utils.ts:4-27 | 91 days ahead is active, 90 is expiring soon, 30 is red, one day past is expired with 0 days |
| Calendar.DifferenceInDays | lib/date-utils.ts:7 | whole days between two instants, truncated toward zero |
| Calendar.DifferenceAntisymmetric | lib/date-utils.ts:7 | swapping the instants negates the day difference |
| Calendar.StartOfDay | app/contracts/new/page.tsx:31-32 | the midnight of the same day, at or before the instant |
| Badges.ExpiryBadgeFollowsClassifier | app/inventory/page.tsx:133-145 | the badge text names the tier, and danger, warning or success matches red, amber or green |
| Badges.MissingEndDateShowsActive | app/warranty/page.tsx:121-133 | an item without a warranty end date shows Active and is in the active tier |
| ContractStore.UpdateParents | store/contract-store.ts:44-48 | same length; only entries with the id are merged and re-stamped, the rest are unchanged |
| ContractStore.UpdateChildren | store/contract-store.ts:59-63 | the same for child contracts |
| ContractStore.UpdateUnknownIdIsNoOp | store/contract-store.ts:44-63 | updating an id no contract has changes nothing |
| ContractStore.CascadeDelete | store/contract-store.ts:50-53 | deleting a parent keeps, in order, exactly the other parents and the children of other parents |
| ContractStore.DeleteChildOnly | store/contract-store.ts:65-67 | deleting a child keeps, in order, exactly the children with other ids |
| ContractStore.ContractsByCustomerId | store/contract-store.ts:69-71 | an order-preserving filter on the customer id |
| ContractStore.ChildContractsByParentId | store/contract-store.ts:73-75 | an order-preserving filter on the parent id |
| ContractStore.ContractById | store/contract-store.ts:117-119 | the first parent with the id, or none exactly when no parent has it |
| ContractStore.ChildContractById | store/contract-store.ts:121-123 | the first child with the id, or none exactly when no child has it |
| ContractStore.GetContractCoverage | store/contract-store.ts:80-105 | covered iff some active child lists the serial; the list is all such children in order; the first match decides the parent and the description; otherwise the fixed not-covered result |
| ContractStore.OnlyActiveChildrenCover | store/contract-store.ts:80-91 | with no active child, nothing is covered |
| ContractStore.GetExpiringContracts | store/contract-store.ts:108-115 | an order-preserving subsequence holding exactly the parents expiring within n days |
| ContractStore.ContractStore.constructor | store/contract-store.ts:36-38 | the given parent and child lists, not loading |
| ContractStore.ContractStore.AddParentContract | store/contract-store.ts:40-42 | appends the parent; children unchanged |
| ContractStore.ContractStore.UpdateParentContract | store/contract-store.ts:44-48 | parents become their per-id update; children unchanged |
| ContractStore.ContractStore.DeleteParentContract | store/contract-store.ts:50-53 | removes the parent and its children |
| ContractStore.ContractStore.AddChildContract | store/contract-store.ts:55-57 | appends the child; parents unchanged |
| ContractStore.ContractStore.UpdateChildContract | store/contract-store.ts:59-63 | children become their per-id update; parents unchanged |
| ContractStore.ContractStore.DeleteChildContract | store/contract-store.ts:65-67 | removes the children with the id; parents unchanged |
| TicketStore.TicketId | store/ticket-store.ts:24 | "TKT" then the decimal digits of count+1, three digits when below 1000 |
| TicketStore.NewTicket | store/ticket-store.ts:21-42 | a fresh ticket with that id, both timestamps now, and a single "Ticket Created" entry by the customer |
| TicketStore.StatusActionWording | store/ticket-store.ts:55 | the first underscore of the status becomes a space: "Status Updated to in progress" |
| TicketStore.WithStatus | store/ticket-store.ts:44-66 | the status and stamp are set and exactly one entry is appended with the given author and note; earlier entries and every other field unchanged |
| TicketStore.WithComment | store/ticket-store.ts:68-81 | the comment is appended verbatim and the stamp renewed; every other field of the ticket unchanged |
| TicketStore.WithAssignee | store/ticket-store.ts:83-105 | the assignee and stamp are set and one "Ticket Assigned" entry is appended; every other field unchanged |
| TicketStore.MutatorsTouchOnlyTheirId | store/ticket-store.ts:44-105 | every mutator keeps the count and all tickets with other ids; an unknown id is a no-op |
| TicketStore.NoTransitionGuard | store/ticket-store.ts:44-66 | a closed ticket can be moved to any status |
| TicketStore.TicketsByCustomer | store/ticket-store.ts:107-109 | an order-preserving filter on the customer id |
| TicketStore.TicketById | store/ticket-store.ts:111-113 | the first ticket with the id, or none exactly when no ticket has it |
| TicketStore.TicketStore.constructor | store/ticket-store.ts:19 | the given initial tickets |
| TicketStore.TicketStore.CreateTicket | store/ticket-store.ts:21-42 | appends exactly the new ticket and returns it |
| TicketStore.TicketStore.UpdateTicketStatus | store/ticket-store.ts:44-66 | applies the status update to the matching tickets only |
| TicketStore.TicketStore.AddComment | store/ticket-store.ts:68-81 | applies the comment to the matching tickets only |
| TicketStore.TicketStore.AssignTicket | store/ticket-store.ts:83-105 | applies the assignment to the matching tickets only |
| NotificationStore.NotificationId | store/notification-store.ts:41 | "NOT" then the digits of count+1 |
| NotificationStore.UnreadCount | store/notification-store.ts:57-61 | never more than the number of notifications |
| NotificationStore.MarkRead | store/notification-store.ts:22-29 | same length; only the notifications with the id become read |
| NotificationStore.MarkAllRead | store/notification-store.ts:31-36 | every notification becomes read, nothing else changes |
| NotificationStore.NewNotification | store/notification-store.ts:38-49 | the draft with the next id and the creation time |
| NotificationStore.MarkReadIdempotent | store/notification-store.ts:22-29 | marking the same id twice is marking it once |
| NotificationStore.MarkReadNeverIncreasesUnread | store/notification-store.ts:22-29 | marking read never increases the unread count |
| NotificationStore.MarkReadOfUnreadDecreases | store/notification-store.ts:22-29 | marking an unread notification read strictly decreases the count |
| NotificationStore.MarkAllReadClearsUnread | store/notification-store.ts:31-36 | after marking all read, the unread count is 0 |
| NotificationStore.PrependUnreadCount | store/notification-store.ts:38-49 | prepending adds 1 to the unread count iff the new notification is unread |
| NotificationStore.NotificationsByCustomer | store/notification-store.ts:51-55 | an order-preserving subsequence holding exactly the customer's notifications and the broadcasts |
| NotificationStore.NotificationStore.constructor | store/notification-store.ts:19-20 | the given notifications, with the unread counter equal to the number of unread ones |
| NotificationStore.NotificationStore.MarkAsRead | store/notification-store.ts:22-29 | marks the id read and keeps the counter equal to the unread count |
| NotificationStore.NotificationStore.MarkAllAsRead | store/notification-store.ts:31-36 | marks everything read; counter 0 |
| NotificationStore.NotificationStore.AddNotification | store/notification-store.ts:38-49 | puts the new notification at index 0; counter grows by 1 iff it is unread |
| NotificationStore.NotificationStore.UpdateUnreadCount | store/notification-store.ts:57-61 | recomputes the counter; the list is unchanged |
| InventoryStore.PassesFiltersIsConjunction | store/inventory-store.ts:62-90 | an item passes iff the customer argument, the customer select, the case-insensitive search and the category each admit it |
| InventoryStore.GetFilteredItems | store/inventory-store.ts:62-90 | an order-preserving subsequence holding exactly the items all four conditions admit |
| InventoryStore.DefaultFiltersKeepEverything | store/inventory-store.ts:17-24 | default filters and no customer argument keep every item, in order |
| InventoryStore.StatusAndDatesIgnored | store/inventory-store.ts:62-90 | the status and date filter fields have no effect |
| InventoryStore.SearchIgnoresCase | store/inventory-store.ts:74-82 | upper-casing the search changes nothing |
| InventoryStore.UpdateItems | store/inventory-store.ts:38-44 | same length; only items with the id take the patch, and no timestamp is touched |
| InventoryStore.EmptyPatchIsIdentity | store/inventory-store.ts:38-44 | an empty patch changes nothing |
| InventoryStore.DeleteRemovesExactlyTheId | store/inventory-store.ts:46-50 | deleting keeps, in order, exactly the items with other ids |
| InventoryStore.InventoryStore.constructor | store/inventory-store.ts:29-30 | the given items and the default filters |
| InventoryStore.InventoryStore.AddItem | store/inventory-store.ts:32-36 | appends the item; filters unchanged |
| InventoryStore.InventoryStore.UpdateItem | store/inventory-store.ts:38-44 | items become their per-id update |
| InventoryStore.InventoryStore.DeleteItem | store/inventory-store.ts:46-50 | removes the items with the id |
| InventoryStore.InventoryStore.SetFilters | store/inventory-store.ts:52-56 | overwrites only the supplied filter fields |
| InventoryStore.InventoryStore.ResetFilters | store/inventory-store.ts:58-60 | restores the default filters |
| CustomerStore.GetCustomerById | store/customer-store.ts:18-20 | the first customer with the id in store order, or none exactly when no customer has it |
| CustomerStore.UpdateCustomers | store/customer-store.ts:28-34 | same length; only customers with the id take the patch |
| CustomerStore.AddThenFind | store/customer-store.ts:18-26 | after adding a customer with a new id, looking it up finds it |
| CustomerStore.DuplicateIdIsShadowed | store/customer-store.ts:18-26 | adding a second customer with a known id leaves lookups of that id on the first |
| CustomerStore.AddKeepsOtherLookups | store/customer-store.ts:18-26 | adding never changes the lookup of another id |
| CustomerStore.UpdateThenFind | store/customer-store.ts:18-34 | after an update that keeps the id, the lookup returns the merged customer |
| CustomerStore.CustomerStore.constructor | store/customer-store.ts:16 | the given customers |
| CustomerStore.CustomerStore.AddCustomer | store/customer-store.ts:22-26 | appends the customer |
| CustomerStore.CustomerStore.UpdateCustomer | store/customer-store.ts:28-34 | customers become their per-id update |
| AuthStore.LoginUser | store/auth-store.ts:18-26 | a user is found iff the email has a credential, the password matches and a user with that id exists; the user found is that user |
| AuthStore.SeededLogins | store/auth-store.ts:18-26 | the seeded admin and reseller logins succeed; a wrong admin password fails |
| AuthStore.UnknownEmailRefused | store/auth-store.ts:18-28 | an unknown email never logs in |
| AuthStore.AuthStore.constructor | store/auth-store.ts:16-17 | signed out, not authenticated |
| AuthStore.AuthStore.Login | store/auth-store.ts:18-28 | returns true iff the credentials match; then the session holds that user; otherwise the state is unchanged; authenticated iff a user is present |
| AuthStore.AuthStore.Logout | store/auth-store.ts:30-32 | signed out, not authenticated |
| ResellerContextStore.PageContext | app/contracts/page.tsx:19 | a context is passed iff the user is a reseller; it carries the mode and no selection |
| ResellerContextStore.ResellerContextStore.constructor | store/reseller-context-store.ts:16-17 | mode as_distributor, no selection |
| ResellerContextStore.ResellerContextStore.SetMode | store/reseller-context-store.ts:19 | only the mode changes |
| ResellerContextStore.ResellerContextStore.SetSelectedManagedCustomerId | store/reseller-context-store.ts:20 | only the selection changes |
| ResellerContextStore.ResellerContextStore.Reset | store/reseller-context-store.ts:21 | back to the initial context, so a second reset changes nothing |
| ExportUtils.Escape | lib/export-utils.ts:16 | never shorter than its input; a value without quotes is unchanged |
| ExportUtils.ConvertToCsv | lib/export-utils.ts:3-23 | the loop builds the header line and one line per row; the result is empty iff there is no data |
| ExportUtils.ReadQuotedBodyOfEscape | lib/export-utils.ts:16-17 | reading a doubled-quote body back up to its closing quote recovers the original string |
| ExportUtils.ReadFieldOfField | lib/export-utils.ts:16-17 | a quoted field reads back as its value |
| ExportUtils.ReadFieldsOfLine | lib/export-utils.ts:13-19 | a row line reads back as its cells, in header order |
| ExportUtils.ReadRecordsOfLines | lib/export-utils.ts:12-22 | the row lines joined by newlines read back as the rows, in data order |
| ExportUtils.SplitOfJoin | lib/export-utils.ts:9 | the header line splits back into the headers when no header holds a comma |
| ExportUtils.CsvRoundTrip | lib/export-utils.ts:3-23 | parsing the output gives back the headers and every row's cells (a missing key as "undefined") |
| ExportUtils.RecordCount | lib/export-utils.ts:12-22 | one record per data element, each with exactly as many fields as headers |
| Text.LowerOfUpper | store/inventory-store.ts:74-82 | lower-casing after upper-casing equals lower-casing |
| Text.ContainsIffOccurs | store/inventory-store.ts:74-82 | the substring test holds iff the needle occurs at some index |
| Text.IntToString | app/contracts/new/page.tsx:44-46 | decimal digits whose value is the number, with a leading minus for negatives |
| Text.SequenceNumberRoundTrip | store/ticket-store.ts:24 | the zero-padded number reads back as the number |
| Text.SequentialIdInjective | store/ticket-store.ts:24 | two ids with the same prefix are equal iff their numbers are |
| DashboardPage.ScopedList | app/dashboard/page.tsx:49-71 | an order-preserving subsequence holding exactly the accessible records of the selected customer, or of all accessible customers for "all" |
| DashboardPage.SelectionOutsideScopeIsEmpty | app/dashboard/page.tsx:49-71 | selecting a customer outside the scope lists nothing |
| DashboardPage.ExpiringSoonStatIsWindow | app/dashboard/page.tsx:74-76 | the expiring-soon stat counts exactly the items with 0<d≤90 |
| DashboardPage.ComputeStats | app/dashboard/page.tsx:73-98 | totals are the list lengths; each count is at most its total; open and closed-this-month tickets together are at most the tickets |
| DashboardPage.ExpiryAlertsPartition | app/dashboard/page.tsx:100-119 | the 30/60/90 buckets and the expired list are pairwise disjoint, exclude items without an end date, and together the three buckets are exactly the items expiring within 90 days |
| DashboardPage.RecentTickets | app/dashboard/page.tsx:121-125 | at most 5 tickets, newest first, drawn from the list without repetition (a sub-multiset of it) |
| DashboardPage.RecentTicketsAreNewest | app/dashboard/page.tsx:121-125 | every shown ticket is at least as new as every ticket left out |
| DashboardPage.RecentActivity | app/dashboard/page.tsx:127-149 | the loop's list is a permutation of the first 3 deliveries and the first 2 tickets, newest first, at most 5 |
| InventoryPage.FilteredItems | app/inventory/page.tsx:58-89 | the step-by-step narrowing equals the single conjunction of scope, search, category and status, and is a subsequence of the items |
| InventoryPage.ResellerIgnoresCustomerFilter | app/inventory/page.tsx:61-65 | for a reseller the customer select has no effect |
| InventoryPage.ResellerSeesOwnItems | app/inventory/page.tsx:61-62 | a reseller sees only its own items, and nothing without a customer id |
| InventoryPage.ClearedFiltersListEverything | app/inventory/page.tsx:98-104 | after clearing, a non-reseller sees every item |
| InventoryPage.PaginatedItems | app/inventory/page.tsx:91-94 | at most a page of items, and exactly the page's slice when the page is full |
| InventoryPage.TotalPages | app/inventory/page.tsx:96 | the ceiling of items over page size |
| InventoryPage.PageWithinTotal | app/inventory/page.tsx:91-96 | every item's page number lies between 1 and the total |
| InventoryPage.PageIsSlice | app/inventory/page.tsx:91-94 | page q+1 is the slice from qk of length k, clipped |
| InventoryPage.ItemOnItsPage | app/inventory/page.tsx:91-96 | item i appears on page i/k+1 at position i mod k |
| InventoryPage.InventoryPageState.constructor | app/inventory/page.tsx:44-51 | empty search, "all" in the three selects, page 1 with ten items per page |
| InventoryPage.InventoryPageState.SetItemsPerPage | app/inventory/page.tsx:319-333 | the chosen size of 10, 25 or 50 and the first page; the filters stay |
| InventoryPage.InventoryPageState.HandleClearFilters | app/inventory/page.tsx:98-104 | empty search, the three selects "all", page 1 |
| WarrantyPage.WarrantyItems | app/warranty/page.tsx:48-53 | a reseller's own items; everyone else all items |
| WarrantyPage.Expiring30IsExpiringSoonTier | app/warranty/page.tsx:55-76 | an item counted as expiring within 30 days is in the expiring-soon tier |
| WarrantyPage.ComputeWarrantyStats | app/warranty/page.tsx:55-76 | active, expiring-30 and expired together are at most the items, as is the service count |
| WarrantyPage.EndDatePatchChangesOnlyEndDate | app/warranty/page.tsx:84-91 | saving a warranty changes only the end date |
| WarrantyPage.SetEndDateTouchesOnlyTheItem | app/warranty/page.tsx:84-91 | only the selected item's end date changes |
| WarrantyPage.ServiceField | app/warranty/page.tsx:93-100 | the editor shows "none" exactly for a missing, empty or "none" service type |
| WarrantyPage.StoredServiceType | app/warranty/page.tsx:102-113 | "none" or "" is stored as no service type, anything else as itself |
| WarrantyPage.EditThenSaveServiceType | app/warranty/page.tsx:93-113 | opening and saving unchanged keeps the service type iff it is missing or a real type |
| WarrantyPage.EditThenSaveServiceKeepsItem | app/warranty/page.tsx:93-113 | for such an item, opening and saving unchanged leaves it as it was |
| WarrantyPage.RenewedEndDate | app/warranty/page.tsx:115-119 | midnight of the day one calendar year after the old end date |
| WarrantyPage.RenewalOfLeapDay | app/warranty/page.tsx:115-119 | 29 February 2024 renews to 28 February 2025 |
| WarrantyPage.RenewalOfOrdinaryDate | app/warranty/page.tsx:115-119 | 15 June 2025 renews to 15 June 2026 |
| WarrantyPage.WarrantyPageState.constructor | app/warranty/page.tsx:39-46 | both dialogs closed, nothing selected, no dates, empty service type and notes |
| WarrantyPage.WarrantyPageState.EditWarranty | app/warranty/page.tsx:78-82 | selects the item, loads its end date and opens the warranty dialog; every other dialog field is unchanged |
| WarrantyPage.WarrantyPageState.SaveWarranty | app/warranty/page.tsx:84-91 | with an item and a date, replaces that item's end date in the store, clears the selection and closes the dialog, all other page fields unchanged; otherwise neither the store nor the page changes |
| WarrantyPage.WarrantyPageState.EditService | app/warranty/page.tsx:93-100 | selects the item, loads its service type ("none" when missing or empty) and dates, clears the notes and opens the service dialog; the warranty dialog, its date field and nothing else change |
| WarrantyPage.WarrantyPageState.SaveService | app/warranty/page.tsx:102-113 | with an item, stores the edited service type and dates on it, clears the selection and closes the dialog, all other page fields unchanged; otherwise neither the store nor the page changes |
| WarrantyPage.WarrantyPageState.RenewWarranty | app/warranty/page.tsx:115-119 | sets only the item's end date to the renewed one |
| TicketsPage.FilteredTickets | app/tickets/page.tsx:27-47 | the step-by-step narrowing equals the single conjunction of scope, search and status, and is a subsequence of the "all" tab |
| TicketsPage.ListedWithinScope | app/tickets/page.tsx:27-61 | every listed ticket is in the "all" tab, in the same order |
| TicketsPage.NoFiltersListWholeScope | app/tickets/page.tsx:27-61 | no search and "all" list the whole "all" tab |
| TicketsPage.TicketsByStatus | app/tickets/page.tsx:49-61 | the "all" tab is the scoped list |
| TicketsPage.StatusTabsPartition | app/tickets/page.tsx:49-61 | the four status tabs partition "all": each ticket is in its own status's tab, and the sizes add up |
| TicketsPage.StatusBadgeText | app/tickets/page.tsx:63-71 | the four badge texts, with "in_progress" shown as "in progress" |
| TicketsPage.StatusBadgesDistinct | app/tickets/page.tsx:63-71 | different statuses get different texts and variants |
| TicketsPage.UnderWarrantyOnlyWhenActive | app/tickets/page.tsx:87-91 | "Under Warranty" is shown iff the status is "active" |
| NewTicketPage.UserProducts | app/tickets/new/page.tsx:39-44 | a reseller's own products; everyone else all products |
| NewTicketPage.SelectedProduct | app/tickets/new/page.tsx:46-48 | a product with the selected id among the user's products, or none exactly when there is none |
| NewTicketPage.ResellerPicksOnlyOwnProducts | app/tickets/new/page.tsx:39-48 | a reseller can never pick another customer's product |
| NewTicketPage.GetWarrantyInfo | app/tickets/new/page.tsx:50-55 | the product's tier, and "covered" iff it has a non-empty service type |
| NewTicketPage.WarrantyStatusText | app/tickets/new/page.tsx:72-73 | active, expiring and expired in one-to-one correspondence with the tiers |
| NewTicketPage.TicketCustomer | app/tickets/new/page.tsx:64 | the user's customer id when set, else the product's |
| NewTicketPage.SubmitDraft | app/tickets/new/page.tsx:57-79 | a draft iff a product, a subject and 50 characters of description are present; it is open, unassigned and copies the product and form |
| NewTicketPage.ShortDescriptionRefused | app/tickets/new/page.tsx:58-61 | a description under 50 characters creates nothing |
| NewTicketPage.NewTicketPageState.constructor | app/tickets/new/page.tsx:32-37 | step 1, no product, category "Hardware Issue", priority "medium", empty subject and description |
| NewTicketPage.NewTicketPageState.SelectProduct | app/tickets/new/page.tsx:116 | on step 1, only the selected product id changes |
| NewTicketPage.NewTicketPageState.EditDetails | app/tickets/new/page.tsx:194-241 | on step 2, category, priority, subject and description take the typed values; step and product stay |
| NewTicketPage.NewTicketPageState.NextToDetails | app/tickets/new/page.tsx:173-176 | step 2 only with a selected product |
| NewTicketPage.NewTicketPageState.NextToReview | app/tickets/new/page.tsx:254-256 | step 3 only with a subject and a long enough description |
| NewTicketPage.NewTicketPageState.Back | app/tickets/new/page.tsx:250-301 | one step back from step 2 or 3, with every field kept |
| NewTicketPage.NewTicketPageState.HandleSubmit | app/tickets/new/page.tsx:57-79 | exactly one ticket created from the draft, or nothing |
| HistoryPage.DeliveredAssets | app/history/page.tsx:37-40 | a permutation of the scoped items, latest delivery first |
| HistoryPage.ClosedTickets | app/history/page.tsx:56-60 | exactly the scoped closed or resolved tickets, most recently updated first |
| HistoryPage.OpenTicketsNotInHistory | app/history/page.tsx:56-60 | open and in-progress tickets never appear |
| HistoryPage.ResolutionDays | app/history/page.tsx:229-232 | the number of whole days completed between creation and the last update, truncated toward zero |
| HistoryPage.HistoryStatusBadge | app/history/page.tsx:240-242 | the status as text, "success" exactly for resolved and "secondary" otherwise |
| HistoryPage.ResolutionLabel | app/history/page.tsx:229-252 | the label is the day count's digits followed by the unit, and ends in " day" iff the difference is exactly 1 |
| NotificationsPage.UserNotifications | app/notifications/page.tsx:20-24 | in order, the user's customer's notifications and the broadcasts |
| NotificationsPage.NoCustomerSeesOnlyBroadcasts | app/notifications/page.tsx:20-24 | without a customer id only broadcasts are shown |
| NotificationsPage.AgeOf | app/notifications/page.tsx:26-48 | today, yesterday and this week are tested in that priority |
| NotificationsPage.GroupNotifications | app/notifications/page.tsx:26-48 | the loop builds exactly the four order-preserving age filters |
| NotificationsPage.GroupsPartition | app/notifications/page.tsx:26-48 | every visible notification is in exactly the group its age names; the sizes add up |
| NotificationsPage.HandleNotificationClick | app/notifications/page.tsx:68-72 | marks read only when unread; the counter never grows |
| NotificationsPage.HandleMarkAllRead | app/notifications/page.tsx:63-66 | everything read, counter 0 |
| ContractsPage.AccessibleContracts | app/contracts/page.tsx:21-25 | an order-preserving subsequence holding exactly the contracts whose customer the user can access |
| ContractsPage.CanCreateExactly | app/contracts/page.tsx:27-31 | may create iff signed in as a distributor or as a reseller acting as distributor |
| ContractsPage.ComputeStats | app/contracts/page.tsx:33-38 | active, expiring and expired plus drafts and terminated make the total, so the three are at most the total |
| ContractsPage.SignedOutSeesNoContracts | app/contracts/page.tsx:21-38 | signed out, no contracts are listed and the total is 0 |
| NewContractPage.AccessibleCustomers | app/contracts/new/page.tsx:39-40 | exactly the customers the user can access, in order |
| NewContractPage.ContractPrefix | app/contracts/new/page.tsx:43 | "SATMZ" for a distributor, otherwise the upper-cased first word of the company name, falling back to "CONT" |
| NewContractPage.ContractNumber | app/contracts/new/page.tsx:42-47 | the prefix, a dash, the year's decimal digits, "-PC-", then count+1 padded to three digits; the tail reads back as count+1 when below 1000 |
| NewContractPage.ContractNumberLayout | app/contracts/new/page.tsx:42-47 | sliced left to right, the number is exactly the prefix, a dash, the year's digits, "-PC-" and the padded count+1, with nothing else |
| NewContractPage.ContractNumbersDiffer | app/contracts/new/page.tsx:42-47 | different counts give different numbers for the same user and year |
| NewContractPage.ContractId | app/contracts/new/page.tsx:56 | "PC" then the digits of count+1 |
| NewContractPage.IdReusedAfterDelete | app/contracts/new/page.tsx:56 | after deleting PC001 of two contracts, the next id is PC002, which is still taken |
| NewContractPage.ReminderDays | app/contracts/new/page.tsx:73 | the parsed days, or 60 when parsing gives NaN or 0 |
| NewContractPage.NewContract | app/contracts/new/page.tsx:49-78 | a contract iff signed in with a selected, existing customer; active, empty product and child lists, the customer's name, the reminder fallback |
| NewContractPage.NewContractPageState.constructor | app/contracts/new/page.tsx:26-37 | step 1 with no customer, title, description or total, today to 365 days on, the standard terms, auto-renewal on and a 60-day reminder |
| NewContractPage.NewContractPageState.SelectCustomer | app/contracts/new/page.tsx:124 | on step 1, only the form's customer changes |
| NewContractPage.NewContractPageState.EditDetails | app/contracts/new/page.tsx:153-224 | on step 2, every detail takes the typed value while the chosen customer stays |
| NewContractPage.NewContractPageState.NextToDetails | app/contracts/new/page.tsx:138 | step 2 only with a selected customer |
| NewContractPage.NewContractPageState.NextToReview | app/contracts/new/page.tsx:236 | step 3 only with a title and a total value |
| NewContractPage.NewContractPageState.Back | app/contracts/new/page.tsx:232-282 | one step back from step 2 or 3, with the form kept |
| NewContractPage.NewContractPageState.HandleSubmit | app/contracts/new/page.tsx:49-78 | appends exactly the new contract, or nothing |
| NewProductPage.AccessibleCustomers | app/inventory/new/page.tsx:28-29 | exactly the customers the user can access, in order |
| NewProductPage.Quantity | app/inventory/new/page.tsx:58 | the parsed quantity, or 1 when parsing gives NaN or 0 |
| NewProductPage.NewProduct | app/inventory/new/page.tsx:52-88 | refused iff a required field is empty; otherwise delivered, total = unit price × quantity, no contract and no service |
| NewProductPage.InitialForm | app/inventory/new/page.tsx:31-47 | every text field empty except category "Server" and quantity "1"; delivered and warranty from the start of today, warranty ending a calendar year later |
| NewProductPage.InitialFormRefused | app/inventory/new/page.tsx:31-55 | the untouched form is refused |
| NewProductPage.NewProductHasNoService | app/inventory/new/page.tsx:60-88 | a new product has no service type, contract ids or service dates |
| NewProductPage.HandleSubmit | app/inventory/new/page.tsx:49-90 | adds exactly the new product, or leaves the store unchanged with the message |
| ProfilePage.PasswordChangeOutcome | app/profile/page.tsx:31-44 | accepted iff the two entries match and are at least 6 long; a mismatch is reported first |
| ProfilePage.MismatchCheckedFirst | app/profile/page.tsx:31-39 | short mismatching entries report the mismatch |
| ProfilePage.ResubmitAfterClearRefused | app/profile/page.tsx:36-43 | the cleared fields are refused as too short |
| ProfilePage.ProfilePageState.constructor | app/profile/page.tsx:19-25 | company name and email from the signed-in user (empty when signed out), the fixed phone and address, empty password fields |
| ProfilePage.ProfilePageState.EditPasswords | app/profile/page.tsx:180-202 | the three password fields take the typed values; the profile fields stay |
| ProfilePage.ProfilePageState.HandleChangePassword | app/profile/page.tsx:31-44 | on refusal nothing changes; on success the three password fields are cleared |
| ContractList.CustomerText | components/contracts/contract-list.tsx:26 | the customer name, or "Customer ID: " and the id when there is none |
| ContractList.Present | components/contracts/contract-list.tsx:24 | exactly the entries that are present |
| ContractList.FilteredContracts | components/contracts/contract-list.tsx:20-36 | none for a non-list; otherwise an order-preserving subsequence of the present entries holding exactly those matching search and status |
| ContractList.TotalShown | components/contracts/contract-list.tsx:87 | 0 for a non-list; otherwise exactly the input's length, empty slots included, which bounds the present and the shown entries |
| ContractList.NoFiltersShowAllPresent | components/contracts/contract-list.tsx:20-36 | no search and "all" show every present entry |
| ContractList.FoundByCustomerId | components/contracts/contract-list.tsx:26-30 | an entry without a customer name is found by its customer id |
| ContractList.StatusNarrows | components/contracts/contract-list.tsx:32 | a status filter never shows more than "all" |

## Left out

- Persistence to local storage, file downloads, rendering, routing, toasts and React hook timing have no logic to model.
- The clock is a `now` parameter. Generated ids that use the current time are built from `now`.
- Time zones and daylight saving are not modelled. Every instant is UTC, and "today", "yesterday", "this week" (starting Sunday), month, year and "add one year" use UTC calendar days.
- Lower- and upper-casing cover ASCII letters only.
- Calendar.DifferenceInDays: computed on UTC milliseconds; the calendar-aware adjustment a date library makes across daylight-saving changes is absent.
- A missing warranty end date is read as an invalid date. Its day difference is NaN, every comparison on it is false, and the item is in the active tier and in no day window.
- Numeric parsing is an input. A parsed total value, unit price, quantity or reminder is passed in, and NaN is `None`. A unit price that parses to NaN cannot be expressed, so the NaN total price it would give is not modelled.
- Form dates are held as instants, not as the date strings the screens store. Emptying a delivery or contract date field is not modelled. An emptied warranty or service date is `None`.
- NewContractPage.ContractNumber: the year is the UTC year of `now`.
- NewContractPage.ContractNumber: that the tail is exactly three digits reading back as count+1 is stated only for counts below 999. Above that the tail grows, as it does in the source.
- WarrantyPage.RenewedEndDate: the one-year step is stated as a day index and checked on a leap day and an ordinary date, not proved as a calendar identity for every date.
- Strings are sequences of characters. JavaScript measures length in UTF-16 code units, which differs for characters outside the basic plane.
- The seed contracts are not part of this model's fixtures; the contract store takes its initial lists as a constructor argument.
- The ticket record drops `contractId`, `contractNumber`, `coverageDetails` and `resolvedAt` (lib/types.ts:77-78, 88, 91): no ticket operation reads or sets them, and the new-ticket screen does not supply them (app/tickets/new/page.tsx:63-75).
- The login screen's schema validation and delay, the settings screen, the header and the remaining display components are left out. The login itself is modelled in the auth store.
- The profile screen's profile-save and two-factor handlers only show a toast, so they are left out.
- ExportUtils.CsvRoundTrip: stated for non-empty data and headers free of commas and newlines. Values are given as already-stringified text, so `String(value)` is not modelled.
- InventoryPage.TotalPages: requires a positive page size; the screen starts at 10 and its select offers only 10, 25 and 50.
- HistoryPage.DeliveredAssets: states a permutation sorted latest first, but not the input order among equal delivery dates that a stable sort keeps. The same holds for HistoryPage.ClosedTickets, DashboardPage.RecentTickets and DashboardPage.RecentActivity.

=== FILE: auth_store.dfy ===
/**
 * The signed-in session. Login looks the e-mail address up in the credential
 * table, compares the password exactly and then finds the user by id; any
 * failure leaves the session as it was. The store keeps `isAuthenticated` equal
 * to "a user is present".
 */
module AuthStore {
  import opened Wrappers
  import opened Seqs
  import opened Types
  import DummyData

  function UserIdIs(id: string): User -> bool { (u: User) => u.id == id }

  /** The user `login(email, password)` would sign in, or None when it returns false. */
  function LoginUser(credentials: map<string, DummyData.Credential>, users: seq<User>, email: string, password: string)
    : (r: Option<User>)
    ensures r.Some? <==> email in credentials && credentials[email].password == password
                         && exists i :: 0 <= i < |users| && users[i].id == credentials[email].userId
    ensures r.Some? ==> r.value in users && r.value.id == credentials[email].userId
  {
    if email in credentials && credentials[email].password == password then
      Find(users, UserIdIs(credentials[email].userId))
    else None
  }

  /** The seeded accounts sign in with their own passwords and with no other. */
  lemma SeededLogins(password: string)
    ensures LoginUser(DummyData.LoginCredentials, DummyData.DummyUsers, "admin@satmz.com", "admin123")
         == Some(DummyData.DummyUsers[0])
    ensures LoginUser(DummyData.LoginCredentials, DummyData.DummyUsers, "reseller1@satmz.com", "reseller123")
         == Some(DummyData.DummyUsers[1])
    ensures password != "admin123" ==>
              LoginUser(DummyData.LoginCredentials, DummyData.DummyUsers, "admin@satmz.com", password).None?
  {
    var admin := DummyData.LoginCredentials["admin@satmz.com"];
    assert Find(DummyData.DummyUsers, UserIdIs(admin.userId)) == Some(DummyData.DummyUsers[0]);
    var r1 := DummyData.LoginCredentials["reseller1@satmz.com"];
    assert !UserIdIs(r1.userId)(DummyData.DummyUsers[0]);
    assert DummyData.DummyUsers == [DummyData.DummyUsers[0]] + DummyData.DummyUsers[1..];
    FindAfterMisses([DummyData.DummyUsers[0]], DummyData.DummyUsers[1..], UserIdIs(r1.userId));
  }

  /** An address the table does not list never signs in, whatever the password. */
  lemma UnknownEmailRefused(email: string, password: string)
    requires email !in DummyData.LoginCredentials
    ensures LoginUser(DummyData.LoginCredentials, DummyData.DummyUsers, email, password).None?
  {
  }

  class AuthStore {
    var user: Option<User>
    var isAuthenticated: bool
    const credentials: map<string, DummyData.Credential>
    const users: seq<User>

    /** The flag says exactly whether a user is signed in. */
    ghost predicate Valid()
      reads this
    {
      isAuthenticated <==> user.Some?
    }

    constructor (credentials: map<string, DummyData.Credential>, users: seq<User>)
      ensures Valid() && user.None? && this.credentials == credentials && this.users == users
    {
      user := None;
      isAuthenticated := false;
      this.credentials := credentials;
      this.users := users;
    }

    /** `login`: on success the found user is signed in; on failure nothing changes. */
    method Login(email: string, password: string) returns (ok: bool)
      requires Valid()
      modifies this
      ensures Valid()
      ensures ok <==> LoginUser(credentials, users, email, password).Some?
      ensures ok ==> user == LoginUser(credentials, users, email, password)
      ensures !ok ==> user == old(user) && isAuthenticated == old(isAuthenticated)
    {
      var found := LoginUser(credentials, users, email, password);
      if found.Some? {
        user := found;
        isAuthenticated := true;
        return true;
      }
      return false;
    }

    /** `logout`. */
    method Logout()
      modifies this
      ensures Valid() && user.None?
    {
      user := None;
      isAuthenticated := false;
    }
  }
}

=== FILE: badges.dfy ===
/**
 * The badges the list screens show for a warranty end date. The inventory and
 * warranty screens use the same rule: the expiry tier first, then the remaining
 * day count.
 */
module Badges {
  import opened Wrappers
  import opened Calendar
  import DateUtils

  datatype Variant = Danger | Warning | Success | Destructive | Secondary

  datatype Badge = Badge(text: string, variant: Variant)

  /**
   * `getStatusBadge` / `getWarrantyBadge`. A missing end date reaches the
   * classifier as an invalid date: its status is "active" and every comparison
   * with its NaN day count fails, so it shows the "Active" badge.
   */
  function ExpiryBadge(endDate: Option<Instant>, now: Instant): Badge {
    match endDate
    case None => Badge("Active", Success)
    case Some(e) =>
      var status := DateUtils.GetWarrantyStatus(e, now);
      if status.status == DateUtils.Expired then Badge("Expired", Danger)
      else if status.daysRemaining <= 30 then Badge("Expiring Soon", Danger)
      else if status.daysRemaining <= 90 then Badge("Expiring Soon", Warning)
      else Badge("Active", Success)
  }

  /**
   * The badge agrees with the classifier: its variant is the colour sub-tier
   * (danger for red, warning for amber, success for green) and its text names
   * the tier.
   */
  lemma ExpiryBadgeFollowsClassifier(e: Instant, now: Instant)
    ensures var b := ExpiryBadge(Some(e), now); var s := DateUtils.GetWarrantyStatus(e, now);
      && (b.variant == Danger <==> s.color == DateUtils.Red)
      && (b.variant == Warning <==> s.color == DateUtils.Amber)
      && (b.variant == Success <==> s.color == DateUtils.Green)
      && (b.text == "Expired" <==> s.status == DateUtils.Expired)
      && (b.text == "Expiring Soon" <==> s.status == DateUtils.ExpiringSoon)
      && (b.text == "Active" <==> s.status == DateUtils.Active)
  {
  }

  /** A missing end date looks like an active warranty. */
  lemma MissingEndDateShowsActive(now: Instant)
    ensures ExpiryBadge(None, now) == Badge("Active", Success)
    ensures DateUtils.TierOf(None, now) == DateUtils.Active
  {
  }
}

=== FILE: calendar.dfy ===
/**
 * Time as the dashboard's date library sees it, in UTC: instants are milliseconds
 * since the Unix epoch (what `Date.getTime()` returns). The clock is never read
 * here; callers pass `now` in.
 */
module Calendar {

  /** Milliseconds since 1970-01-01T00:00:00Z. */
  type Instant = int

  const MsPerDay: int := 86_400_000

  /** `differenceInDays(later, earlier)`: whole days between two instants, truncated toward zero. */
  function DifferenceInDays(later: Instant, earlier: Instant): (d: int)
    ensures later >= earlier ==> d >= 0 && d * MsPerDay <= later - earlier < (d + 1) * MsPerDay
    ensures later < earlier ==> d <= 0 && (-d) * MsPerDay <= earlier - later < (-d + 1) * MsPerDay
  {
    if later >= earlier then (later - earlier) / MsPerDay
    else -((earlier - later) / MsPerDay)
  }

  /** Swapping the arguments negates the difference: truncation is symmetric about zero. */
  lemma DifferenceAntisymmetric(a: Instant, b: Instant)
    ensures DifferenceInDays(a, b) == -DifferenceInDays(b, a)
  {
  }

  /** The UTC calendar day an instant falls on, counted from 1970-01-01 (day 0, a Thursday). */
  function DayIndex(t: Instant): int {
    t / MsPerDay
  }

  /** Weeks that start on Sunday (date-fns' default), counted so that the week holding day 0 is week 0. */
  function WeekIndex(t: Instant): int {
    (DayIndex(t) + 4) / 7
  }

  /** `isToday(t)`. */
  predicate IsToday(t: Instant, now: Instant) {
    DayIndex(t) == DayIndex(now)
  }

  /** `isYesterday(t)`. */
  predicate IsYesterday(t: Instant, now: Instant) {
    DayIndex(t) == DayIndex(now) - 1
  }

  /** `isThisWeek(t)`: same Sunday-to-Saturday week as now, including later days of it. */
  predicate IsThisWeek(t: Instant, now: Instant) {
    WeekIndex(t) == WeekIndex(now)
  }

  datatype CivilDate = CivilDate(year: int, month: int, day: int)

  /** Proleptic Gregorian date of a day index (H. Hinnant's `civil_from_days`). */
  function CivilFromDays(z: int): (c: CivilDate)
    ensures 1 <= c.month <= 12 && 1 <= c.day <= 31
  {
    var z' := z + 719468;
    var era := z' / 146097;
    var doe := z' - era * 146097;
    var yoe := (doe - doe / 1460 + doe / 36524 - doe / 146096) / 365;
    var doy := doe - (365 * yoe + yoe / 4 - yoe / 100);
    var mp := (5 * doy + 2) / 153;
    var d := doy - (153 * mp + 2) / 5 + 1;
    var m := if mp < 10 then mp + 3 else mp - 9;
    var y := yoe + era * 400 + (if m <= 2 then 1 else 0);
    CivilDate(y, m, d)
  }

  /** Day index of a proleptic Gregorian date (H. Hinnant's `days_from_civil`). */
  function DaysFromCivil(c: CivilDate): int {
    var y := c.year - (if c.month <= 2 then 1 else 0);
    var era := y / 400;
    var yoe := y - era * 400;
    var mp := (c.month + 9) % 12;
    var doy := (153 * mp + 2) / 5 + c.day - 1;
    var doe := yoe * 365 + yoe / 4 - yoe / 100 + doy;
    era * 146097 + doe - 719468
  }

  predicate IsLeapYear(y: int) {
    (y % 4 == 0 && y % 100 != 0) || y % 400 == 0
  }

  function DaysInMonth(y: int, m: int): (n: int)
    ensures 28 <= n <= 31
  {
    if m == 2 then (if IsLeapYear(y) then 29 else 28)
    else if m == 4 || m == 6 || m == 9 || m == 11 then 30
    else 31
  }

  /** The calendar date (UTC) of an instant. */
  function DateOf(t: Instant): CivilDate {
    CivilFromDays(DayIndex(t))
  }

  /**
   * `addYears(t, n)`: same month and day `n` years on, falling back to the last
   * day of the month (29 February becomes 28 February), time of day kept.
   */
  function AddYears(t: Instant, n: int): Instant {
    var c := DateOf(t);
    var y := c.year + n;
    var d := if c.day > DaysInMonth(y, c.month) then DaysInMonth(y, c.month) else c.day;
    DaysFromCivil(CivilDate(y, c.month, d)) * MsPerDay + t % MsPerDay
  }

  /** An instant truncated to the start of its UTC day: what a `yyyy-MM-dd` string parses back to. */
  function StartOfDay(t: Instant): (r: Instant)
    ensures r <= t < r + MsPerDay
    ensures DayIndex(r) == DayIndex(t)
  {
    DayIndex(t) * MsPerDay
  }
}

=== FILE: contract_list.dfy ===
/**
 * The contract list component: given whatever it is handed (a list of parent
 * and child contracts, possibly with empty slots, or not a list at all), it
 * shows the contracts matching the search text and the selected status.
 */
module ContractList {
  import opened Wrappers
  import opened Seqs
  import opened Text
  import opened Types

  /** A listed contract: the component accepts parents and children alike. */
  datatype Listed = Parent(parent: ParentContract) | Child(child: ChildContract) {
    function ContractNumber(): string {
      match this
      case Parent(p) => p.contractNumber
      case Child(c) => c.contractNumber
    }

    function Title(): string {
      match this
      case Parent(p) => p.title
      case Child(c) => c.title
    }

    function CustomerId(): string {
      match this
      case Parent(p) => p.customerId
      case Child(c) => c.customerId
    }

    function Status(): ContractStatus {
      match this
      case Parent(p) => p.status
      case Child(c) => c.status
    }
  }

  const CustomerIdLabel: string := "Customer ID: "

  /** The customer text that is searched: the customer name, or "Customer ID: <id>" when there is none. */
  function CustomerText(c: Listed): (r: string)
    ensures c.Child? ==> r == CustomerIdLabel + c.child.customerId
    ensures c.Parent? && c.parent.customerName != "" ==> r == c.parent.customerName
    ensures c.Parent? && c.parent.customerName == "" ==> r == CustomerIdLabel + c.parent.customerId
  {
    if c.Parent? && c.parent.customerName != "" then c.parent.customerName
    else CustomerIdLabel + c.CustomerId()
  }

  /** The search matches, ignoring case, the contract number, the title or the customer text. */
  predicate MatchesSearch(c: Listed, term: string) {
    MatchesQuery(c.ContractNumber(), term) || MatchesQuery(c.Title(), term) || MatchesQuery(CustomerText(c), term)
  }

  /** The status filter; None is "all". */
  predicate MatchesStatus(c: Listed, statusFilter: Option<ContractStatus>) {
    statusFilter.None? || c.Status() == statusFilter.value
  }

  function ShownBy(term: string, statusFilter: Option<ContractStatus>): Listed -> bool {
    (c: Listed) => MatchesSearch(c, term) && MatchesStatus(c, statusFilter)
  }

  /** The entries that are present, in order: empty slots are skipped. */
  function Present(entries: seq<Option<Listed>>): (r: seq<Listed>)
    ensures |r| <= |entries|
    ensures forall c :: c in r <==> Some(c) in entries
    decreases |entries|
  {
    if entries == [] then []
    else
      var rest := Present(entries[1..]);
      assert forall e :: e in entries <==> e == entries[0] || e in entries[1..];
      if entries[0].Some? then [entries[0].value] + rest else rest
  }

  /**
   * `filteredContracts`: nothing when the input is not a list; otherwise the
   * present entries that match both the search and the status, in order.
   */
  function FilteredContracts(contracts: Option<seq<Option<Listed>>>, term: string,
                             statusFilter: Option<ContractStatus>): (r: seq<Listed>)
    ensures contracts.None? ==> r == []
    ensures contracts.Some? ==> IsSubsequence(r, Present(contracts.value))
    ensures forall c :: c in r <==>
              contracts.Some? && Some(c) in contracts.value && MatchesSearch(c, term) && MatchesStatus(c, statusFilter)
    ensures |r| <= TotalShown(contracts)
  {
    if contracts.None? then []
    else
      var present := Present(contracts.value);
      FilterIsSubsequence(present, ShownBy(term, statusFilter));
      Filter(present, ShownBy(term, statusFilter))
  }

  /** The "of N" in "Showing n of N contracts": the input's length, or 0 when it is not a list. */
  function TotalShown(contracts: Option<seq<Option<Listed>>>): (n: nat)
    ensures contracts.None? ==> n == 0
    ensures contracts.Some? ==> n == |contracts.value|
    ensures contracts.Some? ==> |Present(contracts.value)| <= n
  {
    if contracts.Some? then |contracts.value| else 0
  }

  /** With an empty search and "all" statuses, every present entry is shown. */
  lemma NoFiltersShowAllPresent(entries: seq<Option<Listed>>)
    ensures FilteredContracts(Some(entries), "", None) == Present(entries)
  {
    var present := Present(entries);
    forall i | 0 <= i < |present|
      ensures ShownBy("", None)(present[i])
    {
      ContainsEmpty(Lower(present[i].ContractNumber()));
    }
    FilterKeepsAll(present, ShownBy("", None));
  }

  /** A contract without a customer name is found by searching for its customer id. */
  lemma FoundByCustomerId(c: Listed)
    requires c.Child? || c.parent.customerName == ""
    ensures MatchesSearch(c, c.CustomerId())
  {
    assert CustomerText(c) == CustomerIdLabel + c.CustomerId();
    FoundAfterLabel(CustomerIdLabel, c.CustomerId());
  }

  /** A text ending in the query matches it. */
  lemma FoundAfterLabel(prefix: string, id: string)
    ensures MatchesQuery(prefix + id, id)
  {
    LowerAppend(prefix, id);
    ContainsSuffix(Lower(prefix), Lower(id));
  }

  lemma LowerAppend(a: string, b: string)
    ensures Lower(a + b) == Lower(a) + Lower(b)
  {
  }

  lemma ContainsSuffix(a: string, b: string)
    ensures Contains(a + b, b)
  {
    assert (a + b)[|a|..|a| + |b|] == b;
    OccursImpliesContains(a + b, b, |a|);
  }

  /** Narrowing the status never shows more than "all" does. */
  lemma StatusNarrows(contracts: Option<seq<Option<Listed>>>, term: string, status: ContractStatus)
    ensures |FilteredContracts(contracts, term, Some(status))| <= |FilteredContracts(contracts, term, None)|
  {
    if contracts.Some? {
      var present := Present(contracts.value);
      FilterThen(present, ShownBy(term, None), ShownBy(term, Some(status)), ShownBy(term, Some(status)));
      FilterIsSubsequence(Filter(present, ShownBy(term, None)), ShownBy(term, Some(status)));
    }
  }
}

=== FILE: contract_store.dfy ===
/**
 * The contract store: parent contracts and the child contracts (AMC, support,
 * licence, extended warranty) that hang off them, with a cascading delete, a
 * serial-number coverage resolver and an expiry window query.
 */
module ContractStore {
  import opened Wrappers
  import opened Seqs
  import opened Calendar
  import opened Types
  import DateUtils

  /** Selectors shared by the store's updates and queries. */
  function ParentIdIs(id: string): ParentContract -> bool { (c: ParentContract) => c.id == id }
  function ParentIdIsNot(id: string): ParentContract -> bool { (c: ParentContract) => c.id != id }
  function ParentStatusIs(status: ContractStatus): ParentContract -> bool { (c: ParentContract) => c.status == status }
  function ParentCustomerIs(customerId: string): ParentContract -> bool { (c: ParentContract) => c.customerId == customerId }
  function ChildIdIs(id: string): ChildContract -> bool { (c: ChildContract) => c.id == id }
  function ChildIdIsNot(id: string): ChildContract -> bool { (c: ChildContract) => c.id != id }
  function ChildParentIs(parentId: string): ChildContract -> bool { (c: ChildContract) => c.parentContractId == parentId }
  function ChildParentIsNot(parentId: string): ChildContract -> bool { (c: ChildContract) => c.parentContractId != parentId }

  /** `updateParentContract`'s rewrite: matching ids are merged and re-stamped, the rest stay. */
  function UpdateParents(parents: seq<ParentContract>, id: string, updates: ParentPatch, now: Instant)
    : (r: seq<ParentContract>)
    ensures |r| == |parents|
    ensures forall i :: 0 <= i < |parents| ==>
              r[i] == if parents[i].id == id then updates.ApplyTo(parents[i], now) else parents[i]
  {
    UpdateWhere(parents, ParentIdIs(id), (c: ParentContract) => updates.ApplyTo(c, now))
  }

  /** `updateChildContract`'s rewrite. */
  function UpdateChildren(children: seq<ChildContract>, id: string, updates: ChildPatch, now: Instant)
    : (r: seq<ChildContract>)
    ensures |r| == |children|
    ensures forall i :: 0 <= i < |children| ==>
              r[i] == if children[i].id == id then updates.ApplyTo(children[i], now) else children[i]
  {
    UpdateWhere(children, ChildIdIs(id), (c: ChildContract) => updates.ApplyTo(c, now))
  }

  /** An update naming an id no contract has changes nothing. */
  lemma UpdateUnknownIdIsNoOp(parents: seq<ParentContract>, children: seq<ChildContract>, id: string,
                              pu: ParentPatch, cu: ChildPatch, now: Instant)
    requires forall i :: 0 <= i < |parents| ==> parents[i].id != id
    requires forall i :: 0 <= i < |children| ==> children[i].id != id
    ensures UpdateParents(parents, id, pu, now) == parents
    ensures UpdateChildren(children, id, cu, now) == children
  {
  }

  /**
   * `deleteParentContract(id)`: the parents that remain and the children that
   * remain. Every parent with the id and every child pointing at it go; the rest
   * keep their relative order.
   */
  lemma CascadeDelete(parents: seq<ParentContract>, children: seq<ChildContract>, id: string)
    ensures IsSubsequence(Filter(parents, ParentIdIsNot(id)), parents)
    ensures IsSubsequence(Filter(children, ChildParentIsNot(id)), children)
    ensures forall c :: c in Filter(parents, ParentIdIsNot(id)) <==> c in parents && c.id != id
    ensures forall c :: c in Filter(children, ChildParentIsNot(id)) <==> c in children && c.parentContractId != id
    ensures |Filter(parents, ParentIdIsNot(id))| + |Filter(parents, ParentIdIs(id))| == |parents|
  {
    FilterIsSubsequence(parents, ParentIdIsNot(id));
    FilterIsSubsequence(children, ChildParentIsNot(id));
    FilterSplitCount(parents, ParentIdIs(id));
    FilterCongruent(parents, (x: ParentContract) => !ParentIdIs(id)(x), ParentIdIsNot(id));
  }

  /** `deleteChildContract(id)` keeps every other child in order and removes exactly that id. */
  lemma DeleteChildOnly(children: seq<ChildContract>, id: string)
    ensures IsSubsequence(Filter(children, ChildIdIsNot(id)), children)
    ensures forall c :: c in Filter(children, ChildIdIsNot(id)) <==> c in children && c.id != id
  {
    FilterIsSubsequence(children, ChildIdIsNot(id));
  }

  /** `getContractsByCustomerId(customerId)`: that customer's parents, in store order. */
  function ContractsByCustomerId(parents: seq<ParentContract>, customerId: string): (r: seq<ParentContract>)
    ensures IsSubsequence(r, parents)
    ensures forall c :: c in r <==> c in parents && c.customerId == customerId
  {
    FilterIsSubsequence(parents, ParentCustomerIs(customerId));
    Filter(parents, ParentCustomerIs(customerId))
  }

  /** `getChildContractsByParentId(parentId)`: that parent's children, in store order. */
  function ChildContractsByParentId(children: seq<ChildContract>, parentId: string): (r: seq<ChildContract>)
    ensures IsSubsequence(r, children)
    ensures forall c :: c in r <==> c in children && c.parentContractId == parentId
  {
    FilterIsSubsequence(children, ChildParentIs(parentId));
    Filter(children, ChildParentIs(parentId))
  }

  /** `getContractById(id)`: the first parent with the id, or null. */
  function ContractById(parents: seq<ParentContract>, id: string): (r: Option<ParentContract>)
    ensures r.None? <==> forall i :: 0 <= i < |parents| ==> parents[i].id != id
    ensures r.Some? ==> exists i :: 0 <= i < |parents| && parents[i] == r.value && r.value.id == id
                                    && forall j :: 0 <= j < i ==> parents[j].id != id
  {
    Find(parents, ParentIdIs(id))
  }

  /** `getChildContractById(id)`: the first child with the id, or null. */
  function ChildContractById(children: seq<ChildContract>, id: string): (r: Option<ChildContract>)
    ensures r.None? <==> forall i :: 0 <= i < |children| ==> children[i].id != id
    ensures r.Some? ==> exists i :: 0 <= i < |children| && children[i] == r.value && r.value.id == id
                                    && forall j :: 0 <= j < i ==> children[j].id != id
  {
    Find(children, ChildIdIs(id))
  }

  datatype Coverage = Coverage(
    parentContract: Option<ParentContract>,
    childContracts: seq<ChildContract>,
    isCovered: bool,
    coverageDetails: string)

  const NotCovered: string := "Not covered under any active contract"

  /** An active child contract that lists the serial number. */
  predicate Covers(c: ChildContract, serialNumber: string) {
    serialNumber in c.coveredSerialNumbers && c.status == Active
  }

  function CoversSerial(serialNumber: string): ChildContract -> bool { (c: ChildContract) => Covers(c, serialNumber) }

  /** The sentence built from the primary (first) covering child. */
  function CoverageSentence(c: ChildContract): string {
    "Covered under " + c.kind.Label() + " - " + c.responseTime + " response time (" + c.coverageType.Label() + " coverage)"
  }

  /**
   * `getContractCoverage(serialNumber)`. Uncovered when no active child lists the
   * serial; otherwise all such children in store order, the first of them decides
   * the parent (the first parent with its `parentContractId`, null when missing)
   * and the description.
   */
  function GetContractCoverage(parents: seq<ParentContract>, children: seq<ChildContract>, serialNumber: string)
    : (r: Coverage)
    ensures r.isCovered <==> exists i :: 0 <= i < |children| && Covers(children[i], serialNumber)
    ensures !r.isCovered ==> r == Coverage(None, [], false, NotCovered)
    ensures forall c :: c in r.childContracts <==> c in children && Covers(c, serialNumber)
    ensures IsSubsequence(r.childContracts, children)
    ensures r.isCovered ==>
              var first := children[FirstIndex(children, CoversSerial(serialNumber)).value];
              && r.childContracts[0] == first
              && r.parentContract == Find(parents, ParentIdIs(first.parentContractId))
              && r.coverageDetails == CoverageSentence(first)
  {
    var covering := Filter(children, CoversSerial(serialNumber));
    FilterHead(children, CoversSerial(serialNumber));
    FilterIsSubsequence(children, CoversSerial(serialNumber));
    if |covering| == 0 then
      Coverage(None, [], false, NotCovered)
    else
      var primary := covering[0];
      Coverage(Find(parents, ParentIdIs(primary.parentContractId)), covering, true, CoverageSentence(primary))
  }

  /** Draft, expiring, expired and terminated child contracts never provide coverage. */
  lemma OnlyActiveChildrenCover(parents: seq<ParentContract>, children: seq<ChildContract>, serialNumber: string)
    requires forall i :: 0 <= i < |children| ==> children[i].status != Active
    ensures GetContractCoverage(parents, children, serialNumber) == Coverage(None, [], false, NotCovered)
  {
  }

  function EndsWithin(days: int, now: Instant): ParentContract -> bool {
    (c: ParentContract) => 0 < DifferenceInDays(c.endDate, now) <= days
  }

  /** `getExpiringContracts(days)`: in order, the parents whose whole-day distance to the end date is in (0, days]. */
  function GetExpiringContracts(parents: seq<ParentContract>, days: int, now: Instant): (r: seq<ParentContract>)
    ensures IsSubsequence(r, parents)
    ensures forall c :: c in r <==> c in parents && DateUtils.IsExpiringSoon(c.endDate, now, days)
  {
    FilterIsSubsequence(parents, EndsWithin(days, now));
    Filter(parents, EndsWithin(days, now))
  }

  /** The store's state: two sequences the operations replace wholesale. */
  class ContractStore {
    var parentContracts: seq<ParentContract>
    var childContracts: seq<ChildContract>
    var isLoading: bool

    /** The initial contracts are given; the seed data is not part of this model. */
    constructor (parents: seq<ParentContract>, children: seq<ChildContract>)
      ensures parentContracts == parents && childContracts == children && !isLoading
    {
      parentContracts := parents;
      childContracts := children;
      isLoading := false;
    }

    /** `addParentContract`: appended at the end. */
    method AddParentContract(contract: ParentContract)
      modifies this
      ensures parentContracts == old(parentContracts) + [contract]
      ensures childContracts == old(childContracts) && isLoading == old(isLoading)
    {
      parentContracts := parentContracts + [contract];
    }

    /** `updateParentContract`: a shallow merge into the parents with the id, stamped with `now`. */
    method UpdateParentContract(id: string, updates: ParentPatch, now: Instant)
      modifies this
      ensures parentContracts == UpdateParents(old(parentContracts), id, updates, now)
      ensures childContracts == old(childContracts) && isLoading == old(isLoading)
    {
      parentContracts := UpdateParents(parentContracts, id, updates, now);
    }

    /** `deleteParentContract`: removes the parent and, one level down, the children pointing at it. */
    method DeleteParentContract(id: string)
      modifies this
      ensures parentContracts == Filter(old(parentContracts), ParentIdIsNot(id))
      ensures childContracts == Filter(old(childContracts), ChildParentIsNot(id))
      ensures isLoading == old(isLoading)
    {
      parentContracts := Filter(parentContracts, ParentIdIsNot(id));
      childContracts := Filter(childContracts, ChildParentIsNot(id));
    }

    /** `addChildContract`: appended at the end; the parent's `childContractIds` are not touched. */
    method AddChildContract(contract: ChildContract)
      modifies this
      ensures childContracts == old(childContracts) + [contract]
      ensures parentContracts == old(parentContracts) && isLoading == old(isLoading)
    {
      childContracts := childContracts + [contract];
    }

    /** `updateChildContract`: a shallow merge into the children with the id, stamped with `now`. */
    method UpdateChildContract(id: string, updates: ChildPatch, now: Instant)
      modifies this
      ensures childContracts == UpdateChildren(old(childContracts), id, updates, now)
      ensures parentContracts == old(parentContracts) && isLoading == old(isLoading)
    {
      childContracts := UpdateChildren(childContracts, id, updates, now);
    }

    /** `deleteChildContract`: removes the children with the id and never touches the parents. */
    method DeleteChildContract(id: string)
      modifies this
      ensures childContracts == Filter(old(childContracts), ChildIdIsNot(id))
      ensures parentContracts == old(parentContracts) && isLoading == old(isLoading)
    {
      childContracts := Filter(childContracts, ChildIdIsNot(id));
    }
  }
}

=== FILE: contracts_page.dfy ===
/**
 * The contract list screen: the parent contracts the user may see, whether the
 * "Create Contract" button is shown, and the four counters above the list.
 */
module ContractsPage {
  import opened Wrappers
  import opened Seqs
  import opened Types
  import opened Permissions
  import ResellerContextStore
  import ContractStore

  function ContractCustomer(): ParentContract -> string { (c: ParentContract) => c.customerId }

  /** `accessibleContracts`: in store order, the contracts whose customer the user may access. */
  function AccessibleContracts(contracts: seq<ParentContract>, user: Option<User>, mode: ResellerMode)
    : (r: seq<ParentContract>)
    ensures IsSubsequence(r, contracts)
    ensures forall c :: c in r <==>
              c in contracts && CanAccessCustomer(c.customerId, user, ResellerContextStore.PageContext(user, mode))
  {
    FilterByAccessibleCustomers(contracts, ContractCustomer(), user, ResellerContextStore.PageContext(user, mode))
  }

  /** `canCreate`: a signed-out visitor is checked as a customer. */
  predicate CanCreate(user: Option<User>, mode: ResellerMode) {
    HasPermission(if user.Some? then user.value.role else CustomerRole, ContractsCreate,
                  ResellerContextStore.PageContext(user, mode))
  }

  /**
   * The button is shown to distributors and to resellers acting as
   * distributor, and to nobody else.
   */
  lemma CanCreateExactly(user: Option<User>, mode: ResellerMode)
    ensures CanCreate(user, mode) <==>
              user.Some? && (user.value.role == DistributorRole
                             || (user.value.role == ResellerRole && mode == AsDistributor))
  {
    var role := if user.Some? then user.value.role else CustomerRole;
    HasPermissionMatchesPolicy(role, ResellerContextStore.PageContext(user, mode), ContractsCreate);
  }

  function ActiveOrExpiring(): ParentContract -> bool {
    (c: ParentContract) => c.status == Active || c.status == ExpiringSoon
  }

  function Counted(): ParentContract -> bool {
    (c: ParentContract) => c.status == Active || c.status == ExpiringSoon || c.status == Expired
  }

  /** The statuses no counter shows. */
  function Uncounted(): ParentContract -> bool {
    (c: ParentContract) => c.status == Draft || c.status == Terminated
  }

  function AnyContract(): ParentContract -> bool { (c: ParentContract) => true }

  datatype ContractStats = ContractStats(total: nat, active: nat, expiringSoon: nat, expired: nat)

  /** `stats`: the size of the accessible list and how many of it are active, expiring soon and expired. */
  function ComputeStats(accessible: seq<ParentContract>): (s: ContractStats)
    ensures s.total == |accessible|
    ensures s.active + s.expiringSoon + s.expired + |Filter(accessible, Uncounted())| == s.total
    ensures s.active + s.expiringSoon + s.expired <= s.total
  {
    var s := ContractStats(
      |accessible|,
      |Filter(accessible, ContractStore.ParentStatusIs(Active))|,
      |Filter(accessible, ContractStore.ParentStatusIs(ExpiringSoon))|,
      |Filter(accessible, ContractStore.ParentStatusIs(Expired))|);
    FilterUnionCount(accessible, ContractStore.ParentStatusIs(Active),
                     ContractStore.ParentStatusIs(ExpiringSoon), ActiveOrExpiring());
    FilterUnionCount(accessible, ActiveOrExpiring(), ContractStore.ParentStatusIs(Expired), Counted());
    FilterUnionCount(accessible, Counted(), Uncounted(), AnyContract());
    FilterKeepsAll(accessible, AnyContract());
    s
  }

  /** Signed out, the list and every counter are empty. */
  lemma SignedOutSeesNoContracts(contracts: seq<ParentContract>, mode: ResellerMode)
    ensures AccessibleContracts(contracts, None, mode) == []
    ensures ComputeStats(AccessibleContracts(contracts, None, mode)).total == 0
  {
    SignedOutSeesNothing(contracts, ContractCustomer(), ResellerContextStore.PageContext(None, mode));
  }
}

=== FILE: customer_store.dfy ===
/**
 * The customer store: customers in insertion order, looked up by id with the
 * first match winning. Adding does not check for a duplicate id.
 */
module CustomerStore {
  import opened Wrappers
  import opened Seqs
  import opened Types

  function CustomerIdIs(id: string): Customer -> bool { (c: Customer) => c.id == id }

  /** `getCustomerById(id)`: the first customer with the id, or undefined. */
  function GetCustomerById(customers: seq<Customer>, id: string): (r: Option<Customer>)
    ensures r.None? <==> forall i :: 0 <= i < |customers| ==> customers[i].id != id
    ensures r.Some? ==> r.value in customers && r.value.id == id
    ensures r.Some? ==> exists i :: 0 <= i < |customers| && customers[i] == r.value
                                    && forall j :: 0 <= j < i ==> customers[j].id != id
  {
    Find(customers, CustomerIdIs(id))
  }

  /** `updateCustomer`'s rewrite: the patch spread over every customer with the id. */
  function UpdateCustomers(customers: seq<Customer>, id: string, updates: CustomerPatch): (r: seq<Customer>)
    ensures |r| == |customers|
    ensures forall k :: 0 <= k < |customers| ==>
              r[k] == if customers[k].id == id then updates.ApplyTo(customers[k]) else customers[k]
  {
    UpdateWhere(customers, CustomerIdIs(id), (c: Customer) => updates.ApplyTo(c))
  }

  /** A customer added under a new id is what a lookup of that id then returns. */
  lemma AddThenFind(customers: seq<Customer>, c: Customer)
    requires GetCustomerById(customers, c.id).None?
    ensures GetCustomerById(customers + [c], c.id) == Some(c)
  {
    FindAfterMisses(customers, [c], CustomerIdIs(c.id));
  }

  /** Adding a second customer under an existing id leaves lookups returning the first one. */
  lemma DuplicateIdIsShadowed(customers: seq<Customer>, c: Customer)
    requires GetCustomerById(customers, c.id).Some?
    ensures GetCustomerById(customers + [c], c.id) == GetCustomerById(customers, c.id)
  {
    FindInPrefix(customers, [c], CustomerIdIs(c.id));
  }

  /** Adding a customer does not change the lookup of any other id. */
  lemma AddKeepsOtherLookups(customers: seq<Customer>, c: Customer, id: string)
    requires id != c.id
    ensures GetCustomerById(customers + [c], id) == GetCustomerById(customers, id)
  {
    if FirstIndex(customers, CustomerIdIs(id)).Some? {
      FindInPrefix(customers, [c], CustomerIdIs(id));
    } else {
      FindAfterMisses(customers, [c], CustomerIdIs(id));
    }
  }

  /** A lookup after an update sees the patched customer, unless the patch moved it to another id. */
  lemma UpdateThenFind(customers: seq<Customer>, id: string, updates: CustomerPatch)
    requires updates.id.None?
    requires GetCustomerById(customers, id).Some?
    ensures GetCustomerById(UpdateCustomers(customers, id, updates), id)
         == Some(updates.ApplyTo(GetCustomerById(customers, id).value))
  {
    var after := UpdateCustomers(customers, id, updates);
    var k := FirstIndex(customers, CustomerIdIs(id)).value;
    assert after[k].id == id;
    var j := FirstIndex(after, CustomerIdIs(id)).value;
    assert forall m :: 0 <= m < k ==> after[m] == customers[m];
    assert j == k;
  }

  class CustomerStore {
    var customers: seq<Customer>

    constructor (initial: seq<Customer>)
      ensures customers == initial
    {
      customers := initial;
    }

    function CustomerById(id: string): Option<Customer>
      reads this
    {
      GetCustomerById(customers, id)
    }

    /** `addCustomer`: appended at the end, no duplicate check. */
    method AddCustomer(customer: Customer)
      modifies this
      ensures customers == old(customers) + [customer]
    {
      customers := customers + [customer];
    }

    /** `updateCustomer(id, updates)`. */
    method UpdateCustomer(id: string, updates: CustomerPatch)
      modifies this
      ensures customers == UpdateCustomers(old(customers), id, updates)
    {
      customers := UpdateCustomers(customers, id, updates);
    }
  }
}

=== FILE: dashboard_page.dfy ===
/**
 * The dashboard's derived data: the scoped item, ticket and contract lists, the
 * headline counts, the warranty-expiry buckets, the five newest tickets and the
 * recent-activity feed. The permissions module decides scope here; a
 * distributor may further narrow every list to one selected customer.
 */
module DashboardPage {
  import opened Wrappers
  import opened Seqs
  import opened Calendar
  import opened Types
  import opened Permissions
  import DateUtils
  import ContractStore

  function OwnerIs<T>(owner: T -> string, customerId: string): T -> bool { (x: T) => owner(x) == customerId }

  /**
   * One of `filteredItems`, `filteredTickets`, `filteredContracts`: the
   * accessible records, narrowed to the selected customer unless "all" is selected.
   */
  function ScopedList<T(!new)>(data: seq<T>, owner: T -> string, user: Option<User>, ctx: Option<ResellerContext>,
                               selected: string): (r: seq<T>)
    ensures IsSubsequence(r, data)
    ensures forall x :: x in r <==>
              x in data && CanAccessCustomer(owner(x), user, ctx) && (selected == "all" || owner(x) == selected)
  {
    var accessible := FilterByAccessibleCustomers(data, owner, user, ctx);
    if selected == "all" then accessible
    else
      FilterIsSubsequence(accessible, OwnerIs(owner, selected));
      SubsequenceTransitive(Filter(accessible, OwnerIs(owner, selected)), accessible, data);
      Filter(accessible, OwnerIs(owner, selected))
  }

  /** Selecting a customer outside the user's scope shows nothing. */
  lemma SelectionOutsideScopeIsEmpty<T(!new)>(data: seq<T>, owner: T -> string, user: Option<User>,
                                               ctx: Option<ResellerContext>, selected: string)
    requires selected != "all" && !CanAccessCustomer(selected, user, ctx)
    ensures ScopedList(data, owner, user, ctx, selected) == []
  {
    var accessible := FilterByAccessibleCustomers(data, owner, user, ctx);
    forall i | 0 <= i < |accessible|
      ensures !OwnerIs(owner, selected)(accessible[i])
    {
      assert accessible[i] in accessible;
    }
    FilterNone(accessible, OwnerIs(owner, selected));
  }

  // ---- stats ----

  /** The expiring-soon stat's test: an end date, within 90 days, and not already past. */
  predicate ExpiringSoonItem(item: InventoryItem, now: Instant) {
    item.warrantyEndDate.Some?
    && DateUtils.IsExpiringSoon(item.warrantyEndDate.value, now, 90)
    && !DateUtils.IsExpired(item.warrantyEndDate.value, now)
  }

  /** The `!isExpired` test never removes anything: a positive day difference already puts the end after now. */
  lemma ExpiringSoonStatIsWindow(item: InventoryItem, now: Instant)
    ensures ExpiringSoonItem(item, now) <==>
              item.warrantyEndDate.Some? && 0 < DifferenceInDays(item.warrantyEndDate.value, now) <= 90
  {
  }

  predicate IsOpenTicket(t: Ticket) {
    t.status == Open || t.status == InProgress
  }

  /** Closed, and last updated in the current calendar month of the current year. */
  predicate ClosedThisMonth(t: Ticket, now: Instant) {
    t.status == Closed && DateOf(t.updatedAt).month == DateOf(now).month && DateOf(t.updatedAt).year == DateOf(now).year
  }

  function ItemExpiringSoon(now: Instant): InventoryItem -> bool { (i: InventoryItem) => ExpiringSoonItem(i, now) }
  function TicketIsOpen(): Ticket -> bool { (t: Ticket) => IsOpenTicket(t) }
  function TicketClosedThisMonth(now: Instant): Ticket -> bool { (t: Ticket) => ClosedThisMonth(t, now) }

  datatype Stats = Stats(
    totalProducts: nat,
    expiringSoon: nat,
    openTickets: nat,
    closedTickets: nat,
    activeContracts: nat,
    expiringContracts: nat,
    totalContracts: nat)

  /** `stats`, over the scoped lists. */
  function ComputeStats(items: seq<InventoryItem>, tickets: seq<Ticket>, contracts: seq<ParentContract>, now: Instant)
    : (s: Stats)
    ensures s.totalProducts == |items| && s.totalContracts == |contracts|
    ensures s.expiringSoon <= s.totalProducts
    ensures s.openTickets + s.closedTickets <= |tickets|
    ensures s.activeContracts + s.expiringContracts <= s.totalContracts
  {
    FilterDisjointCount(tickets, TicketIsOpen(), TicketClosedThisMonth(now));
    FilterDisjointCount(contracts, ContractStore.ParentStatusIs(ContractStatus.Active), ContractStore.ParentStatusIs(ContractStatus.ExpiringSoon));
    Stats(
      |items|,
      |Filter(items, ItemExpiringSoon(now))|,
      |Filter(tickets, TicketIsOpen())|,
      |Filter(tickets, TicketClosedThisMonth(now))|,
      |Filter(contracts, ContractStore.ParentStatusIs(ContractStatus.Active))|,
      |Filter(contracts, ContractStore.ParentStatusIs(ContractStatus.ExpiringSoon))|,
      |contracts|)
  }

  // ---- expiry alerts ----

  /** The `daysRemaining` of an item's warranty, when it has an end date. */
  function DaysLeft(item: InventoryItem, now: Instant): int
    requires item.warrantyEndDate.Some?
  {
    DateUtils.GetWarrantyStatus(item.warrantyEndDate.value, now).daysRemaining
  }

  /** An item with an end date whose remaining days lie in (lo, hi]. */
  predicate InWindow(item: InventoryItem, now: Instant, lo: int, hi: int) {
    item.warrantyEndDate.Some? && lo < DaysLeft(item, now) <= hi
  }

  function Window(now: Instant, lo: int, hi: int): InventoryItem -> bool {
    (i: InventoryItem) => InWindow(i, now, lo, hi)
  }

  function ItemExpired(now: Instant): InventoryItem -> bool {
    (i: InventoryItem) => i.warrantyEndDate.Some? && DateUtils.IsExpired(i.warrantyEndDate.value, now)
  }

  datatype ExpiryAlerts = ExpiryAlerts(
    days30: seq<InventoryItem>,
    days60: seq<InventoryItem>,
    days90: seq<InventoryItem>,
    expired: seq<InventoryItem>)

  /** `expiryAlerts`. */
  function GetExpiryAlerts(items: seq<InventoryItem>, now: Instant): ExpiryAlerts {
    ExpiryAlerts(
      Filter(items, Window(now, 0, 30)),
      Filter(items, Window(now, 30, 60)),
      Filter(items, Window(now, 60, 90)),
      Filter(items, ItemExpired(now)))
  }

  /**
   * The four alert lists never share an item; items without an end date are in
   * none; and the three day buckets together hold exactly the items
   * `isExpiringSoon` accepts with its default 90-day window.
   */
  lemma ExpiryAlertsPartition(items: seq<InventoryItem>, now: Instant)
    ensures var a := GetExpiryAlerts(items, now);
      forall x: InventoryItem :: (x in a.days30 ==> x !in a.days60 && x !in a.days90 && x !in a.expired)
               && (x in a.days60 ==> x !in a.days90 && x !in a.expired)
               && (x in a.days90 ==> x !in a.expired)
    ensures var a := GetExpiryAlerts(items, now);
      forall x: InventoryItem :: x.warrantyEndDate.None? ==> x !in a.days30 && x !in a.days60 && x !in a.days90 && x !in a.expired
    ensures var a := GetExpiryAlerts(items, now);
      forall x: InventoryItem :: (x in a.days30 || x in a.days60 || x in a.days90) <==>
                    x in items && x.warrantyEndDate.Some? && DateUtils.IsExpiringSoon(x.warrantyEndDate.value, now)
  {
  }

  // ---- recent tickets ----

  function CreatedAt(): Ticket -> int { (t: Ticket) => t.createdAt }

  /** `recentTickets`: newest first by creation, at most five. */
  function RecentTickets(tickets: seq<Ticket>): (r: seq<Ticket>)
    ensures |r| == if |tickets| < 5 then |tickets| else 5
    ensures SortedDesc(r, CreatedAt())
    ensures forall t :: t in r ==> t in tickets
    ensures multiset(r) <= multiset(tickets)
  {
    var sorted := SortDesc(tickets, CreatedAt());
    var r := Take(sorted, 5);
    TakeIsSubMultiset(sorted, 5);
    assert forall t :: t in r ==> t in multiset(sorted);
    r
  }

  /** Nothing left out of `recentTickets` is newer than anything in it. */
  lemma RecentTicketsAreNewest(tickets: seq<Ticket>, x: Ticket, y: Ticket)
    requires x in RecentTickets(tickets) && y in tickets && y !in RecentTickets(tickets)
    ensures x.createdAt >= y.createdAt
  {
    var sorted := SortDesc(tickets, CreatedAt());
    var r := RecentTickets(tickets);
    assert r == Take(sorted, 5);
    assert y in multiset(sorted);
    var j :| 0 <= j < |sorted| && sorted[j] == y;
    var i :| 0 <= i < |r| && r[i] == x;
    assert j >= |r|;
    assert sorted[i] == x;
  }

  // ---- recent activity ----

  datatype Activity = Activity(kind: string, message: string, time: Instant)

  function DeliveryActivity(item: InventoryItem): Activity {
    Activity("delivery", item.productName + " delivered", item.deliveryDate)
  }

  function TicketActivity(t: Ticket): Activity {
    Activity("ticket", "Ticket " + t.id + " " + t.status.Name(), t.updatedAt)
  }

  function DeliveryActivities(items: seq<InventoryItem>): (r: seq<Activity>)
    ensures |r| == |items|
  {
    seq(|items|, k requires 0 <= k < |items| => DeliveryActivity(items[k]))
  }

  function TicketActivities(tickets: seq<Ticket>): (r: seq<Activity>)
    ensures |r| == |tickets|
  {
    seq(|tickets|, k requires 0 <= k < |tickets| => TicketActivity(tickets[k]))
  }

  /** What the two `forEach` loops push: the first three deliveries, then the first two tickets. */
  function Activities(items: seq<InventoryItem>, tickets: seq<Ticket>): seq<Activity> {
    DeliveryActivities(Take(items, 3)) + TicketActivities(Take(tickets, 2))
  }

  function ActivityTime(): Activity -> int { (a: Activity) => a.time }

  /**
   * `recentActivity`: both loops push, then the feed is sorted newest first and
   * cut to five. Since at most three plus two are pushed, the cut never drops
   * anything: the feed holds every pushed activity.
   */
  method RecentActivity(items: seq<InventoryItem>, tickets: seq<Ticket>) returns (r: seq<Activity>)
    ensures r == Take(SortDesc(Activities(items, tickets), ActivityTime()), 5)
    ensures |r| == |Take(items, 3)| + |Take(tickets, 2)| && |r| <= 5
    ensures multiset(r) == multiset(Activities(items, tickets))
    ensures SortedDesc(r, ActivityTime())
  {
    var activities: seq<Activity> := [];
    var firstItems := Take(items, 3);
    for k := 0 to |firstItems|
      invariant activities == DeliveryActivities(firstItems[..k])
    {
      assert DeliveryActivities(firstItems[..k + 1]) == DeliveryActivities(firstItems[..k]) + [DeliveryActivity(firstItems[k])];
      activities := activities + [DeliveryActivity(firstItems[k])];
    }
    assert firstItems[..|firstItems|] == firstItems;
    var firstTickets := Take(tickets, 2);
    for k := 0 to |firstTickets|
      invariant activities == DeliveryActivities(firstItems) + TicketActivities(firstTickets[..k])
    {
      assert TicketActivities(firstTickets[..k + 1]) == TicketActivities(firstTickets[..k]) + [TicketActivity(firstTickets[k])];
      activities := activities + [TicketActivity(firstTickets[k])];
    }
    assert firstTickets[..|firstTickets|] == firstTickets;
    var sorted := SortDesc(activities, ActivityTime());
    r := Take(sorted, 5);
    assert r == sorted;
  }
}

=== FILE: date_utils.dfy ===
/**
 * The warranty / contract expiry classifier: a whole-day difference between an
 * end date and `now` decides expired, expiring soon or active, with a clamped
 * day count and a colour sub-tier for the badges.
 */
module DateUtils {
  import opened Wrappers
  import opened Calendar

  datatype Tier = Expired | ExpiringSoon | Active

  datatype Color = Red | Amber | Green

  datatype WarrantyStatus = WarrantyStatus(status: Tier, daysRemaining: int, color: Color)

  /** The look-ahead window `isExpiringSoon` uses when no other is given. */
  const DefaultExpiryWindow: int := 90

  /** The classification `getWarrantyStatus` applies to a day difference `d`. */
  function Classify(d: int): WarrantyStatus {
    if d < 0 then WarrantyStatus(Expired, 0, Red)
    else if d <= 90 then WarrantyStatus(ExpiringSoon, d, if d <= 30 then Red else Amber)
    else WarrantyStatus(Active, d, Green)
  }

  /** `getWarrantyStatus(endDate)` evaluated at `now`. */
  function GetWarrantyStatus(endDate: Instant, now: Instant): WarrantyStatus {
    Classify(DifferenceInDays(endDate, now))
  }

  /** `isExpiringSoon(endDate, days)`: strictly in the future by at least a day and within the window. */
  predicate IsExpiringSoon(endDate: Instant, now: Instant, days: int := DefaultExpiryWindow) {
    var d := DifferenceInDays(endDate, now);
    d > 0 && d <= days
  }

  /** `isExpired(endDate)`: the end instant lies strictly before now. */
  predicate IsExpired(endDate: Instant, now: Instant) {
    endDate < now
  }

  /** `daysUntilExpiry(endDate)`: the day difference, never below zero. */
  function DaysUntilExpiry(endDate: Instant, now: Instant): int {
    var d := DifferenceInDays(endDate, now);
    if d < 0 then 0 else d
  }

  /**
   * The tier the screens obtain when they hand a nullable end date straight to
   * `getWarrantyStatus`: a null date parses to an invalid date, the day difference
   * is NaN, both comparisons fail and the last branch, "active", is taken.
   */
  function TierOf(endDate: Option<Instant>, now: Instant): Tier {
    match endDate
    case None => Active
    case Some(e) => GetWarrantyStatus(e, now).status
  }

  /** Every day difference falls in exactly one tier: below zero, zero to ninety, above ninety. */
  lemma ClassifyIsThreeWaySplit(d: int)
    ensures Classify(d).status == Expired <==> d < 0
    ensures Classify(d).status == ExpiringSoon <==> 0 <= d <= 90
    ensures Classify(d).status == Active <==> d > 90
  {
  }

  /** The reported day count is the difference clamped at zero, so never negative. */
  lemma DaysRemainingClamped(d: int)
    ensures Classify(d).daysRemaining >= 0
    ensures Classify(d).daysRemaining == if d < 0 then 0 else d
  {
  }

  /** Red for expired or at most thirty days, amber for 31 to 90 days, green exactly for the active tier. */
  lemma ColorSubTiers(d: int)
    ensures Classify(d).color == Red <==> d <= 30
    ensures Classify(d).color == Amber <==> 31 <= d <= 90
    ensures Classify(d).color == Green <==> Classify(d).status == Active
  {
  }

  /** `daysUntilExpiry` and the classifier's day count always agree. */
  lemma DaysUntilExpiryAgrees(endDate: Instant, now: Instant)
    ensures DaysUntilExpiry(endDate, now) == GetWarrantyStatus(endDate, now).daysRemaining
  {
  }

  /**
   * `isExpiringSoon` holds exactly for differences in (0, days]; in particular a
   * date less than a day away is labelled expiring soon but is not "expiring soon".
   */
  lemma ExpiringSoonWindow(endDate: Instant, now: Instant, days: int)
    ensures IsExpiringSoon(endDate, now, days) <==> 0 < DifferenceInDays(endDate, now) <= days
    ensures DifferenceInDays(endDate, now) == 0 ==>
              !IsExpiringSoon(endDate, now) && GetWarrantyStatus(endDate, now).status == ExpiringSoon
  {
  }

  /** The instant test and the truncated day test agree up to the partial day around now. */
  lemma ExpiredVersusDayDifference(endDate: Instant, now: Instant)
    ensures DifferenceInDays(endDate, now) < 0 ==> IsExpired(endDate, now)
    ensures IsExpired(endDate, now) ==> DifferenceInDays(endDate, now) <= 0
    ensures GetWarrantyStatus(endDate, now).status == Expired ==> IsExpired(endDate, now)
  {
  }

  /** A date a few hours past is already `isExpired` yet still labelled expiring soon, with 0 days left. */
  lemma ExpiredButNotYetExpiredTier(now: Instant)
    ensures IsExpired(now - 1, now)
    ensures GetWarrantyStatus(now - 1, now) == WarrantyStatus(ExpiringSoon, 0, Red)
  {
  }

  /** The boundary cases: 91 days active, 90 days expiring soon, 30 days red, one day past expired. */
  lemma ClassifierBoundaries(now: Instant)
    ensures GetWarrantyStatus(now + 91 * MsPerDay, now).status == Active
    ensures GetWarrantyStatus(now + 90 * MsPerDay, now).status == ExpiringSoon
    ensures GetWarrantyStatus(now + 30 * MsPerDay, now) == WarrantyStatus(ExpiringSoon, 30, Red)
    ensures GetWarrantyStatus(now - MsPerDay, now) == WarrantyStatus(Expired, 0, Red)
  {
  }
}

=== FILE: dummy_data.dfy ===
/**
 * The fixture tables the logic depends on: the seeded customers' ids (which fix a
 * distributor's scope), the seeded users and the login credential table.
 */
module DummyData {
  import opened Wrappers
  import opened Types

  /** `dummyCustomers.map(c => c.id)`. */
  const DummyCustomerIds: seq<string> := ["CUST001", "CUST002", "CUST003"]

  const DummyUsers: seq<User> := [
    User("USR001", "admin@satmz.com", DistributorRole, None, "SATMZ", None),
    User("USR002", "reseller1@satmz.com", ResellerRole, Some("CUST001"), "Alpha Business Solutions", None),
    User("USR003", "reseller2@satmz.com", ResellerRole, Some("CUST002"), "Beta Corporation", None)
  ]

  datatype Credential = Credential(password: string, userId: string)

  /** `loginCredentials`, keyed by e-mail address. */
  const LoginCredentials: map<string, Credential> := map[
    "admin@satmz.com" := Credential("admin123", "USR001"),
    "reseller1@satmz.com" := Credential("reseller123", "USR002"),
    "reseller2@satmz.com" := Credential("reseller123", "USR003")
  ]
}

=== FILE: export_utils.dfy ===
/**
 * CSV export. `convertToCSV` writes the header names joined by commas, then one
 * line per record with every field quoted and every inner quote doubled, and
 * joins the lines with "\n"; no records at all give the empty text. A record is
 * a map from header name to the value's string form, and a header the record
 * lacks is written as `undefined`.
 *
 * The reader below is the partner of the writer: reading back what the writer
 * produced recovers the header names and every field.
 */
module ExportUtils {
  import opened Wrappers
  import opened Text

  type Row = map<string, string>

  /** `('' + value).replace(/"/g, '""')`: every quote doubled. */
  function Escape(v: string): (r: string)
    ensures |r| >= |v|
    ensures '"' !in v ==> r == v
    decreases |v|
  {
    if v == [] then []
    else (if v[0] == '"' then "\"\"" else [v[0]]) + Escape(v[1..])
  }

  /** One quoted field. */
  function Field(v: string): string {
    "\"" + Escape(v) + "\""
  }

  /** `row[header]` as text: the text `undefined` when the key is missing. */
  function Cell(row: Row, header: string): string {
    if header in row then row[header] else "undefined"
  }

  function CellsOf(row: Row, headers: seq<string>): (cs: seq<string>)
    ensures |cs| == |headers|
  {
    seq(|headers|, j requires 0 <= j < |headers| => Cell(row, headers[j]))
  }

  function Fields(cs: seq<string>): (fs: seq<string>)
    ensures |fs| == |cs|
  {
    seq(|cs|, j requires 0 <= j < |cs| => Field(cs[j]))
  }

  /** `values.join(',')` for one record. */
  function RowLine(row: Row, headers: seq<string>): string {
    Join(Fields(CellsOf(row, headers)), ",")
  }

  /** `headers.join(',')`: the header names are not quoted. */
  function HeaderLine(headers: seq<string>): string {
    Join(headers, ",")
  }

  function RowLines(data: seq<Row>, headers: seq<string>): (ls: seq<string>)
    ensures |ls| == |data|
  {
    seq(|data|, i requires 0 <= i < |data| => RowLine(data[i], headers))
  }

  /** What `convertToCSV(data, headers)` returns. */
  function Csv(data: seq<Row>, headers: seq<string>): string {
    if data == [] then "" else Join([HeaderLine(headers)] + RowLines(data, headers), "\n")
  }

  /**
   * `convertToCSV`: the header line first, then one pushed line per record, in
   * record order, all joined by newlines.
   */
  method ConvertToCsv(data: seq<Row>, headers: seq<string>) returns (csv: string)
    ensures csv == Csv(data, headers)
    ensures data == [] <==> csv == ""
  {
    if |data| == 0 {
      return "";
    }
    var csvRows := [HeaderLine(headers)];
    for i := 0 to |data|
      invariant csvRows == [HeaderLine(headers)] + RowLines(data[..i], headers)
    {
      assert RowLines(data[..i + 1], headers) == RowLines(data[..i], headers) + [RowLine(data[i], headers)];
      csvRows := csvRows + [RowLine(data[i], headers)];
    }
    assert data[..|data|] == data;
    csv := Join(csvRows, "\n");
    JoinNonEmpty(csvRows, "\n");
  }

  lemma JoinNonEmpty(parts: seq<string>, sep: string)
    requires |parts| >= 2 && |sep| > 0
    ensures Join(parts, sep) != ""
  {
  }

  // ---- The reader ----

  /**
   * Reads the rest of a quoted field whose opening quote has been consumed:
   * a doubled quote stands for one quote, a single quote closes the field.
   * Returns the value and the text after the closing quote.
   */
  function ReadQuotedBody(s: string): (r: Option<(string, string)>)
    ensures r.Some? ==> |r.value.1| < |s|
    decreases |s|
  {
    if s == [] then None
    else if s[0] == '"' then
      if |s| >= 2 && s[1] == '"' then
        match ReadQuotedBody(s[2..])
        case None => None
        case Some((v, rest)) => Some(("\"" + v, rest))
      else Some(("", s[1..]))
    else
      match ReadQuotedBody(s[1..])
      case None => None
      case Some((v, rest)) => Some(([s[0]] + v, rest))
  }

  /** Reads one quoted field at the start of `s`. */
  function ReadField(s: string): (r: Option<(string, string)>)
    ensures r.Some? ==> |r.value.1| < |s|
  {
    if s != [] && s[0] == '"' then ReadQuotedBody(s[1..]) else None
  }

  /** Reads comma-separated quoted fields; stops at the first field not followed by a comma. */
  function ReadFields(s: string): (r: Option<(seq<string>, string)>)
    ensures r.Some? ==> |r.value.1| < |s| && |r.value.0| >= 1
    decreases |s|
  {
    match ReadField(s)
    case None => None
    case Some((v, rest)) =>
      if rest != [] && rest[0] == ',' then
        match ReadFields(rest[1..])
        case None => None
        case Some((vs, rest')) => Some(([v] + vs, rest'))
      else Some(([v], rest))
  }

  /** Reads newline-separated records of quoted fields up to the end of the text. */
  function ReadRecords(s: string): (r: Option<seq<seq<string>>>)
    decreases |s|
  {
    if s == [] then Some([])
    else
      match ReadFields(s)
      case None => None
      case Some((fs, rest)) =>
        if rest == [] then Some([fs])
        else if rest[0] == '\n' then
          match ReadRecords(rest[1..])
          case None => None
          case Some(rs) => Some([fs] + rs)
        else None
  }

  /** `s.split(c)`. */
  function Split(s: string, c: char): (r: seq<string>)
    ensures |r| >= 1
    decreases |s|
  {
    if s == [] then [""]
    else
      var tail := Split(s[1..], c);
      if s[0] == c then [""] + tail else [[s[0]] + tail[0]] + tail[1..]
  }

  /** The text before the first newline, and the text after it when there is one. */
  function SplitFirstLine(s: string): (r: (string, Option<string>))
    decreases |s|
  {
    if s == [] then ("", None)
    else if s[0] == '\n' then ("", Some(s[1..]))
    else
      var (line, rest) := SplitFirstLine(s[1..]);
      ([s[0]] + line, rest)
  }

  /** Reads a non-empty export back: the header names and, per record, its fields. */
  function ParseCsv(s: string): Option<(seq<string>, seq<seq<string>>)> {
    var (line, body) := SplitFirstLine(s);
    if body.None? then None
    else
      match ReadRecords(body.value)
      case None => None
      case Some(records) => Some((Split(line, ','), records))
  }

  // ---- Round trip ----

  /** Unescaping inverts escaping, whatever follows the closing quote, provided it is not a quote. */
  lemma {:induction false} ReadQuotedBodyOfEscape(v: string, rest: string)
    requires rest == [] || rest[0] != '"'
    ensures ReadQuotedBody(Escape(v) + "\"" + rest) == Some((v, rest))
    decreases |v|
  {
    var s := Escape(v) + "\"" + rest;
    if v == [] {
      assert s == "\"" + rest;
      assert s[1..] == rest;
    } else if v[0] == '"' {
      var after := Escape(v[1..]) + "\"" + rest;
      assert s == "\"\"" + after;
      assert s[2..] == after;
      ReadQuotedBodyOfEscape(v[1..], rest);
      assert "\"" + v[1..] == v;
    } else {
      var after := Escape(v[1..]) + "\"" + rest;
      assert s == [v[0]] + after;
      assert s[1..] == after;
      ReadQuotedBodyOfEscape(v[1..], rest);
      assert [v[0]] + v[1..] == v;
    }
  }

  lemma ReadFieldOfField(v: string, rest: string)
    requires rest == [] || rest[0] != '"'
    ensures ReadField(Field(v) + rest) == Some((v, rest))
  {
    assert Field(v) + rest == "\"" + (Escape(v) + "\"" + rest);
    ReadQuotedBodyOfEscape(v, rest);
  }

  /** A record's line reads back as its fields, and the reader stops right after it. */
  lemma {:induction false} ReadFieldsOfLine(cs: seq<string>, rest: string)
    requires |cs| >= 1
    requires rest == [] || (rest[0] != ',' && rest[0] != '"')
    ensures ReadFields(Join(Fields(cs), ",") + rest) == Some((cs, rest))
    decreases |cs|
  {
    if |cs| == 1 {
      assert Join(Fields(cs), ",") == Field(cs[0]);
      ReadFieldOfField(cs[0], rest);
      assert [cs[0]] == cs;
    } else {
      var tail := Join(Fields(cs[1..]), ",");
      JoinFieldsCons(cs, rest);
      ReadFieldOfField(cs[0], "," + (tail + rest));
      assert ("," + (tail + rest))[1..] == tail + rest;
      ReadFieldsOfLine(cs[1..], rest);
      assert [cs[0]] + cs[1..] == cs;
    }
  }

  /** A line of two or more fields is its first field, a comma, and the line of the others. */
  lemma JoinFieldsCons(cs: seq<string>, rest: string)
    requires |cs| >= 2
    ensures Join(Fields(cs), ",") + rest == Field(cs[0]) + ("," + (Join(Fields(cs[1..]), ",") + rest))
  {
    assert Fields(cs)[1..] == Fields(cs[1..]);
  }

  function LinesOf(css: seq<seq<string>>): (ls: seq<string>)
    ensures |ls| == |css|
  {
    seq(|css|, i requires 0 <= i < |css| => Join(Fields(css[i]), ","))
  }

  /** The record lines joined by newlines read back as the records. */
  lemma {:induction false} ReadRecordsOfLines(css: seq<seq<string>>)
    requires |css| >= 1
    requires forall i :: 0 <= i < |css| ==> |css[i]| >= 1
    ensures ReadRecords(Join(LinesOf(css), "\n")) == Some(css)
    decreases |css|
  {
    var ls := LinesOf(css);
    if |css| == 1 {
      assert Join(ls, "\n") == ls[0] + [];
      ReadFieldsOfLine(css[0], []);
      assert ls[0] != [];
      assert [css[0]] == css;
    } else {
      assert ls[1..] == LinesOf(css[1..]);
      var tail := Join(ls[1..], "\n");
      assert Join(ls, "\n") == ls[0] + ("\n" + tail);
      ReadFieldsOfLine(css[0], "\n" + tail);
      ReadFieldOfField(css[0][0], []);
      assert ("\n" + tail)[1..] == tail;
      ReadRecordsOfLines(css[1..]);
      assert [css[0]] + css[1..] == css;
    }
  }

  /** Splitting a comma-joined list of comma-free names gives the names back. */
  lemma {:induction false} SplitOfJoin(hs: seq<string>)
    requires |hs| >= 1
    requires forall i :: 0 <= i < |hs| ==> ',' !in hs[i]
    ensures Split(Join(hs, ","), ',') == hs
    decreases |hs|
  {
    if |hs| == 1 {
      SplitPrefix(hs[0], "", false);
    } else {
      var tail := Join(hs[1..], ",");
      assert Join(hs, ",") == hs[0] + ("," + tail);
      SplitPrefix(hs[0], tail, true);
      SplitOfJoin(hs[1..]);
      assert [hs[0]] + hs[1..] == hs;
    }
  }

  /** A comma-free prefix is the first piece of a split. */
  lemma {:induction false} SplitPrefix(a: string, b: string, sep: bool)
    requires ',' !in a
    requires !sep ==> b == ""
    ensures sep ==> Split(a + ("," + b), ',') == [a] + Split(b, ',')
    ensures !sep ==> Split(a, ',') == [a]
    decreases |a|
  {
    if a == [] {
      if sep {
        assert a + ("," + b) == "," + b;
        assert ("," + b)[1..] == b;
      }
    } else {
      SplitPrefix(a[1..], b, sep);
      if sep {
        assert (a + ("," + b))[1..] == a[1..] + ("," + b);
      }
      assert [a[0]] + a[1..] == a;
    }
  }

  /** The text before the first newline is a newline-free prefix. */
  lemma {:induction false} SplitFirstLineOf(line: string, rest: string)
    requires '\n' !in line
    ensures SplitFirstLine(line + "\n" + rest) == (line, Some(rest))
    decreases |line|
  {
    if line == [] {
      assert line + "\n" + rest == "\n" + rest;
    } else {
      assert (line + "\n" + rest)[1..] == line[1..] + "\n" + rest;
      SplitFirstLineOf(line[1..], rest);
      assert [line[0]] + line[1..] == line;
    }
  }

  lemma {:induction false} JoinHasNoNewline(hs: seq<string>)
    requires forall i :: 0 <= i < |hs| ==> '\n' !in hs[i]
    ensures '\n' !in Join(hs, ",")
    decreases |hs|
  {
    if |hs| > 1 {
      JoinHasNoNewline(hs[1..]);
    }
  }

  /**
   * Reading an export back recovers the header names and, for every record and
   * header, the field the record holds under that header (`undefined` when it
   * has none). The header names must be free of commas and newlines, since the
   * header line is not quoted; at least one header is needed, since a line of
   * no fields is empty.
   */
  lemma {:induction false} CsvRoundTrip(data: seq<Row>, headers: seq<string>)
    requires data != [] && headers != []
    requires forall i :: 0 <= i < |headers| ==> ',' !in headers[i] && '\n' !in headers[i]
    ensures ParseCsv(Csv(data, headers))
         == Some((headers, seq(|data|, i requires 0 <= i < |data| => CellsOf(data[i], headers))))
  {
    var css := seq(|data|, i requires 0 <= i < |data| => CellsOf(data[i], headers));
    assert LinesOf(css) == RowLines(data, headers);
    var parts := [HeaderLine(headers)] + RowLines(data, headers);
    assert parts[1..] == RowLines(data, headers);
    var body := Join(RowLines(data, headers), "\n");
    assert Csv(data, headers) == HeaderLine(headers) + "\n" + body;
    JoinHasNoNewline(headers);
    SplitFirstLineOf(HeaderLine(headers), body);
    ReadRecordsOfLines(css);
    SplitOfJoin(headers);
  }

  /** Every record becomes exactly one line with one field per header, even a value holding commas, quotes or newlines. */
  lemma RecordCount(data: seq<Row>, headers: seq<string>)
    requires data != [] && headers != []
    requires forall i :: 0 <= i < |headers| ==> ',' !in headers[i] && '\n' !in headers[i]
    ensures ParseCsv(Csv(data, headers)).Some?
    ensures |ParseCsv(Csv(data, headers)).value.1| == |data|
    ensures forall i :: 0 <= i < |data| ==> |ParseCsv(Csv(data, headers)).value.1[i]| == |headers|
  {
    CsvRoundTrip(data, headers);
  }
}

=== FILE: history_page.dfy ===
/**
 * The history screen: delivered assets newest first, the (always empty)
 * renewal history, and the closed or resolved tickets, most recently updated
 * first, each with its resolution time in whole days. A reseller sees only its
 * own customer's items and tickets.
 */
module HistoryPage {
  import opened Wrappers
  import opened Seqs
  import opened Text
  import opened Calendar
  import opened Types
  import opened OwnScope
  import opened Badges

  function DeliveryDate(): InventoryItem -> int { (i: InventoryItem) => i.deliveryDate }
  function UpdatedAt(): Ticket -> int { (t: Ticket) => t.updatedAt }

  /** `deliveredAssets`: the scoped items, all of them, latest delivery first. */
  function DeliveredAssets(items: seq<InventoryItem>, user: Option<User>): (r: seq<InventoryItem>)
    ensures multiset(r) == multiset(ResellerScoped(items, ItemOwner(), user))
    ensures SortedDesc(r, DeliveryDate())
    ensures forall i :: i in r <==> i in items && (IsReseller(user) ==> Some(i.customerId) == user.value.customerId)
  {
    var scoped := ResellerScoped(items, ItemOwner(), user);
    var r := SortDesc(scoped, DeliveryDate());
    SameMembers(r, scoped);
    r
  }

  /** One renewal record; the screen declares the shape but never produces one. */
  datatype Renewal = Renewal(id: string, productName: string, serialNumber: string, oldDate: Instant,
                             newDate: Instant, renewedBy: string, renewalDate: Instant)

  /** `renewalHistory`: a constant empty list. */
  const RenewalHistory: seq<Renewal> := []

  predicate IsFinished(t: Ticket) {
    t.status == Closed || t.status == Resolved
  }

  function Finished(): Ticket -> bool { (t: Ticket) => IsFinished(t) }

  /** `closedTickets`: exactly the scoped closed or resolved tickets, most recently updated first. */
  function ClosedTickets(tickets: seq<Ticket>, user: Option<User>): (r: seq<Ticket>)
    ensures multiset(r) == multiset(Filter(ResellerScoped(tickets, TicketOwner(), user), Finished()))
    ensures SortedDesc(r, UpdatedAt())
    ensures forall t :: t in r <==>
              t in tickets && (t.status == Closed || t.status == Resolved)
              && (IsReseller(user) ==> Some(t.customerId) == user.value.customerId)
  {
    var scoped := ResellerScoped(tickets, TicketOwner(), user);
    var finished := Filter(scoped, Finished());
    var r := SortDesc(finished, UpdatedAt());
    SameMembers(r, finished);
    r
  }

  /** Open and in-progress tickets never show up in the history. */
  lemma OpenTicketsNotInHistory(tickets: seq<Ticket>, user: Option<User>, t: Ticket)
    requires t.status == Open || t.status == InProgress
    ensures t !in ClosedTickets(tickets, user)
  {
  }

  /**
   * The resolution time: whole days from creation to the last update, counting
   * only completed days; a ticket updated before its creation gets a non-positive count.
   */
  function ResolutionDays(t: Ticket): (days: int)
    ensures t.updatedAt >= t.createdAt ==>
              days >= 0 && days * MsPerDay <= t.updatedAt - t.createdAt < (days + 1) * MsPerDay
    ensures t.updatedAt < t.createdAt ==> days <= 0
  {
    DifferenceInDays(t.updatedAt, t.createdAt)
  }

  /** The "N day" part of the resolution badge for exactly one day, "N days" otherwise (zero and negatives included). */
  function ResolutionLabel(days: int): (r: string)
    ensures |r| >= 5
    ensures r[|r| - 4..] == " day" <==> days == 1
    ensures days == 1 ==> r == "1 day"
    ensures |IntToString(days)| < |r| && r[..|IntToString(days)|] == IntToString(days)
  {
    var digits := IntToString(days);
    var unit := if days == 1 then " day" else " days";
    var r := digits + unit;
    assert r[..|digits|] == digits && r[|digits|..] == unit;
    assert r[|r| - 4..] == unit[|unit| - 4..];
    assert days == 1 ==> digits == NatToString(1) == "1";
    r
  }

  /** The status badge beside each history entry: success for resolved, secondary for closed. */
  function HistoryStatusBadge(status: TicketStatus): (b: Badge)
    ensures b.text == status.Name()
    ensures b.variant == Success <==> status == Resolved
    ensures b.variant == Secondary <==> status != Resolved
  {
    Badge(status.Name(), if status == Resolved then Success else Secondary)
  }
}

=== FILE: inventory_page.dfy ===
/**
 * The inventory screen: its filter chain, pagination and the "clear filters"
 * handler. Unlike the dashboard, this screen scopes a reseller by comparing each
 * item with the reseller's own `customerId`; the customer filter applies only to
 * other roles. A reseller's managed customers play no part here.
 */
module InventoryPage {
  import opened Wrappers
  import opened Seqs
  import opened Text
  import opened Calendar
  import opened Types
  import DateUtils
  import opened OwnScope


  function CustomerIs(customerId: string): InventoryItem -> bool { (i: InventoryItem) => i.customerId == customerId }

  /** The search step: the query occurs, ignoring case, in the product name or the serial number. */
  function SearchHit(query: string): InventoryItem -> bool {
    (i: InventoryItem) => MatchesQuery(i.productName, query) || MatchesQuery(i.serialNumber, query)
  }

  function CategoryIs(category: string): InventoryItem -> bool { (i: InventoryItem) => i.category == category }

  /** The status step: the warranty tier named by the filter; an unknown filter value keeps everything. */
  predicate StatusMatches(statusFilter: string, item: InventoryItem, now: Instant) {
    var tier := DateUtils.TierOf(item.warrantyEndDate, now);
    if statusFilter == "active" then tier == DateUtils.Active
    else if statusFilter == "expiring" then tier == DateUtils.ExpiringSoon
    else if statusFilter == "expired" then tier == DateUtils.Expired
    else true
  }

  function StatusIs(statusFilter: string, now: Instant): InventoryItem -> bool {
    (i: InventoryItem) => StatusMatches(statusFilter, i, now)
  }

  /** The screen's filters, all at once. */
  datatype Filters = Filters(search: string, category: string, status: string, customer: string)

  /** Who may see the item: a reseller its own customer's items, anyone else the selected customer's or all. */
  predicate InScope(item: InventoryItem, user: Option<User>, customerFilter: string) {
    if user.Some? && user.value.role == ResellerRole then Some(item.customerId) == user.value.customerId
    else customerFilter == "all" || item.customerId == customerFilter
  }

  /** The reference statement: an item is listed iff it passes every active filter. */
  predicate Listed(item: InventoryItem, user: Option<User>, f: Filters, now: Instant) {
    && InScope(item, user, f.customer)
    && (f.search == "" || SearchHit(f.search)(item))
    && (f.category == "all" || item.category == f.category)
    && (f.status == "all" || StatusMatches(f.status, item, now))
  }

  function ListedBy(user: Option<User>, f: Filters, now: Instant): InventoryItem -> bool {
    (i: InventoryItem) => Listed(i, user, f, now)
  }

  /** What has been kept after the scope step, the search step and the category step. */
  function AfterScope(user: Option<User>, f: Filters): InventoryItem -> bool {
    (i: InventoryItem) => InScope(i, user, f.customer)
  }

  function AfterSearch(user: Option<User>, f: Filters): InventoryItem -> bool {
    (i: InventoryItem) => InScope(i, user, f.customer) && (f.search == "" || SearchHit(f.search)(i))
  }

  function AfterCategory(user: Option<User>, f: Filters): InventoryItem -> bool {
    (i: InventoryItem) => InScope(i, user, f.customer) && (f.search == "" || SearchHit(f.search)(i))
                          && (f.category == "all" || i.category == f.category)
  }

  /** The scope step narrows all items to those in scope. */
  lemma ScopeStep(items: seq<InventoryItem>, user: Option<User>, f: Filters)
    ensures user.Some? && user.value.role == ResellerRole ==>
              Filter(items, OwnedBy(ItemOwner(), user.value.customerId)) == Filter(items, AfterScope(user, f))
    ensures !(user.Some? && user.value.role == ResellerRole) && f.customer != "all" ==>
              Filter(items, CustomerIs(f.customer)) == Filter(items, AfterScope(user, f))
    ensures !(user.Some? && user.value.role == ResellerRole) && f.customer == "all" ==>
              items == Filter(items, AfterScope(user, f))
  {
    if user.Some? && user.value.role == ResellerRole {
      FilterCongruent(items, OwnedBy(ItemOwner(), user.value.customerId), AfterScope(user, f));
    } else if f.customer != "all" {
      FilterCongruent(items, CustomerIs(f.customer), AfterScope(user, f));
    } else {
      FilterKeepsAll(items, AfterScope(user, f));
    }
  }

  /** The search step, active or not, moves from the scope stage to the search stage. */
  lemma SearchStep(items: seq<InventoryItem>, user: Option<User>, f: Filters)
    ensures f.search != "" ==> Filter(Filter(items, AfterScope(user, f)), SearchHit(f.search)) == Filter(items, AfterSearch(user, f))
    ensures f.search == "" ==> Filter(items, AfterScope(user, f)) == Filter(items, AfterSearch(user, f))
  {
    if f.search != "" {
      FilterThen(items, AfterScope(user, f), SearchHit(f.search), AfterSearch(user, f));
    } else {
      FilterCongruent(items, AfterScope(user, f), AfterSearch(user, f));
    }
  }

  lemma CategoryStep(items: seq<InventoryItem>, user: Option<User>, f: Filters)
    ensures f.category != "all" ==>
              Filter(Filter(items, AfterSearch(user, f)), CategoryIs(f.category)) == Filter(items, AfterCategory(user, f))
    ensures f.category == "all" ==> Filter(items, AfterSearch(user, f)) == Filter(items, AfterCategory(user, f))
  {
    if f.category != "all" {
      FilterThen(items, AfterSearch(user, f), CategoryIs(f.category), AfterCategory(user, f));
    } else {
      FilterCongruent(items, AfterSearch(user, f), AfterCategory(user, f));
    }
  }

  lemma StatusStep(items: seq<InventoryItem>, user: Option<User>, f: Filters, now: Instant)
    ensures f.status != "all" ==>
              Filter(Filter(items, AfterCategory(user, f)), StatusIs(f.status, now)) == Filter(items, ListedBy(user, f, now))
    ensures f.status == "all" ==> Filter(items, AfterCategory(user, f)) == Filter(items, ListedBy(user, f, now))
  {
    if f.status != "all" {
      FilterThen(items, AfterCategory(user, f), StatusIs(f.status, now), ListedBy(user, f, now));
    } else {
      FilterCongruent(items, AfterCategory(user, f), ListedBy(user, f, now));
    }
  }

  /**
   * `filteredItems`: starts from all items and narrows `filtered` one active
   * filter at a time. The result is exactly the items the reference statement
   * lists, in store order.
   */
  method FilteredItems(items: seq<InventoryItem>, user: Option<User>, f: Filters, now: Instant)
    returns (filtered: seq<InventoryItem>)
    ensures filtered == Filter(items, ListedBy(user, f, now))
    ensures IsSubsequence(filtered, items)
  {
    filtered := items;

    ScopeStep(items, user, f);
    if user.Some? && user.value.role == ResellerRole {
      filtered := Filter(filtered, OwnedBy(ItemOwner(), user.value.customerId));
    } else if f.customer != "all" {
      filtered := Filter(filtered, CustomerIs(f.customer));
    }

    SearchStep(items, user, f);
    if f.search != "" {
      filtered := Filter(filtered, SearchHit(f.search));
    }

    CategoryStep(items, user, f);
    if f.category != "all" {
      filtered := Filter(filtered, CategoryIs(f.category));
    }

    StatusStep(items, user, f, now);
    if f.status != "all" {
      filtered := Filter(filtered, StatusIs(f.status, now));
    }
    FilterIsSubsequence(items, ListedBy(user, f, now));
  }

  /** A reseller's list does not depend on the customer filter. */
  lemma ResellerIgnoresCustomerFilter(items: seq<InventoryItem>, u: User, f: Filters, customer: string, now: Instant)
    requires u.role == ResellerRole
    ensures Filter(items, ListedBy(Some(u), f.(customer := customer), now)) == Filter(items, ListedBy(Some(u), f, now))
  {
    FilterCongruent(items, ListedBy(Some(u), f.(customer := customer), now), ListedBy(Some(u), f, now));
  }

  /** A reseller's list holds only its own customer's items; with no customer id of its own it is empty. */
  lemma ResellerSeesOwnItems(items: seq<InventoryItem>, u: User, f: Filters, now: Instant)
    requires u.role == ResellerRole
    ensures forall i :: i in Filter(items, ListedBy(Some(u), f, now)) ==> u.customerId == Some(i.customerId)
    ensures u.customerId.None? ==> Filter(items, ListedBy(Some(u), f, now)) == []
  {
    if u.customerId.None? {
      FilterNone(items, ListedBy(Some(u), f, now));
    }
  }

  /** With every filter cleared, a non-reseller sees every item. */
  lemma ClearedFiltersListEverything(items: seq<InventoryItem>, user: Option<User>, now: Instant)
    requires user.None? || user.value.role != ResellerRole
    ensures Filter(items, ListedBy(user, Filters("", "all", "all", "all"), now)) == items
  {
    FilterKeepsAll(items, ListedBy(user, Filters("", "all", "all", "all"), now));
  }

  /** `paginatedItems`: the slice of page `currentPage`, `itemsPerPage` long. */
  function PaginatedItems(filtered: seq<InventoryItem>, currentPage: int, itemsPerPage: int): (r: seq<InventoryItem>)
    ensures currentPage >= 1 && itemsPerPage >= 0 ==> |r| <= itemsPerPage
    ensures currentPage >= 1 && itemsPerPage >= 0 && currentPage * itemsPerPage <= |filtered| ==>
              r == filtered[(currentPage - 1) * itemsPerPage..currentPage * itemsPerPage]
  {
    var start := (currentPage - 1) * itemsPerPage;
    JsSlice(filtered, start, start + itemsPerPage)
  }

  /** `Math.ceil(filteredItems.length / itemsPerPage)`. */
  function TotalPages(n: nat, itemsPerPage: int): (pages: nat)
    requires itemsPerPage > 0
    ensures (pages - 1) * itemsPerPage < n <= pages * itemsPerPage || (n == 0 && pages == 0)
  {
    (n + itemsPerPage - 1) / itemsPerPage
  }

  /** `k * a < k * b` with a positive `k` gives `a < b`. */
  lemma MulStrictCancel(a: int, b: int, k: int)
    requires k > 0 && a * k < b * k
    ensures a < b
  {
  }

  /** The page holding position `i` of `n` is a page between 1 and `totalPages`. */
  lemma PageWithinTotal(i: nat, n: nat, itemsPerPage: int)
    requires itemsPerPage > 0 && i < n
    ensures 1 <= i / itemsPerPage + 1 <= TotalPages(n, itemsPerPage)
  {
    var k := itemsPerPage;
    var q := i / k;
    var pages := TotalPages(n, k);
    assert q * k <= i by {
      assert q * k + i % k == i;
    }
    assert n <= pages * k;
    MulStrictCancel(q, pages, k);
  }

  lemma DivMod(i: nat, k: int)
    requires k > 0
    ensures (i / k) * k + i % k == i && 0 <= i % k < k && 0 <= i / k
  {
  }

  /** Page `q + 1` is the slice starting at `q * k`. */
  lemma PageIsSlice(filtered: seq<InventoryItem>, q: nat, k: int)
    requires k > 0
    ensures PaginatedItems(filtered, q + 1, k) == JsSlice(filtered, q * k, q * k + k)
  {
    assert (q + 1 - 1) * k == q * k;
  }

  /** Offset `r` of the slice from `start`, `k` long, is position `start + r`. */
  lemma SliceHolds(s: seq<InventoryItem>, start: nat, k: nat, r: nat)
    requires r < k && start + r < |s|
    ensures |JsSlice(s, start, start + k)| > r && JsSlice(s, start, start + k)[r] == s[start + r]
  {
  }

  /** Position `i` is shown on page `i / itemsPerPage + 1`, at offset `i % itemsPerPage`. */
  lemma ItemOnItsPage(filtered: seq<InventoryItem>, itemsPerPage: int, i: nat)
    requires itemsPerPage > 0 && i < |filtered|
    ensures var page := i / itemsPerPage + 1;
      && |PaginatedItems(filtered, page, itemsPerPage)| > i % itemsPerPage
      && PaginatedItems(filtered, page, itemsPerPage)[i % itemsPerPage] == filtered[i]
  {
    var k := itemsPerPage;
    var q := i / k;
    var r := i % k;
    DivMod(i, k);
    PageIsSlice(filtered, q, k);
    SliceHolds(filtered, q * k, k, r);
  }

  /** The screen's filter and paging state. */
  class InventoryPageState {
    var searchQuery: string
    var categoryFilter: string
    var statusFilter: string
    var customerFilter: string
    var currentPage: int
    var itemsPerPage: int

    constructor ()
      ensures searchQuery == "" && categoryFilter == "all" && statusFilter == "all" && customerFilter == "all"
      ensures currentPage == 1 && itemsPerPage == 10
    {
      searchQuery := "";
      categoryFilter := "all";
      statusFilter := "all";
      customerFilter := "all";
      currentPage := 1;
      itemsPerPage := 10;
    }

    function CurrentFilters(): Filters
      reads this
    {
      Filters(searchQuery, categoryFilter, statusFilter, customerFilter)
    }

    /** `handleClearFilters`: search emptied, the three selects back to "all", first page; page size kept. */
    method HandleClearFilters()
      modifies this
      ensures CurrentFilters() == Filters("", "all", "all", "all")
      ensures currentPage == 1 && itemsPerPage == old(itemsPerPage)
    {
      searchQuery := "";
      categoryFilter := "all";
      statusFilter := "all";
      customerFilter := "all";
      currentPage := 1;
    }

    /** The "Items per page" select: 10, 25 or 50 per page, back to the first page; the filters stay. */
    method SetItemsPerPage(size: int)
      requires size == 10 || size == 25 || size == 50
      modifies this
      ensures itemsPerPage == size && itemsPerPage > 0 && currentPage == 1
      ensures CurrentFilters() == old(CurrentFilters())
    {
      itemsPerPage := size;
      currentPage := 1;
    }
  }
}

=== FILE: inventory_store.dfy ===
/**
 * The inventory store: the delivered items and the list filters of the inventory
 * screen. Items are appended, patched or removed by id; `getFilteredItems`
 * narrows the list by an optional customer argument, the stored customer filter,
 * a case-insensitive search over product name and serial number, and the
 * category. The stored `status` and date filters play no part in it.
 */
module InventoryStore {
  import opened Wrappers
  import opened Seqs
  import opened Text
  import opened Types

  /** `defaultFilters`. */
  const DefaultFilters: FilterState := FilterState("", "all", "all", "all", "", "")

  function ItemIdIs(id: string): InventoryItem -> bool { (i: InventoryItem) => i.id == id }
  function ItemIdIsNot(id: string): InventoryItem -> bool { (i: InventoryItem) => i.id != id }

  /**
   * The filter callback, test by test as the store writes it: each failed test
   * rejects the item at once; an item that passes all four is kept. The optional
   * argument takes part only when it is a non-empty string other than "all".
   */
  predicate PassesFilters(item: InventoryItem, filters: FilterState, customerId: Option<string>) {
    if customerId.Some? && customerId.value != "" && customerId.value != "all" && item.customerId != customerId.value then false
    else if filters.customerId != "all" && item.customerId != filters.customerId then false
    else if filters.search != "" && !MatchesQuery(item.productName, filters.search) && !MatchesQuery(item.serialNumber, filters.search) then false
    else if filters.category != "all" && item.category != filters.category then false
    else true
  }

  /** The argument's customer test: absent, empty or "all" admits everything. */
  predicate ArgumentAdmits(item: InventoryItem, customerId: Option<string>) {
    match customerId
    case None => true
    case Some(c) => c == "" || c == "all" || item.customerId == c
  }

  /** A stored filter value `v` admits `actual` when it is the wildcard or equal to it. */
  predicate Selects(v: string, actual: string) {
    v == "all" || v == actual
  }

  /** The search admits an item when it is empty or occurs, ignoring case, in the product name or the serial number. */
  predicate SearchAdmits(item: InventoryItem, search: string) {
    search == "" || MatchesQuery(item.productName, search) || MatchesQuery(item.serialNumber, search)
  }

  /** The same callback stated as a conjunction of independent tests. */
  predicate MatchesAll(item: InventoryItem, filters: FilterState, customerId: Option<string>) {
    ArgumentAdmits(item, customerId) && Selects(filters.customerId, item.customerId)
    && SearchAdmits(item, filters.search) && Selects(filters.category, item.category)
  }

  /** The early-return callback and the conjunction agree on every item. */
  lemma PassesFiltersIsConjunction(item: InventoryItem, filters: FilterState, customerId: Option<string>)
    ensures PassesFilters(item, filters, customerId) <==> MatchesAll(item, filters, customerId)
  {
  }

  function Admitted(filters: FilterState, customerId: Option<string>): InventoryItem -> bool {
    (i: InventoryItem) => PassesFilters(i, filters, customerId)
  }

  /** `getFilteredItems(customerId)`: the items the callback keeps, in store order. */
  function GetFilteredItems(items: seq<InventoryItem>, filters: FilterState, customerId: Option<string>)
    : (r: seq<InventoryItem>)
    ensures IsSubsequence(r, items)
    ensures forall i :: i in r <==> i in items && MatchesAll(i, filters, customerId)
  {
    FilterIsSubsequence(items, Admitted(filters, customerId));
    Filter(items, Admitted(filters, customerId))
  }

  /** With the default filters and no customer argument nothing is filtered out. */
  lemma {:induction false} DefaultFiltersKeepEverything(items: seq<InventoryItem>, customerId: Option<string>)
    requires customerId.None? || customerId == Some("") || customerId == Some("all")
    ensures GetFilteredItems(items, DefaultFilters, customerId) == items
  {
    forall i | 0 <= i < |items| ensures Admitted(DefaultFilters, customerId)(items[i]) {
      assert PassesFilters(items[i], DefaultFilters, customerId);
    }
    FilterKeepsAll(items, Admitted(DefaultFilters, customerId));
  }

  /** The stored status and date filters do not affect the result. */
  lemma StatusAndDatesIgnored(items: seq<InventoryItem>, filters: FilterState, customerId: Option<string>,
                              status: string, dateFrom: string, dateTo: string)
    ensures GetFilteredItems(items, filters.(status := status, dateFrom := dateFrom, dateTo := dateTo), customerId)
         == GetFilteredItems(items, filters, customerId)
  {
    var g := filters.(status := status, dateFrom := dateFrom, dateTo := dateTo);
    FilterCongruent(items, Admitted(g, customerId), Admitted(filters, customerId));
  }

  /** The search ignores case: an upper-cased query selects the same items. */
  lemma {:induction false} SearchIgnoresCase(items: seq<InventoryItem>, filters: FilterState, customerId: Option<string>)
    ensures GetFilteredItems(items, filters.(search := Upper(filters.search)), customerId)
         == GetFilteredItems(items, filters, customerId)
  {
    var g := filters.(search := Upper(filters.search));
    LowerOfUpper(filters.search);
    FilterCongruent(items, Admitted(g, customerId), Admitted(filters, customerId));
  }

  /** `updateItem`'s rewrite: the patch spread over every item with the id. */
  function UpdateItems(items: seq<InventoryItem>, id: string, updates: InventoryPatch): (r: seq<InventoryItem>)
    ensures |r| == |items|
    ensures forall k :: 0 <= k < |items| ==> r[k] == if items[k].id == id then updates.ApplyTo(items[k]) else items[k]
  {
    UpdateWhere(items, ItemIdIs(id), (i: InventoryItem) => updates.ApplyTo(i))
  }

  /** An empty patch changes nothing. */
  lemma EmptyPatchIsIdentity(items: seq<InventoryItem>, id: string)
    ensures UpdateItems(items, id, InventoryPatch()) == items
  {
  }

  /** After `deleteItem(id)` no item has the id, and every other item is still there in order. */
  lemma DeleteRemovesExactlyTheId(items: seq<InventoryItem>, id: string)
    ensures forall i :: i in Filter(items, ItemIdIsNot(id)) <==> i in items && i.id != id
    ensures IsSubsequence(Filter(items, ItemIdIsNot(id)), items)
    ensures |Filter(items, ItemIdIsNot(id))| + |Filter(items, ItemIdIs(id))| == |items|
  {
    FilterIsSubsequence(items, ItemIdIsNot(id));
    FilterSplitCount(items, ItemIdIs(id));
    FilterCongruent(items, ItemIdIsNot(id), (i: InventoryItem) => !ItemIdIs(id)(i));
  }

  class InventoryStore {
    var items: seq<InventoryItem>
    var filters: FilterState

    constructor (initial: seq<InventoryItem>)
      ensures items == initial && filters == DefaultFilters
    {
      items := initial;
      filters := DefaultFilters;
    }

    /** `addItem`: appended at the end. */
    method AddItem(item: InventoryItem)
      modifies this
      ensures items == old(items) + [item] && filters == old(filters)
    {
      items := items + [item];
    }

    /** `updateItem(id, updates)`. */
    method UpdateItem(id: string, updates: InventoryPatch)
      modifies this
      ensures items == UpdateItems(old(items), id, updates) && filters == old(filters)
    {
      items := UpdateItems(items, id, updates);
    }

    /** `deleteItem(id)`. */
    method DeleteItem(id: string)
      modifies this
      ensures items == Filter(old(items), ItemIdIsNot(id)) && filters == old(filters)
    {
      items := Filter(items, ItemIdIsNot(id));
    }

    /** `setFilters(partial)`: the given fields replace the stored ones. */
    method SetFilters(patch: FilterPatch)
      modifies this
      ensures filters == patch.ApplyTo(old(filters)) && items == old(items)
    {
      filters := patch.ApplyTo(filters);
    }

    /** `resetFilters`. */
    method ResetFilters()
      modifies this
      ensures filters == DefaultFilters && items == old(items)
    {
      filters := DefaultFilters;
    }

    function FilteredItems(customerId: Option<string>): seq<InventoryItem>
      reads this
    {
      GetFilteredItems(items, filters, customerId)
    }
  }
}

=== FILE: new_contract_page.dfy ===
/**
 * The three-step "create contract" wizard: choose an accessible customer, fill
 * in the details, review and create. Creation appends an active parent contract
 * whose id and contract number are derived from the current number of parents.
 */
module NewContractPage {
  import opened Wrappers
  import opened Seqs
  import opened Text
  import opened Calendar
  import opened Types
  import Permissions
  import ResellerContextStore
  import ContractStore
  import CustomerStore

  const DefaultTerms: string := "Standard terms and conditions apply."
  const DefaultReminderDays: int := 60

  /** `accessibleCustomers`: the customers offered on step 1. */
  function AccessibleCustomers(customers: seq<Customer>, user: Option<User>, mode: ResellerMode)
    : (r: seq<Customer>)
    ensures IsSubsequence(r, customers)
    ensures forall c :: c in r <==>
              c in customers && Permissions.CanAccessCustomer(c.id, user, ResellerContextStore.PageContext(user, mode))
  {
    Permissions.GetAccessibleCustomers(customers, user, ResellerContextStore.PageContext(user, mode))
  }

  /**
   * The contract-number prefix: "SATMZ" for a distributor; otherwise the first
   * word of the company name in upper case, or "CONT" when that word is empty
   * or nobody is signed in.
   */
  function ContractPrefix(user: Option<User>): (r: string)
    ensures r != [] && ' ' !in r
    ensures user.Some? && user.value.role == DistributorRole ==> r == "SATMZ"
    ensures user.None? ==> r == "CONT"
    ensures user.Some? && user.value.role != DistributorRole ==>
              var name := user.value.companyName;
              if name == [] || name[0] == ' ' then r == "CONT"
              else |r| <= |name| && (|r| < |name| ==> name[|r|] == ' ')
                   && forall i :: 0 <= i < |r| ==> r[i] == UpperChar(name[i])
  {
    if user.Some? && user.value.role == DistributorRole then "SATMZ"
    else
      var word := if user.Some? then Upper(FirstWord(user.value.companyName)) else "";
      assert forall i :: 0 <= i < |word| ==> word[i] != ' ';
      if word == "" then "CONT" else word
  }

  /** `generateContractNumber`: `<prefix>-<year>-PC-<count + 1, three digits>`. */
  function ContractNumber(user: Option<User>, year: int, count: nat): (r: string)
    ensures |r| > |ContractPrefix(user)| && r[..|ContractPrefix(user)| + 1] == ContractPrefix(user) + "-"
    ensures count + 1 < 1000 ==> TailReads(r, count + 1)
    ensures r == ContractPrefix(user) + "-" + IntToString(year) + ("-PC-" + SequenceNumber(count + 1))
  {
    NumberFormat(ContractPrefix(user), year, count + 1)
  }

  /** The number's layout for any prefix. */
  function NumberFormat(prefix: string, year: int, n: nat): (r: string)
    ensures |r| > |prefix| && r[..|prefix| + 1] == prefix + "-"
    ensures r == prefix + "-" + IntToString(year) + ("-PC-" + SequenceNumber(n))
    ensures n < 1000 ==> TailReads(r, n)
  {
    var head := prefix + "-" + IntToString(year);
    NumberTail(head, n);
    NumberHead(prefix, IntToString(year), SequenceNumber(n));
    head + ("-PC-" + SequenceNumber(n))
  }

  /** `r` ends in "-PC-" and three digits that read back as `n`. */
  predicate TailReads(r: string, n: nat) {
    |r| >= 7 && r[|r| - 7..|r| - 3] == "-PC-" && AllDigits(r[|r| - 3..]) && DigitsValue(r[|r| - 3..]) == n
  }

  /** `r` reads, left to right, as the prefix, a dash, the year's digits `y`, "-PC-" and `tail`. */
  predicate LaidOut(r: string, prefix: string, y: string, tail: string) {
    && |r| == |prefix| + |y| + 5 + |tail|
    && r[..|prefix| + 1 + |y|] == prefix + "-" + y
    && r[|prefix| + 1 + |y|..|prefix| + 5 + |y|] == "-PC-"
    && r[|prefix| + 5 + |y|..] == tail
  }

  /** Read left to right, a contract number is the prefix, a dash, the year, "-PC-" and the padded count. */
  lemma ContractNumberLayout(user: Option<User>, year: int, count: nat)
    ensures LaidOut(ContractNumber(user, year, count), ContractPrefix(user), IntToString(year), SequenceNumber(count + 1))
  {
    NumberLayout(ContractNumber(user, year, count), ContractPrefix(user), IntToString(year), SequenceNumber(count + 1));
  }

  lemma NumberLayout(r: string, prefix: string, y: string, tail: string)
    requires r == prefix + "-" + y + ("-PC-" + tail)
    ensures LaidOut(r, prefix, y, tail)
  {
    var head := prefix + "-" + y;
    assert r[..|head|] == head;
    assert r[|head|..] == "-PC-" + tail;
  }

  lemma NumberHead(prefix: string, y: string, tail: string)
    ensures var r := prefix + "-" + y + ("-PC-" + tail);
            |r| > |prefix| && r[..|prefix| + 1] == prefix + "-"
  {
    var r := prefix + "-" + y + ("-PC-" + tail);
    assert r[..|prefix| + 1] == (prefix + "-" + y)[..|prefix| + 1];
  }

  lemma NumberTail(head: string, n: nat)
    ensures var r := head + ("-PC-" + SequenceNumber(n));
            n < 1000 ==> TailReads(r, n)
  {
    if n < 1000 {
      TailSlices(head, "-PC-", SequenceNumber(n));
      SequenceNumberRoundTrip(n);
    }
  }

  /** The last two pieces of a concatenation are its last two slices. */
  lemma TailSlices(head: string, mid: string, last: string)
    ensures var r := head + (mid + last);
            r[|r| - |last|..] == last && r[|r| - |last| - |mid|..|r| - |last|] == mid
  {
    var r := head + (mid + last);
    assert r[|head|..] == mid + last;
  }

  /** Two contracts numbered for the same user and year from different counts get different numbers. */
  lemma ContractNumbersDiffer(user: Option<User>, year: int, m: nat, n: nat)
    requires m != n
    ensures ContractNumber(user, year, m) != ContractNumber(user, year, n)
  {
    FormatsDiffer(ContractPrefix(user), year, m + 1, n + 1);
  }

  lemma FormatsDiffer(prefix: string, year: int, m: nat, n: nat)
    requires m != n
    ensures NumberFormat(prefix, year, m) != NumberFormat(prefix, year, n)
  {
    var head := prefix + "-" + IntToString(year);
    assert NumberFormat(prefix, year, m) == head + ("-PC-" + SequenceNumber(m));
    assert NumberFormat(prefix, year, n) == head + ("-PC-" + SequenceNumber(n));
    if SequenceNumber(m) == SequenceNumber(n) {
      SequenceNumberInjective(m, n);
    }
    DistinctSuffixes("-PC-", SequenceNumber(m), SequenceNumber(n));
    DistinctSuffixes(head, "-PC-" + SequenceNumber(m), "-PC-" + SequenceNumber(n));
  }

  lemma DistinctSuffixes(head: string, x: string, y: string)
    requires x != y
    ensures head + x != head + y
  {
    assert (head + x)[|head|..] == x && (head + y)[|head|..] == y;
  }

  /** The new contract's id, `PC<count + 1, three digits>`. */
  function ContractId(count: nat): (r: string)
    ensures |r| >= 5 && r[..2] == "PC"
    ensures AllDigits(r[2..]) && DigitsValue(r[2..]) == count + 1
  {
    SequentialId("PC", count + 1)
  }

  function SampleParent(id: string): ParentContract {
    ParentContract(id, "", "", "", "", "", 0, 0, Active, 0.0, "", 0, 0, [], [], "", false, DefaultReminderDays)
  }

  /**
   * Ids come from the count, not from the ids in use: after the first of two
   * contracts is deleted, the next contract is given the id of the survivor.
   */
  lemma IdReusedAfterDelete()
    ensures var remaining := Filter([SampleParent("PC001"), SampleParent("PC002")], ContractStore.ParentIdIsNot("PC001"));
            |remaining| == 1 && remaining[0].id == "PC002" && ContractId(|remaining|) == "PC002"
  {
    var parents := [SampleParent("PC001"), SampleParent("PC002")];
    assert "PC001"[4] != "PC002"[4];
    assert Filter(parents[..1], ContractStore.ParentIdIsNot("PC001")) == [];
    assert parents[..2] == parents;
    assert NatToString(2) == "2";
    assert PadStart("2", 3, '0') == "002";
  }

  /** `parseInt(renewalReminderDays) || 60`: a missing (NaN) or zero reading falls back to 60. */
  function ReminderDays(parsed: Option<int>): (r: int)
    ensures r != 0
    ensures parsed.Some? && parsed.value != 0 ==> r == parsed.value
    ensures parsed.None? || parsed.value == 0 ==> r == DefaultReminderDays
  {
    if parsed.Some? && parsed.value != 0 then parsed.value else DefaultReminderDays
  }

  /** The wizard's fields. Dates are the instants the date inputs denote; the two numbers are kept as typed. */
  datatype Form = Form(customerId: string, title: string, description: string, startDate: Instant,
                       endDate: Instant, totalValue: string, terms: string, autoRenew: bool,
                       renewalReminderDays: string)

  /**
   * `handleSubmit`'s record, or None when nobody is signed in, no customer is
   * chosen, or the chosen id is not a customer in the store (any customer in
   * the store is accepted, accessible or not). `parsedTotal` and
   * `parsedReminder` are what `parseFloat` and `parseInt` read from the two
   * numeric fields, None for NaN.
   */
  function NewContract(user: Option<User>, form: Form, customers: seq<Customer>, count: nat,
                       parsedTotal: Option<real>, parsedReminder: Option<int>, now: Instant)
    : (r: Option<ParentContract>)
    ensures r.Some? <==>
              user.Some? && form.customerId != "" && CustomerStore.GetCustomerById(customers, form.customerId).Some?
    ensures r.Some? ==>
      var c := r.value;
      && c.id == ContractId(count)
      && c.contractNumber == ContractNumber(user, DateOf(now).year, count)
      && c.customerId == form.customerId
      && c.customerName == CustomerStore.GetCustomerById(customers, form.customerId).value.name
      && c.title == form.title && c.description == form.description
      && c.startDate == form.startDate && c.endDate == form.endDate
      && c.status == Active
      && c.totalValue == parsedTotal.GetOr(0.0)
      && c.createdBy == user.value.id && c.createdAt == now && c.updatedAt == now
      && c.productIds == [] && c.childContractIds == []
      && c.terms == form.terms && c.autoRenew == form.autoRenew
      && c.renewalReminderDays == ReminderDays(parsedReminder)
  {
    if user.None? || form.customerId == "" then None
    else
      var customer := CustomerStore.GetCustomerById(customers, form.customerId);
      if customer.None? then None
      else
        Some(ParentContract(
          ContractId(count), ContractNumber(user, DateOf(now).year, count), form.customerId, customer.value.name,
          form.title, form.description, form.startDate, form.endDate, Active, parsedTotal.GetOr(0.0),
          user.value.id, now, now, [], [], form.terms, form.autoRenew, ReminderDays(parsedReminder)))
  }

  /** The wizard's state. */
  class NewContractPageState {
    var step: int
    var form: Form

    /**
     * Step 2 was reached with a customer chosen, step 3 also with a title and a
     * total value typed in; each step's inputs are shown only on that step.
     */
    ghost predicate Valid()
      reads this
    {
      && 1 <= step <= 3
      && (step >= 2 ==> form.customerId != "")
      && (step == 3 ==> form.title != "" && form.totalValue != "")
    }

    /** The initial form: today to a year from today, standard terms, auto-renewal with a 60-day reminder. */
    constructor (now: Instant)
      ensures Valid() && step == 1
      ensures form == Form("", "", "", StartOfDay(now), StartOfDay(now + 365 * MsPerDay), "",
                           DefaultTerms, true, "60")
    {
      step := 1;
      form := Form("", "", "", StartOfDay(now), StartOfDay(now + 365 * MsPerDay), "", DefaultTerms, true, "60");
    }

    /** Choosing a customer on step 1. */
    method SelectCustomer(customerId: string)
      requires Valid() && step == 1
      modifies this
      ensures Valid() && step == 1 && form == old(form).(customerId := customerId)
    {
      form := form.(customerId := customerId);
    }

    /** Editing the details on step 2; the customer stays as chosen. */
    method EditDetails(details: Form)
      requires Valid() && step == 2
      modifies this
      ensures Valid() && step == 2
      ensures form == details.(customerId := old(form).customerId)
    {
      form := details.(customerId := form.customerId);
    }

    /** "Next: Contract Details": disabled until a customer is chosen. */
    method NextToDetails()
      requires Valid() && step == 1
      modifies this
      ensures Valid() && form == old(form)
      ensures step == (if form.customerId != "" then 2 else 1)
    {
      if form.customerId != "" {
        step := 2;
      }
    }

    /** "Next: Review": disabled until there is a title and a total value. */
    method NextToReview()
      requires Valid() && step == 2
      modifies this
      ensures Valid() && form == old(form)
      ensures step == (if form.title != "" && form.totalValue != "" then 3 else 2)
    {
      if form.title != "" && form.totalValue != "" {
        step := 3;
      }
    }

    /** "Back": one step earlier, fields kept. */
    method Back()
      requires Valid() && step >= 2
      modifies this
      ensures Valid() && step == old(step) - 1 && form == old(form)
    {
      step := step - 1;
    }

    /**
     * `handleSubmit`: when a record can be built it is appended to the store's
     * parents, numbered from their count; otherwise the store is untouched.
     */
    method HandleSubmit(store: ContractStore.ContractStore, customers: seq<Customer>, user: Option<User>,
                        parsedTotal: Option<real>, parsedReminder: Option<int>, now: Instant)
      returns (created: Option<ParentContract>)
      modifies store
      ensures created == NewContract(user, old(form), customers, |old(store.parentContracts)|,
                                     parsedTotal, parsedReminder, now)
      ensures created.None? ==> store.parentContracts == old(store.parentContracts)
      ensures created.Some? ==> store.parentContracts == old(store.parentContracts) + [created.value]
      ensures store.childContracts == old(store.childContracts)
    {
      var count := |store.parentContracts|;
      var submitted := form;
      created := NewContract(user, submitted, customers, count, parsedTotal, parsedReminder, now);
      if created.Some? {
        store.AddParentContract(created.value);
      }
    }
  }
}

=== FILE: new_product_page.dfy ===
/**
 * The "create product" form: a single page whose submission validates four
 * required fields and appends a delivered item, with no contract, warranty,
 * licence or service links, to the inventory.
 */
module NewProductPage {
  import opened Wrappers
  import opened Seqs
  import opened Text
  import opened Calendar
  import opened Types
  import Permissions
  import ResellerContextStore
  import InventoryStore

  const RequiredFieldsMessage: string := "Please fill all required fields"

  /** `accessibleCustomers`: the customers the form offers. */
  function AccessibleCustomers(customers: seq<Customer>, user: Option<User>, mode: ResellerMode)
    : (r: seq<Customer>)
    ensures IsSubsequence(r, customers)
    ensures forall c :: c in r <==>
              c in customers && Permissions.CanAccessCustomer(c.id, user, ResellerContextStore.PageContext(user, mode))
  {
    Permissions.GetAccessibleCustomers(customers, user, ResellerContextStore.PageContext(user, mode))
  }

  /**
   * The form's fields. The numeric fields are kept as typed; the date inputs
   * are the instants they denote, and an emptied warranty date is None.
   */
  datatype Form = Form(
    customerId: string,
    productName: string,
    manufacturer: string,
    model: string,
    serialNumber: string,
    category: string,
    quantity: string,
    unitPrice: string,
    deliveryDate: Instant,
    warrantyStartDate: Option<Instant>,
    warrantyEndDate: Option<Instant>,
    invoiceNumber: string,
    challanNumber: string,
    poNumber: string,
    notes: string)

  /** The initial form: one server, delivered today, with a one-year warranty from today. */
  function InitialForm(now: Instant): (f: Form)
    ensures f.customerId == "" && f.productName == "" && f.serialNumber == "" && f.unitPrice == ""
    ensures f.manufacturer == "" && f.model == "" && f.notes == ""
    ensures f.invoiceNumber == "" && f.challanNumber == "" && f.poNumber == ""
    ensures f.category == "Server" && f.quantity == "1"
    ensures f.deliveryDate == StartOfDay(now) && f.warrantyStartDate == Some(StartOfDay(now))
    ensures f.warrantyEndDate == Some(StartOfDay(AddYears(now, 1)))
  {
    Form("", "", "", "", "", "Server", "1", "", StartOfDay(now), Some(StartOfDay(now)),
         Some(StartOfDay(AddYears(now, 1))), "", "", "", "")
  }

  /** The four fields the form requires. */
  predicate RequiredFilled(form: Form) {
    form.customerId != "" && form.productName != "" && form.serialNumber != "" && form.unitPrice != ""
  }

  /** `parseInt(quantity) || 1`: a missing (NaN) or zero reading falls back to one. */
  function Quantity(parsed: Option<int>): (q: int)
    ensures q != 0
    ensures parsed.Some? && parsed.value != 0 ==> q == parsed.value
    ensures parsed.None? || parsed.value == 0 ==> q == 1
  {
    if parsed.Some? && parsed.value != 0 then parsed.value else 1
  }

  /**
   * `handleSubmit`'s record, or the required-fields message. `unitPrice` and
   * `parsedQuantity` are what `parseFloat` and `parseInt` read from the two
   * numeric fields (None for a NaN quantity); the id is `PROD` and the clock.
   */
  function NewProduct(form: Form, unitPrice: real, parsedQuantity: Option<int>, now: Instant)
    : (r: Result<InventoryItem>)
    ensures r.Err? <==> !RequiredFilled(form)
    ensures r.Err? ==> r.message == RequiredFieldsMessage
    ensures r.Ok? ==>
      var p := r.value;
      && p.id == "PROD" + IntToString(now)
      && p.customerId == form.customerId && p.productName == form.productName
      && p.serialNumber == form.serialNumber && p.category == form.category
      && p.manufacturer == form.manufacturer && p.model == form.model
      && p.quantity == Quantity(parsedQuantity) && p.unitPrice == unitPrice
      && p.totalPrice == unitPrice * (p.quantity as real)
      && p.deliveryDate == form.deliveryDate
      && p.warrantyStartDate == form.warrantyStartDate && p.warrantyEndDate == form.warrantyEndDate
      && p.invoiceNumber == form.invoiceNumber && p.challanNumber == form.challanNumber
      && p.poNumber == form.poNumber && p.notes == form.notes
      && p.contractId == "" && p.contractNumber == ""
      && p.warrantyContractId.None? && p.licenseContractId.None? && p.serviceContractId.None?
      && p.licenseEndDate.None? && p.serviceType.None?
      && p.serviceStartDate.None? && p.serviceEndDate.None?
      && p.status == Delivered
  {
    if !RequiredFilled(form) then Err(RequiredFieldsMessage)
    else
      var quantity := Quantity(parsedQuantity);
      Ok(InventoryItem(
        "PROD" + IntToString(now), "", "", form.customerId, form.productName, form.serialNumber,
        quantity, unitPrice, unitPrice * (quantity as real), form.deliveryDate,
        form.warrantyStartDate, form.warrantyEndDate, None, None, None, None, None, None, None,
        form.category, form.manufacturer, form.model, form.invoiceNumber, form.challanNumber,
        form.poNumber, Delivered, form.notes))
  }

  /** The untouched initial form is refused: it has no customer, name, serial number or price. */
  lemma InitialFormRefused(now: Instant, unitPrice: real, parsedQuantity: Option<int>)
    ensures NewProduct(InitialForm(now), unitPrice, parsedQuantity, now) == Err(RequiredFieldsMessage)
  {
  }

  /** A new product has no service, so the warranty screen counts it as without service. */
  lemma NewProductHasNoService(form: Form, unitPrice: real, parsedQuantity: Option<int>, now: Instant)
    requires RequiredFilled(form)
    ensures NewProduct(form, unitPrice, parsedQuantity, now).Ok?
    ensures NewProduct(form, unitPrice, parsedQuantity, now).value.serviceType.None?
  {
  }

  /**
   * `handleSubmit`: with the required fields filled, the record is appended to
   * the inventory; otherwise the inventory is untouched and the message is returned.
   */
  method HandleSubmit(store: InventoryStore.InventoryStore, form: Form, unitPrice: real,
                      parsedQuantity: Option<int>, now: Instant)
    returns (outcome: Result<InventoryItem>)
    modifies store
    ensures outcome == NewProduct(form, unitPrice, parsedQuantity, now)
    ensures outcome.Ok? ==> store.items == old(store.items) + [outcome.value]
    ensures outcome.Err? ==> store.items == old(store.items)
    ensures store.filters == old(store.filters)
  {
    outcome := NewProduct(form, unitPrice, parsedQuantity, now);
    if outcome.Ok? {
      store.AddItem(outcome.value);
    }
  }
}

=== FILE: new_ticket_page.dfy ===
/**
 * The three-step "raise a ticket" wizard: pick one of the user's products,
 * describe the problem, review and submit. Submission builds an open ticket
 * whose warranty and service status are read off the chosen product.
 */
module NewTicketPage {
  import opened Wrappers
  import opened Seqs
  import opened Calendar
  import opened Types
  import opened OwnScope
  import DateUtils
  import InventoryStore
  import TicketStore

  /** The shortest description the wizard accepts. */
  const MinDescriptionLength: nat := 50

  /** `userProducts`: a reseller's own customer's items; everyone else all items. */
  function UserProducts(items: seq<InventoryItem>, user: Option<User>): (r: seq<InventoryItem>)
    ensures IsSubsequence(r, items)
    ensures forall i :: i in r <==> i in items && (IsReseller(user) ==> Some(i.customerId) == user.value.customerId)
  {
    ResellerScoped(items, ItemOwner(), user)
  }

  /** `selectedProduct`: the first of the user's products with the selected id. */
  function SelectedProduct(items: seq<InventoryItem>, user: Option<User>, selectedProductId: string)
    : (r: Option<InventoryItem>)
    ensures r.Some? ==> r.value.id == selectedProductId && r.value in items
    ensures r.Some? && IsReseller(user) ==> Some(r.value.customerId) == user.value.customerId
    ensures r.None? <==> forall i :: i in UserProducts(items, user) ==> i.id != selectedProductId
  {
    var products := UserProducts(items, user);
    var r := Find(products, InventoryStore.ItemIdIs(selectedProductId));
    assert r.Some? ==> r.value in products;
    assert r.None? ==> forall i :: i in products ==> i.id != selectedProductId;
    r
  }

  /** A reseller can never pick another customer's product, whatever id is selected. */
  lemma ResellerPicksOnlyOwnProducts(items: seq<InventoryItem>, u: User, id: string)
    requires u.role == ResellerRole
    ensures SelectedProduct(items, Some(u), id).Some? ==> Some(SelectedProduct(items, Some(u), id).value.customerId) == u.customerId
  {
  }

  datatype WarrantyInfo = WarrantyInfo(tier: DateUtils.Tier, serviceStatus: string)

  /** `warrantyInfo`: the product's warranty tier, and "covered" exactly when it has a non-empty service type. */
  function GetWarrantyInfo(product: InventoryItem, now: Instant): (w: WarrantyInfo)
    ensures w.tier == DateUtils.TierOf(product.warrantyEndDate, now)
    ensures w.serviceStatus == "covered" <==> product.serviceType.Some? && product.serviceType.value != ""
    ensures w.serviceStatus == "covered" || w.serviceStatus == "not_covered"
  {
    var covered := product.serviceType.Some? && product.serviceType.value != "";
    WarrantyInfo(DateUtils.TierOf(product.warrantyEndDate, now), if covered then "covered" else "not_covered")
  }

  /** The ticket's `warrantyStatus`: the tier's name, with "expiring_soon" shortened to "expiring". */
  function WarrantyStatusText(tier: DateUtils.Tier): (r: string)
    ensures r == "active" <==> tier == DateUtils.Active
    ensures r == "expiring" <==> tier == DateUtils.ExpiringSoon
    ensures r == "expired" <==> tier == DateUtils.Expired
  {
    assert "expiring"[5] != "expired"[5] && "active"[0] != "expired"[0] && "active"[0] != "expiring"[0];
    match tier
    case Active => "active"
    case ExpiringSoon => "expiring"
    case Expired => "expired"
  }

  /** `user?.customerId || selectedProduct.customerId`. */
  function TicketCustomer(user: Option<User>, product: InventoryItem): (r: string)
    ensures user.Some? && user.value.customerId.Some? && user.value.customerId.value != "" ==>
              r == user.value.customerId.value
    ensures user.None? || user.value.customerId.None? || user.value.customerId.value == "" ==>
              r == product.customerId
  {
    if user.Some? && user.value.customerId.Some? && user.value.customerId.value != "" then user.value.customerId.value
    else product.customerId
  }

  /** The wizard's fields as `handleSubmit` reads them. */
  datatype Form = Form(selectedProductId: string, category: string, priority: string, subject: string, description: string)

  /** `handleSubmit`'s guard: a product found, a subject, and a description of at least 50 characters. */
  predicate CanSubmit(product: Option<InventoryItem>, form: Form) {
    product.Some? && form.subject != "" && |form.description| >= MinDescriptionLength
  }

  /** What `handleSubmit` hands to `createTicket`, or None when the guard fails. */
  function SubmitDraft(items: seq<InventoryItem>, user: Option<User>, form: Form, now: Instant): (r: Option<TicketDraft>)
    ensures r.Some? <==> CanSubmit(SelectedProduct(items, user, form.selectedProductId), form)
    ensures r.Some? ==>
      var p := SelectedProduct(items, user, form.selectedProductId).value;
      && r.value.status == Open
      && r.value.customerId == TicketCustomer(user, p)
      && r.value.serialNumber == p.serialNumber && r.value.productName == p.productName
      && r.value.subject == form.subject && r.value.description == form.description
      && r.value.category == form.category && r.value.priority == form.priority
      && r.value.warrantyStatus == WarrantyStatusText(DateUtils.TierOf(p.warrantyEndDate, now))
      && (r.value.serviceStatus == "covered" <==> p.serviceType.Some? && p.serviceType.value != "")
      && r.value.assignedTo.None?
  {
    var product := SelectedProduct(items, user, form.selectedProductId);
    if !CanSubmit(product, form) then None
    else
      var p := product.value;
      var info := GetWarrantyInfo(p, now);
      Some(TicketDraft(TicketCustomer(user, p), p.serialNumber, p.productName, form.category, form.priority,
                       form.subject, form.description, Open, WarrantyStatusText(info.tier),
                       info.serviceStatus, None))
  }

  /** A description one character short of the minimum is refused, whatever else is filled in. */
  lemma ShortDescriptionRefused(items: seq<InventoryItem>, user: Option<User>, form: Form, now: Instant)
    requires |form.description| < MinDescriptionLength
    ensures SubmitDraft(items, user, form, now).None?
  {
  }

  /** The wizard's state. */
  class NewTicketPageState {
    var step: int
    var selectedProductId: string
    var category: string
    var priority: string
    var subject: string
    var description: string

    /**
     * Each later step was reached through its "Next" button: step 2 needs a
     * selected product id, step 3 also a subject and a long enough description.
     * The inputs for a step are shown only on that step, so nothing undoes this.
     */
    ghost predicate Valid()
      reads this
    {
      && 1 <= step <= 3
      && (step >= 2 ==> selectedProductId != "")
      && (step == 3 ==> subject != "" && |description| >= MinDescriptionLength)
    }

    function CurrentForm(): Form
      reads this
    {
      Form(selectedProductId, category, priority, subject, description)
    }

    constructor ()
      ensures Valid() && step == 1
      ensures selectedProductId == "" && category == "Hardware Issue" && priority == "medium"
      ensures subject == "" && description == ""
    {
      step := 1;
      selectedProductId := "";
      category := "Hardware Issue";
      priority := "medium";
      subject := "";
      description := "";
    }

    /** Choosing a product on step 1. */
    method SelectProduct(id: string)
      requires Valid() && step == 1
      modifies this
      ensures Valid() && step == 1 && selectedProductId == id
      ensures CurrentForm() == old(CurrentForm()).(selectedProductId := id)
    {
      selectedProductId := id;
    }

    /** Editing the details on step 2. */
    method EditDetails(newCategory: string, newPriority: string, newSubject: string, newDescription: string)
      requires Valid() && step == 2
      modifies this
      ensures Valid() && step == 2 && selectedProductId == old(selectedProductId)
      ensures category == newCategory && priority == newPriority
      ensures subject == newSubject && description == newDescription
    {
      category := newCategory;
      priority := newPriority;
      subject := newSubject;
      description := newDescription;
    }

    /** "Next: Ticket Details": disabled until a product id is selected. */
    method NextToDetails()
      requires Valid() && step == 1
      modifies this
      ensures Valid()
      ensures step == (if selectedProductId != "" then 2 else 1)
      ensures CurrentForm() == old(CurrentForm())
    {
      if selectedProductId != "" {
        step := 2;
      }
    }

    /** "Next: Review": disabled until there is a subject and a description of at least 50 characters. */
    method NextToReview()
      requires Valid() && step == 2
      modifies this
      ensures Valid()
      ensures step == (if subject != "" && |description| >= MinDescriptionLength then 3 else 2)
      ensures CurrentForm() == old(CurrentForm())
    {
      if subject != "" && |description| >= MinDescriptionLength {
        step := 3;
      }
    }

    /** "Back": one step earlier, fields kept. */
    method Back()
      requires Valid() && step >= 2
      modifies this
      ensures Valid() && step == old(step) - 1
      ensures CurrentForm() == old(CurrentForm())
    {
      step := step - 1;
    }

    /**
     * `handleSubmit`: with the guard met, exactly one ticket is created from
     * the draft; otherwise the store is untouched and nothing is returned.
     */
    method HandleSubmit(store: TicketStore.TicketStore, items: seq<InventoryItem>, user: Option<User>, now: Instant)
      returns (created: Option<Ticket>)
      modifies store
      ensures SubmitDraft(items, user, old(CurrentForm()), now).None? ==>
                created.None? && store.tickets == old(store.tickets)
      ensures SubmitDraft(items, user, old(CurrentForm()), now).Some? ==>
                var t := TicketStore.NewTicket(SubmitDraft(items, user, old(CurrentForm()), now).value,
                                               |old(store.tickets)|, now);
                created == Some(t) && store.tickets == old(store.tickets) + [t]
    {
      var draft := SubmitDraft(items, user, CurrentForm(), now);
      if draft.None? {
        created := None;
      } else {
        var t := store.CreateTicket(draft.value, now);
        created := Some(t);
      }
    }
  }
}

=== FILE: notification_store.dfy ===
/**
 * The notification store: notifications, newest first, and a cached count of the
 * unread ones. Each mutator first replaces the list and then recomputes the
 * counter in a second step, so the counter agrees with the list after every
 * operation.
 */
module NotificationStore {
  import opened Wrappers
  import opened Seqs
  import opened Text
  import opened Calendar
  import opened Types

  function IsUnread(): Notification -> bool { (n: Notification) => !n.isRead }

  /** `notifications.filter(n => !n.isRead).length`. */
  function UnreadCount(ns: seq<Notification>): (k: nat)
    ensures k <= |ns|
  {
    |Filter(ns, IsUnread())|
  }

  /** `NOT` followed by the new count, zero-padded to at least three digits. */
  function NotificationId(count: nat): (r: string)
    ensures |r| >= 6 && r[..3] == "NOT"
    ensures AllDigits(r[3..]) && DigitsValue(r[3..]) == count + 1
  {
    SequentialId("NOT", count + 1)
  }

  function NotificationIdIs(id: string): Notification -> bool { (n: Notification) => n.id == id }

  /** `markAsRead(id)`'s rewrite of the list. */
  function MarkRead(ns: seq<Notification>, id: string): (r: seq<Notification>)
    ensures |r| == |ns|
    ensures forall i :: 0 <= i < |ns| ==> r[i] == if ns[i].id == id then ns[i].(isRead := true) else ns[i]
  {
    UpdateWhere(ns, NotificationIdIs(id), (n: Notification) => n.(isRead := true))
  }

  /** `markAllAsRead`'s rewrite of the list. */
  function MarkAllRead(ns: seq<Notification>): (r: seq<Notification>)
    ensures |r| == |ns|
    ensures forall i :: 0 <= i < |ns| ==> r[i] == ns[i].(isRead := true)
  {
    seq(|ns|, i requires 0 <= i < |ns| => ns[i].(isRead := true))
  }

  /** The notification `addNotification` builds when the store holds `count` of them. */
  function NewNotification(draft: NotificationDraft, count: nat, now: Instant): (n: Notification)
    ensures n.id == NotificationId(count) && n.createdAt == now
    ensures n.customerId == draft.customerId && n.isRead == draft.isRead && n.kind == draft.kind
  {
    Notification(NotificationId(count), draft.customerId, draft.kind, draft.title, draft.message,
                 draft.serialNumber, draft.isRead, now)
  }

  /** Marking a notification read is idempotent. */
  lemma MarkReadIdempotent(ns: seq<Notification>, id: string)
    ensures MarkRead(MarkRead(ns, id), id) == MarkRead(ns, id)
  {
  }

  /** Marking read never raises the unread count. */
  lemma MarkReadNeverIncreasesUnread(ns: seq<Notification>, id: string)
    ensures UnreadCount(MarkRead(ns, id)) <= UnreadCount(ns)
  {
    FilterCountMonotone(ns, MarkRead(ns, id), IsUnread());
  }

  /** Marking a present, unread notification read lowers the unread count. */
  lemma MarkReadOfUnreadDecreases(ns: seq<Notification>, id: string, k: nat)
    requires k < |ns| && ns[k].id == id && !ns[k].isRead
    ensures UnreadCount(MarkRead(ns, id)) < UnreadCount(ns)
  {
    FilterCountStrict(ns, MarkRead(ns, id), IsUnread(), k);
  }

  /** After marking all read nothing is unread. */
  lemma MarkAllReadClearsUnread(ns: seq<Notification>)
    ensures UnreadCount(MarkAllRead(ns)) == 0
    ensures forall i :: 0 <= i < |ns| ==> MarkAllRead(ns)[i].isRead
  {
    FilterNone(MarkAllRead(ns), IsUnread());
  }

  /** Prepending an unread notification raises the unread count by exactly one; a read one leaves it. */
  lemma PrependUnreadCount(n: Notification, ns: seq<Notification>)
    ensures UnreadCount([n] + ns) == UnreadCount(ns) + (if n.isRead then 0 else 1)
  {
    FilterAppend([n], ns, IsUnread());
    assert [n][..0] == [];
  }

  function AudienceIs(customerId: Option<string>): Notification -> bool {
    (n: Notification) => n.customerId == customerId || n.customerId.None?
  }

  /** `getNotificationsByCustomer(customerId)`: that customer's notifications and the broadcasts, in order. */
  function NotificationsByCustomer(ns: seq<Notification>, customerId: Option<string>): (r: seq<Notification>)
    ensures IsSubsequence(r, ns)
    ensures forall n :: n in r <==> n in ns && (n.customerId == customerId || n.customerId.None?)
  {
    FilterIsSubsequence(ns, AudienceIs(customerId));
    Filter(ns, AudienceIs(customerId))
  }

  class NotificationStore {
    var notifications: seq<Notification>
    var unreadCount: int

    /** The cached counter agrees with the list. */
    ghost predicate Valid()
      reads this
    {
      unreadCount == UnreadCount(notifications)
    }

    constructor (initial: seq<Notification>)
      ensures Valid() && notifications == initial
    {
      notifications := initial;
      unreadCount := UnreadCount(initial);
    }

    /** `updateUnreadCount`: the second step of every mutator. */
    method UpdateUnreadCount()
      modifies this
      ensures Valid() && notifications == old(notifications)
    {
      unreadCount := UnreadCount(notifications);
    }

    /** `markAsRead(id)`: reads only that id; the counter drops by the number newly read. */
    method MarkAsRead(id: string)
      requires Valid()
      modifies this
      ensures Valid() && notifications == MarkRead(old(notifications), id)
      ensures unreadCount <= old(unreadCount)
    {
      MarkReadNeverIncreasesUnread(notifications, id);
      notifications := MarkRead(notifications, id);
      UpdateUnreadCount();
    }

    /** `markAllAsRead`: everything read, counter zero. */
    method MarkAllAsRead()
      modifies this
      ensures Valid() && notifications == MarkAllRead(old(notifications))
      ensures unreadCount == 0
    {
      MarkAllReadClearsUnread(notifications);
      notifications := MarkAllRead(notifications);
      UpdateUnreadCount();
    }

    /** `addNotification`: the new notification goes first, numbered from the current count. */
    method AddNotification(draft: NotificationDraft, now: Instant)
      requires Valid()
      modifies this
      ensures Valid()
      ensures notifications == [NewNotification(draft, |old(notifications)|, now)] + old(notifications)
      ensures unreadCount == old(unreadCount) + (if draft.isRead then 0 else 1)
    {
      var n := NewNotification(draft, |notifications|, now);
      PrependUnreadCount(n, notifications);
      notifications := [n] + notifications;
      UpdateUnreadCount();
    }
  }
}

=== FILE: notifications_page.dfy ===
/**
 * The notifications screen: the user's notifications (their customer's and the
 * broadcasts), grouped by age into today, yesterday, earlier this week and
 * earlier, plus the click and "mark all as read" handlers that defer to the
 * notification store.
 */
module NotificationsPage {
  import opened Wrappers
  import opened Seqs
  import opened Calendar
  import opened Types
  import NotificationStore

  /** `user?.customerId`: undefined when signed out. */
  function UserCustomerId(user: Option<User>): Option<string> {
    if user.Some? then user.value.customerId else None
  }

  /** `userNotifications`: in store order, those addressed to the user's customer and the broadcasts. */
  function UserNotifications(ns: seq<Notification>, user: Option<User>): (r: seq<Notification>)
    ensures IsSubsequence(r, ns)
    ensures forall n :: n in r <==> n in ns && (n.customerId.None? || n.customerId == UserCustomerId(user))
  {
    NotificationStore.NotificationsByCustomer(ns, UserCustomerId(user))
  }

  /** A signed-out user, or one without a customer id, sees the broadcasts only. */
  lemma NoCustomerSeesOnlyBroadcasts(ns: seq<Notification>, user: Option<User>)
    requires user.None? || user.value.customerId.None?
    ensures forall n :: n in UserNotifications(ns, user) <==> n in ns && n.customerId.None?
  {
  }

  datatype Age = Today | Yesterday | ThisWeek | Earlier

  /** The group a notification created at `t` falls in, tested in the order today, yesterday, this week. */
  function AgeOf(t: Instant, now: Instant): (a: Age)
    ensures a == Today <==> IsToday(t, now)
    ensures a == Yesterday <==> !IsToday(t, now) && IsYesterday(t, now)
    ensures a == ThisWeek <==> !IsToday(t, now) && !IsYesterday(t, now) && IsThisWeek(t, now)
  {
    if IsToday(t, now) then Today
    else if IsYesterday(t, now) then Yesterday
    else if IsThisWeek(t, now) then ThisWeek
    else Earlier
  }

  function InGroup(age: Age, now: Instant): Notification -> bool {
    (n: Notification) => AgeOf(n.createdAt, now) == age
  }

  datatype Groups = Groups(today: seq<Notification>, yesterday: seq<Notification>,
                           thisWeek: seq<Notification>, earlier: seq<Notification>)

  /** The groups as filters of the visible list: what the `forEach` below builds. */
  function GroupsOf(visible: seq<Notification>, now: Instant): Groups {
    Groups(Filter(visible, InGroup(Today, now)), Filter(visible, InGroup(Yesterday, now)),
           Filter(visible, InGroup(ThisWeek, now)), Filter(visible, InGroup(Earlier, now)))
  }

  /**
   * `groupedNotifications`: walks the visible list once and pushes each
   * notification onto the first group whose test it passes. Each group keeps
   * the list's order.
   */
  method GroupNotifications(visible: seq<Notification>, now: Instant) returns (groups: Groups)
    ensures groups == GroupsOf(visible, now)
  {
    var today: seq<Notification> := [];
    var yesterday: seq<Notification> := [];
    var thisWeek: seq<Notification> := [];
    var earlier: seq<Notification> := [];
    for k := 0 to |visible|
      invariant today == Filter(visible[..k], InGroup(Today, now))
      invariant yesterday == Filter(visible[..k], InGroup(Yesterday, now))
      invariant thisWeek == Filter(visible[..k], InGroup(ThisWeek, now))
      invariant earlier == Filter(visible[..k], InGroup(Earlier, now))
    {
      var n := visible[k];
      FilterPrefixStep(visible, k, InGroup(Today, now));
      FilterPrefixStep(visible, k, InGroup(Yesterday, now));
      FilterPrefixStep(visible, k, InGroup(ThisWeek, now));
      FilterPrefixStep(visible, k, InGroup(Earlier, now));
      if IsToday(n.createdAt, now) {
        assert AgeOf(n.createdAt, now) == Today;
        today := today + [n];
      } else if IsYesterday(n.createdAt, now) {
        assert AgeOf(n.createdAt, now) == Yesterday;
        yesterday := yesterday + [n];
      } else if IsThisWeek(n.createdAt, now) {
        assert AgeOf(n.createdAt, now) == ThisWeek;
        thisWeek := thisWeek + [n];
      } else {
        assert AgeOf(n.createdAt, now) == Earlier;
        earlier := earlier + [n];
      }
    }
    assert visible[..|visible|] == visible;
    groups := Groups(today, yesterday, thisWeek, earlier);
  }

  function TodayOrYesterday(now: Instant): Notification -> bool {
    (n: Notification) => AgeOf(n.createdAt, now) == Today || AgeOf(n.createdAt, now) == Yesterday
  }

  function WeekOrEarlier(now: Instant): Notification -> bool {
    (n: Notification) => AgeOf(n.createdAt, now) == ThisWeek || AgeOf(n.createdAt, now) == Earlier
  }

  function AnyAge(): Notification -> bool { (n: Notification) => true }

  /**
   * Every visible notification lands in exactly one group, the one its age
   * names; the groups keep the list's order, and together they hold the whole list.
   */
  lemma GroupsPartition(visible: seq<Notification>, now: Instant)
    ensures var g := GroupsOf(visible, now);
      |g.today| + |g.yesterday| + |g.thisWeek| + |g.earlier| == |visible|
    ensures var g := GroupsOf(visible, now);
      forall n: Notification :: n in visible ==>
        (n in g.today <==> AgeOf(n.createdAt, now) == Today)
        && (n in g.yesterday <==> AgeOf(n.createdAt, now) == Yesterday)
        && (n in g.thisWeek <==> AgeOf(n.createdAt, now) == ThisWeek)
        && (n in g.earlier <==> AgeOf(n.createdAt, now) == Earlier)
    ensures var g := GroupsOf(visible, now);
      IsSubsequence(g.today, visible) && IsSubsequence(g.yesterday, visible)
      && IsSubsequence(g.thisWeek, visible) && IsSubsequence(g.earlier, visible)
  {
    FilterUnionCount(visible, InGroup(Today, now), InGroup(Yesterday, now), TodayOrYesterday(now));
    FilterUnionCount(visible, InGroup(ThisWeek, now), InGroup(Earlier, now), WeekOrEarlier(now));
    FilterUnionCount(visible, TodayOrYesterday(now), WeekOrEarlier(now), AnyAge());
    FilterKeepsAll(visible, AnyAge());
    FilterIsSubsequence(visible, InGroup(Today, now));
    FilterIsSubsequence(visible, InGroup(Yesterday, now));
    FilterIsSubsequence(visible, InGroup(ThisWeek, now));
    FilterIsSubsequence(visible, InGroup(Earlier, now));
  }

  /** `handleNotificationClick`: marks the notification read, but only when it is unread. */
  method HandleNotificationClick(store: NotificationStore.NotificationStore, notif: Notification)
    requires store.Valid()
    modifies store
    ensures store.Valid()
    ensures notif.isRead ==> store.notifications == old(store.notifications) && store.unreadCount == old(store.unreadCount)
    ensures !notif.isRead ==> store.notifications == NotificationStore.MarkRead(old(store.notifications), notif.id)
    ensures store.unreadCount <= old(store.unreadCount)
  {
    if !notif.isRead {
      store.MarkAsRead(notif.id);
    }
  }

  /** `handleMarkAllRead`: everything read, counter zero. */
  method HandleMarkAllRead(store: NotificationStore.NotificationStore)
    modifies store
    ensures store.Valid() && store.unreadCount == 0
    ensures store.notifications == NotificationStore.MarkAllRead(old(store.notifications))
  {
    store.MarkAllAsRead();
  }
}

=== FILE: own_scope.dfy ===
/**
 * The scoping rule shared by the inventory, warranty, tickets, history and
 * new-ticket screens: a reseller sees only the records whose customer id is the
 * reseller's own `customerId`; every other role, and a signed-out visitor, sees
 * everything. Managed customers and the reseller context play no part here.
 */
module OwnScope {
  import opened Wrappers
  import opened Seqs
  import opened Types

  function ItemOwner(): InventoryItem -> string { (i: InventoryItem) => i.customerId }
  function TicketOwner(): Ticket -> string { (t: Ticket) => t.customerId }

  predicate IsReseller(user: Option<User>) {
    user.Some? && user.value.role == ResellerRole
  }

  /** `x.customerId === user.customerId`, with an absent id matching nothing. */
  function OwnedBy<T>(owner: T -> string, customerId: Option<string>): T -> bool {
    (x: T) => Some(owner(x)) == customerId
  }

  /** `user?.role === "reseller" ? data.filter(x => x.customerId === user.customerId) : data`. */
  function ResellerScoped<T(!new)>(data: seq<T>, owner: T -> string, user: Option<User>): (r: seq<T>)
    ensures IsSubsequence(r, data)
    ensures !IsReseller(user) ==> r == data
    ensures forall x :: x in r <==> x in data && (IsReseller(user) ==> Some(owner(x)) == user.value.customerId)
  {
    if IsReseller(user) then
      FilterIsSubsequence(data, OwnedBy(owner, user.value.customerId));
      Filter(data, OwnedBy(owner, user.value.customerId))
    else
      FilterIsSubsequence(data, (x: T) => true);
      FilterKeepsAll(data, (x: T) => true);
      data
  }

  /** A reseller without a customer id of its own sees nothing. */
  lemma ResellerWithoutIdSeesNothing<T(!new)>(data: seq<T>, owner: T -> string, u: User)
    requires u.role == ResellerRole && u.customerId.None?
    ensures ResellerScoped(data, owner, Some(u)) == []
  {
    FilterNone(data, OwnedBy(owner, u.customerId));
  }
}

=== FILE: permissions.dfy ===
/**
 * Access control: the static permission table, the effective role of a reseller
 * acting as distributor or as customer, and the customer scope every list screen
 * filters by. Anything the table does not list is denied.
 */
module Permissions {
  import opened Wrappers
  import opened Seqs
  import opened Types
  import DummyData

  datatype Permission =
    | ContractsView | ContractsCreate | ContractsEdit | ContractsDelete | ContractsRenew | ContractsExpire
    | InventoryView | InventoryCreate | InventoryEdit | InventoryDelete
    | TicketsView | TicketsCreate | TicketsManage
    | CustomersView | CustomersCreate | CustomersEdit
    | SettingsAccess

  /** `permissionsByRole`: a record keyed by effective-role name. */
  const PermissionsByRole: map<string, seq<Permission>> := map[
    "distributor" := [
      ContractsView, ContractsCreate, ContractsEdit, ContractsDelete, ContractsRenew, ContractsExpire,
      InventoryView, InventoryCreate, InventoryEdit, InventoryDelete,
      TicketsView, TicketsCreate, TicketsManage,
      CustomersView, CustomersCreate, CustomersEdit,
      SettingsAccess],
    "reseller_as_distributor" := [
      ContractsView, ContractsCreate, ContractsEdit, ContractsRenew, ContractsExpire,
      InventoryView, InventoryCreate, InventoryEdit,
      TicketsView, TicketsCreate, TicketsManage,
      CustomersView, CustomersCreate, CustomersEdit,
      SettingsAccess],
    "reseller_as_customer" := [ContractsView, InventoryView, TicketsView, TicketsCreate, CustomersView],
    "customer" := [ContractsView, InventoryView, TicketsView, TicketsCreate, CustomersView]
  ]

  /**
   * The key `hasPermission` looks up: a reseller with a context becomes
   * `reseller_as_distributor` or `reseller_as_customer`; every other caller keeps
   * its own role name, so a reseller without a context looks up "reseller",
   * which the table does not have.
   */
  function EffectiveRole(role: UserRole, ctx: Option<ResellerContext>): (r: string)
    ensures r in PermissionsByRole <==> !(role == ResellerRole && ctx.None?)
    ensures role == ResellerRole && ctx.Some? && ctx.value.mode == AsDistributor ==> r == "reseller_as_distributor"
    ensures role == ResellerRole && ctx.Some? && ctx.value.mode == AsCustomer ==> r == "reseller_as_customer"
  {
    if role == ResellerRole && ctx.Some? then
      (if ctx.value.mode == AsDistributor then "reseller_as_distributor" else "reseller_as_customer")
    else
      role.Name()
  }

  /** `hasPermission(role, permission, context)`: listed for the effective role, false when the role is missing. */
  predicate HasPermission(role: UserRole, p: Permission, ctx: Option<ResellerContext>) {
    var key := EffectiveRole(role, ctx);
    key in PermissionsByRole && p in PermissionsByRole[key]
  }

  predicate IsDelete(p: Permission) {
    p == ContractsDelete || p == InventoryDelete
  }

  /** The five view-and-raise permissions of a customer. */
  predicate IsCustomerPermission(p: Permission) {
    p == ContractsView || p == InventoryView || p == TicketsView || p == TicketsCreate || p == CustomersView
  }

  /**
   * Reference statement of the access policy, by kind of permission rather than
   * by table: distributors may do everything, a reseller acting as distributor
   * everything except deleting, a customer or a reseller acting as customer only
   * the five customer permissions, and a reseller without a context nothing.
   */
  predicate Grants(role: UserRole, ctx: Option<ResellerContext>, p: Permission) {
    match role
    case DistributorRole => true
    case CustomerRole => IsCustomerPermission(p)
    case ResellerRole =>
      ctx.Some? && (if ctx.value.mode == AsDistributor then !IsDelete(p) else IsCustomerPermission(p))
  }

  /** The table implements the policy exactly, in both directions. */
  lemma HasPermissionMatchesPolicy(role: UserRole, ctx: Option<ResellerContext>, p: Permission)
    ensures HasPermission(role, p, ctx) <==> Grants(role, ctx, p)
  {
    match role
    case DistributorRole => DistributorTable(p);
    case CustomerRole => CustomerTable(p);
    case ResellerRole =>
      if ctx.Some? {
        if ctx.value.mode == AsDistributor { ResellerAsDistributorTable(p); } else { ResellerAsCustomerTable(p); }
      }
  }

  lemma DistributorTable(p: Permission)
    ensures p in PermissionsByRole["distributor"]
  {
  }

  lemma ResellerAsDistributorTable(p: Permission)
    ensures p in PermissionsByRole["reseller_as_distributor"] <==> !IsDelete(p)
  {
  }

  lemma ResellerAsCustomerTable(p: Permission)
    ensures p in PermissionsByRole["reseller_as_customer"] <==> IsCustomerPermission(p)
  {
  }

  lemma CustomerTable(p: Permission)
    ensures p in PermissionsByRole["customer"] <==> IsCustomerPermission(p)
  {
  }

  /** Deny by default: a reseller called without a context is refused every permission. */
  lemma ResellerWithoutContextDenied(p: Permission)
    ensures !HasPermission(ResellerRole, p, None)
  {
  }

  /** customer is contained in reseller_as_distributor, which is contained in distributor. */
  lemma PermissionNesting(p: Permission, ctx: ResellerContext)
    requires ctx.mode == AsDistributor
    ensures HasPermission(CustomerRole, p, None) ==> HasPermission(ResellerRole, p, Some(ctx))
    ensures HasPermission(ResellerRole, p, Some(ctx)) ==> HasPermission(DistributorRole, p, None)
  {
    CustomerTable(p);
    ResellerAsDistributorTable(p);
    DistributorTable(p);
  }

  /** reseller_as_distributor is the distributor set minus exactly the two delete permissions. */
  lemma ResellerAsDistributorDropsDeletes(p: Permission, ctx: ResellerContext)
    requires ctx.mode == AsDistributor
    ensures HasPermission(ResellerRole, p, Some(ctx)) <==> HasPermission(DistributorRole, p, None) && !IsDelete(p)
  {
    ResellerAsDistributorTable(p);
    DistributorTable(p);
  }

  /** reseller_as_customer grants exactly what customer grants. */
  lemma ResellerAsCustomerIsCustomer(p: Permission, ctx: ResellerContext)
    requires ctx.mode == AsCustomer
    ensures HasPermission(ResellerRole, p, Some(ctx)) <==> HasPermission(CustomerRole, p, None)
  {
    ResellerAsCustomerTable(p);
    CustomerTable(p);
  }

  /** Only a reseller's permissions depend on the context. */
  lemma ContextOnlyAffectsResellers(role: UserRole, p: Permission, ctx: Option<ResellerContext>)
    requires role != ResellerRole
    ensures HasPermission(role, p, ctx) == HasPermission(role, p, None)
  {
  }

  /** `user.customerId ? [user.customerId] : []`: an empty id is falsy too. */
  function OwnCustomerScope(u: User): (r: seq<string>)
    ensures |r| <= 1
    ensures forall id :: id in r <==> u.customerId == Some(id) && id != ""
  {
    match u.customerId
    case Some(c) => if c != "" then [c] else []
    case None => []
  }

  /** The user sees customers beyond its own: a distributor, or a reseller in as-distributor mode. */
  predicate ActsAsDistributor(u: User, ctx: Option<ResellerContext>) {
    u.role == DistributorRole || (u.role == ResellerRole && ctx.Some? && ctx.value.mode == AsDistributor)
  }

  /** `getAccessibleCustomerIds(user, context)`. */
  function AccessibleCustomerIds(user: Option<User>, ctx: Option<ResellerContext>): (r: seq<string>)
    ensures user.None? ==> r == []
    ensures user.Some? && user.value.role == DistributorRole ==> r == DummyData.DummyCustomerIds
    ensures user.Some? && user.value.role == ResellerRole && ActsAsDistributor(user.value, ctx) ==>
              r == user.value.managedCustomerIds.GetOr([])
    ensures user.Some? && !ActsAsDistributor(user.value, ctx) ==> r == OwnCustomerScope(user.value)
    ensures user.Some? && !ActsAsDistributor(user.value, ctx) ==>
              |r| <= 1 && forall id :: id in r <==> user.value.customerId == Some(id) && id != ""
  {
    match user
    case None => []
    case Some(u) =>
      match u.role
      case DistributorRole => DummyData.DummyCustomerIds
      case ResellerRole =>
        if ctx.Some? && ctx.value.mode == AsDistributor then u.managedCustomerIds.GetOr([])
        else OwnCustomerScope(u)
      case CustomerRole => OwnCustomerScope(u)
  }

  /** `canAccessCustomer(customerId, user, context)`. */
  predicate CanAccessCustomer(customerId: string, user: Option<User>, ctx: Option<ResellerContext>) {
    customerId in AccessibleCustomerIds(user, ctx)
  }

  /** The accessibility test on a record, through the customer id `owner` reads off it. */
  function OwnerAccessible<T>(owner: T -> string, user: Option<User>, ctx: Option<ResellerContext>): T -> bool {
    x => CanAccessCustomer(owner(x), user, ctx)
  }

  /**
   * `filterByAccessibleCustomers(data, user, context)`, for any record type whose
   * owning customer `owner` reads. The result keeps, in order, exactly the records
   * `canAccessCustomer` admits.
   */
  function FilterByAccessibleCustomers<T(!new)>(data: seq<T>, owner: T -> string, user: Option<User>,
                                                ctx: Option<ResellerContext>): (r: seq<T>)
    ensures r == Filter(data, OwnerAccessible(owner, user, ctx))
    ensures IsSubsequence(r, data)
    ensures forall x :: x in r <==> x in data && CanAccessCustomer(owner(x), user, ctx)
  {
    var ids := AccessibleCustomerIds(user, ctx);
    FilterCongruent(data, x => owner(x) in ids, OwnerAccessible(owner, user, ctx));
    FilterIsSubsequence(data, x => owner(x) in ids);
    Filter(data, x => owner(x) in ids)
  }

  /** `getAccessibleCustomers(customers, user, context)`: the same test applied to the customer's own id. */
  function GetAccessibleCustomers(customers: seq<Customer>, user: Option<User>, ctx: Option<ResellerContext>)
    : (r: seq<Customer>)
    ensures IsSubsequence(r, customers)
    ensures forall c :: c in r <==> c in customers && CanAccessCustomer(c.id, user, ctx)
  {
    FilterByAccessibleCustomers(customers, (c: Customer) => c.id, user, ctx)
  }

  /** Nobody signed in sees nothing. */
  lemma SignedOutSeesNothing<T(!new)>(data: seq<T>, owner: T -> string, ctx: Option<ResellerContext>)
    ensures FilterByAccessibleCustomers(data, owner, None, ctx) == []
  {
    var r := FilterByAccessibleCustomers(data, owner, None, ctx);
    FilterNone(data, OwnerAccessible(owner, None, ctx));
  }

  /**
   * A customer-scoped user (not acting as distributor) sees only records of its own
   * customer, and every one of them when its customer id is set and non-empty.
   */
  lemma OwnScopeOnly<T(!new)>(data: seq<T>, owner: T -> string, u: User, ctx: Option<ResellerContext>)
    requires !ActsAsDistributor(u, ctx)
    ensures forall x :: x in FilterByAccessibleCustomers(data, owner, Some(u), ctx) ==> u.customerId == Some(owner(x))
    ensures forall x :: x in FilterByAccessibleCustomers(data, owner, Some(u), ctx) <==>
              x in data && owner(x) != "" && u.customerId == Some(owner(x))
  {
  }
}

=== FILE: profile_page.dfy ===
/**
 * The profile screen's password form. The handler only validates the new
 * password against its confirmation and a minimum length; it never checks the
 * current password and changes nothing but the three fields.
 */
module ProfilePage {
  import opened Wrappers
  import opened Types

  const MinPasswordLength: nat := 6
  const MismatchMessage: string := "Passwords do not match"
  const TooShortMessage: string := "Password must be at least 6 characters"
  const ChangedMessage: string := "Password changed successfully!"

  /**
   * The toast `handleChangePassword` shows: a mismatch is reported before, and
   * instead of, a too-short password.
   */
  function PasswordChangeOutcome(newPassword: string, confirmPassword: string): (r: Result<string>)
    ensures r.Ok? <==> newPassword == confirmPassword && |newPassword| >= MinPasswordLength
    ensures r.Ok? ==> r.value == ChangedMessage
    ensures newPassword != confirmPassword ==> r == Err(MismatchMessage)
    ensures newPassword == confirmPassword && |newPassword| < MinPasswordLength ==> r == Err(TooShortMessage)
  {
    if newPassword != confirmPassword then Err(MismatchMessage)
    else if |newPassword| < MinPasswordLength then Err(TooShortMessage)
    else Ok(ChangedMessage)
  }

  /** A short password typed differently twice is reported as a mismatch, not as too short. */
  lemma MismatchCheckedFirst()
    ensures PasswordChangeOutcome("abc", "abd") == Err(MismatchMessage)
  {
    assert "abc"[2] != "abd"[2];
  }

  /** Submitting again after a successful change is refused: the cleared fields are too short. */
  lemma ResubmitAfterClearRefused()
    ensures PasswordChangeOutcome("", "") == Err(TooShortMessage)
  {
  }

  class ProfilePageState {
    var companyName: string
    var email: string
    var phone: string
    var address: string
    var currentPassword: string
    var newPassword: string
    var confirmPassword: string

    /** The profile fields start from the signed-in user (empty when signed out) and fixed contact details. */
    constructor (user: Option<User>)
      ensures companyName == (if user.Some? then user.value.companyName else "")
      ensures email == (if user.Some? then user.value.email else "")
      ensures phone == "+91-9876543210" && address == "Mumbai, India"
      ensures currentPassword == "" && newPassword == "" && confirmPassword == ""
    {
      companyName := if user.Some? then user.value.companyName else "";
      email := if user.Some? then user.value.email else "";
      phone := "+91-9876543210";
      address := "Mumbai, India";
      currentPassword := "";
      newPassword := "";
      confirmPassword := "";
    }

    /** Typing into the three password inputs. */
    method EditPasswords(current: string, next: string, confirm: string)
      modifies this
      ensures currentPassword == current && newPassword == next && confirmPassword == confirm
      ensures companyName == old(companyName) && email == old(email)
      ensures phone == old(phone) && address == old(address)
    {
      currentPassword := current;
      newPassword := next;
      confirmPassword := confirm;
    }

    /**
     * `handleChangePassword`: the outcome depends only on the new password and
     * its confirmation. A refusal leaves every field as it was; success clears
     * the three password fields. The profile fields are never touched.
     */
    method HandleChangePassword() returns (outcome: Result<string>)
      modifies this
      ensures outcome == PasswordChangeOutcome(old(newPassword), old(confirmPassword))
      ensures outcome.Err? ==> currentPassword == old(currentPassword) && newPassword == old(newPassword)
                               && confirmPassword == old(confirmPassword)
      ensures outcome.Ok? ==> currentPassword == "" && newPassword == "" && confirmPassword == ""
      ensures companyName == old(companyName) && email == old(email)
      ensures phone == old(phone) && address == old(address)
    {
      if newPassword != confirmPassword {
        return Err(MismatchMessage);
      }
      if |newPassword| < MinPasswordLength {
        return Err(TooShortMessage);
      }
      outcome := Ok(ChangedMessage);
      currentPassword := "";
      newPassword := "";
      confirmPassword := "";
    }
  }
}

=== FILE: reseller_context_store.dfy ===
/**
 * The reseller's working context: acting as distributor over its managed
 * customers, or as customer, and the managed customer currently selected.
 */
module ResellerContextStore {
  import opened Wrappers
  import opened Types

  const InitialContext: ResellerContext := ResellerContext(AsDistributor, None)

  /**
   * `user?.role === "reseller" ? { mode } : undefined`: the context the screens
   * hand to the permission checks, present only for resellers and never with a
   * selected managed customer.
   */
  function PageContext(user: Option<User>, mode: ResellerMode): (ctx: Option<ResellerContext>)
    ensures ctx.Some? <==> user.Some? && user.value.role == ResellerRole
    ensures ctx.Some? ==> ctx.value.mode == mode && ctx.value.selectedManagedCustomerId.None?
  {
    if user.Some? && user.value.role == ResellerRole then Some(ResellerContext(mode, None)) else None
  }

  class ResellerContextStore {
    var mode: ResellerMode
    var selectedManagedCustomerId: Option<string>

    function Context(): ResellerContext
      reads this
    {
      ResellerContext(mode, selectedManagedCustomerId)
    }

    constructor ()
      ensures Context() == InitialContext
    {
      mode := AsDistributor;
      selectedManagedCustomerId := None;
    }

    /** `setMode`: the selection is kept. */
    method SetMode(m: ResellerMode)
      modifies this
      ensures Context() == old(Context()).(mode := m)
    {
      mode := m;
    }

    /** `setSelectedManagedCustomerId`: the mode is kept. */
    method SetSelectedManagedCustomerId(customerId: Option<string>)
      modifies this
      ensures Context() == old(Context()).(selectedManagedCustomerId := customerId)
    {
      selectedManagedCustomerId := customerId;
    }

    /** `reset`: back to acting as distributor with nothing selected. */
    method Reset()
      modifies this
      ensures Context() == InitialContext
    {
      mode := AsDistributor;
      selectedManagedCustomerId := None;
    }
  }
}

=== FILE: seqs.dfy ===
/**
 * The array operations the dashboard leans on everywhere, as functions on sequences:
 * `filter`, `find`, an element-wise `map` that rewrites only the selected entries,
 * the stable `sort` used with a "newest first" comparator, and `slice`.
 */
module Seqs {
  import opened Wrappers

  /** `idx` maps every position of `a` to a position of `b` holding the same element, strictly increasing. */
  ghost predicate Embeds<T>(idx: seq<nat>, a: seq<T>, b: seq<T>) {
    && |idx| == |a|
    && (forall i, j :: 0 <= i < j < |idx| ==> idx[i] < idx[j])
    && (forall i :: 0 <= i < |idx| ==> idx[i] < |b| && a[i] == b[idx[i]])
  }

  /** `a` is obtained from `b` by deleting elements: an order-preserving selection. */
  ghost predicate IsSubsequence<T>(a: seq<T>, b: seq<T>) {
    exists idx: seq<nat> :: Embeds(idx, a, b)
  }

  /** A selection from a selection is a selection. */
  lemma SubsequenceTransitive<T>(a: seq<T>, b: seq<T>, c: seq<T>)
    requires IsSubsequence(a, b) && IsSubsequence(b, c)
    ensures IsSubsequence(a, c)
  {
    var ab :| Embeds(ab, a, b);
    var bc :| Embeds(bc, b, c);
    var ac := seq(|a|, k requires 0 <= k < |a| => bc[ab[k]]);
    assert Embeds(ac, a, c);
  }

  /** `Array.prototype.filter`: the elements of `s` satisfying `p`, in their original order. */
  function Filter<T(!new)>(s: seq<T>, p: T -> bool): (r: seq<T>)
    ensures |r| <= |s|
    ensures forall i :: 0 <= i < |r| ==> p(r[i])
    ensures forall x {:trigger x in r} :: x in r <==> x in s && p(x)
    decreases |s|
  {
    if s == [] then []
    else
      assert s == s[..|s| - 1] + [s[|s| - 1]];
      Filter(s[..|s| - 1], p) + (if p(s[|s| - 1]) then [s[|s| - 1]] else [])
  }

  lemma {:induction false} FilterIsSubsequence<T(!new)>(s: seq<T>, p: T -> bool)
    ensures IsSubsequence(Filter(s, p), s)
    decreases |s|
  {
    if s == [] {
      assert Embeds([], Filter(s, p), s);
    } else {
      var init := s[..|s| - 1];
      FilterIsSubsequence(init, p);
      var idx: seq<nat> :| Embeds(idx, Filter(init, p), init);
      if p(s[|s| - 1]) {
        var idx': seq<nat> := idx + [|s| - 1];
        assert Embeds(idx', Filter(s, p), s);
      } else {
        assert Embeds(idx, Filter(s, p), s);
      }
    }
  }

  /** Filtering keeps every occurrence of a kept value and none of a dropped one. */
  lemma {:induction false} FilterMultiplicity<T(!new)>(s: seq<T>, p: T -> bool, x: T)
    ensures multiset(Filter(s, p))[x] == if p(x) then multiset(s)[x] else 0
    decreases |s|
  {
    if s != [] {
      var init := s[..|s| - 1];
      FilterMultiplicity(init, p, x);
      assert s == init + [s[|s| - 1]];
    }
  }

  lemma {:induction false} FilterAppend<T(!new)>(a: seq<T>, b: seq<T>, p: T -> bool)
    ensures Filter(a + b, p) == Filter(a, p) + Filter(b, p)
    decreases |b|
  {
    if b == [] {
      assert a + b == a;
    } else {
      var init, last := b[..|b| - 1], b[|b| - 1];
      var tail := if p(last) then [last] else [];
      FilterAppend(a, init, p);
      assert (a + b)[..|a + b| - 1] == a + init;
      calc {
        Filter(a + b, p);
        Filter(a + init, p) + tail;
        (Filter(a, p) + Filter(init, p)) + tail;
        Filter(a, p) + (Filter(init, p) + tail);
        Filter(a, p) + Filter(b, p);
      }
    }
  }

  /** Sequences with the same multiset hold the same elements. */
  lemma SameMembers<T>(a: seq<T>, b: seq<T>)
    requires multiset(a) == multiset(b)
    ensures forall x :: x in a <==> x in b
  {
    forall x
      ensures x in a <==> x in b
    {
      assert x in a <==> x in multiset(a);
      assert x in b <==> x in multiset(b);
    }
  }

  /** Growing a prefix by one element extends its filter by that element exactly when it passes. */
  lemma FilterPrefixStep<T(!new)>(s: seq<T>, k: nat, p: T -> bool)
    requires k < |s|
    ensures p(s[k]) ==> Filter(s[..k + 1], p) == Filter(s[..k], p) + [s[k]]
    ensures !p(s[k]) ==> Filter(s[..k + 1], p) == Filter(s[..k], p)
  {
    assert s[..k + 1][..k] == s[..k];
  }

  /** Two filters in a row are one filter on the conjunction. */
  lemma {:induction false} FilterFilter<T(!new)>(s: seq<T>, p: T -> bool, q: T -> bool)
    ensures Filter(Filter(s, p), q) == Filter(s, x => p(x) && q(x))
    decreases |s|
  {
    if s != [] {
      var init := s[..|s| - 1];
      var last := s[|s| - 1];
      FilterFilter(init, p, q);
      FilterAppend(Filter(init, p), if p(last) then [last] else [], q);
    }
  }

  /** Filtering a filter's result by `q` is filtering once by any predicate `both` equal to the conjunction. */
  lemma FilterThen<T(!new)>(s: seq<T>, keep: T -> bool, q: T -> bool, both: T -> bool)
    requires forall x :: both(x) == (keep(x) && q(x))
    ensures Filter(Filter(s, keep), q) == Filter(s, both)
  {
    FilterFilter(s, keep, q);
    FilterCongruent(s, x => keep(x) && q(x), both);
  }

  /** Filters with predicates that agree on `s` give the same result. */
  lemma {:induction false} FilterCongruent<T(!new)>(s: seq<T>, p: T -> bool, q: T -> bool)
    requires forall i :: 0 <= i < |s| ==> p(s[i]) == q(s[i])
    ensures Filter(s, p) == Filter(s, q)
    decreases |s|
  {
    if s != [] {
      FilterCongruent(s[..|s| - 1], p, q);
    }
  }

  /** A predicate that holds throughout keeps everything. */
  lemma {:induction false} FilterKeepsAll<T(!new)>(s: seq<T>, p: T -> bool)
    requires forall i :: 0 <= i < |s| ==> p(s[i])
    ensures Filter(s, p) == s
    decreases |s|
  {
    if s != [] {
      FilterKeepsAll(s[..|s| - 1], p);
      assert s == s[..|s| - 1] + [s[|s| - 1]];
    }
  }

  /** Splitting by a predicate and by its negation loses and duplicates nothing. */
  lemma {:induction false} FilterSplitCount<T(!new)>(s: seq<T>, p: T -> bool)
    ensures |Filter(s, p)| + |Filter(s, x => !p(x))| == |s|
    decreases |s|
  {
    if s != [] {
      FilterSplitCount(s[..|s| - 1], p);
    }
  }

  /** A predicate that fails throughout keeps nothing. */
  lemma FilterNone<T(!new)>(s: seq<T>, p: T -> bool)
    requires forall i :: 0 <= i < |s| ==> !p(s[i])
    ensures Filter(s, p) == []
  {
  }

  /**
   * Rewriting elements so that none newly satisfies `p` cannot make the filter
   * longer: `t` is `s` position by position, with `p(t[i])` only where `p(s[i])`.
   */
  lemma {:induction false} FilterCountMonotone<T(!new)>(s: seq<T>, t: seq<T>, p: T -> bool)
    requires |s| == |t|
    requires forall i :: 0 <= i < |t| && p(t[i]) ==> p(s[i])
    ensures |Filter(t, p)| <= |Filter(s, p)|
    decreases |s|
  {
    if s != [] {
      FilterCountMonotone(s[..|s| - 1], t[..|t| - 1], p);
    }
  }

  /** As above, and a position where `s` is kept but `t` is not makes the count strictly smaller. */
  lemma {:induction false} FilterCountStrict<T(!new)>(s: seq<T>, t: seq<T>, p: T -> bool, k: nat)
    requires |s| == |t| && k < |s|
    requires forall i :: 0 <= i < |t| && p(t[i]) ==> p(s[i])
    requires p(s[k]) && !p(t[k])
    ensures |Filter(t, p)| < |Filter(s, p)|
    decreases |s|
  {
    var n := |s| - 1;
    var s', t' := s[..n], t[..n];
    assert |Filter(s, p)| == |Filter(s', p)| + (if p(s[n]) then 1 else 0) by {
      assert s == s' + [s[n]];
    }
    assert |Filter(t, p)| == |Filter(t', p)| + (if p(t[n]) then 1 else 0) by {
      assert t == t' + [t[n]];
    }
    assert forall i :: 0 <= i < |t'| && p(t'[i]) ==> p(s'[i]) by {
      forall i | 0 <= i < |t'| && p(t'[i]) ensures p(s'[i]) {
        assert t'[i] == t[i] && s'[i] == s[i];
      }
    }
    if k == n {
      FilterCountMonotone(s', t', p);
    } else {
      assert s'[k] == s[k] && t'[k] == t[k];
      FilterCountStrict(s', t', p, k);
    }
  }

  /** Two predicates that never hold together keep at most `|s|` elements between them. */
  lemma {:induction false} FilterDisjointCount<T(!new)>(s: seq<T>, p: T -> bool, q: T -> bool)
    requires forall i :: 0 <= i < |s| ==> !(p(s[i]) && q(s[i]))
    ensures |Filter(s, p)| + |Filter(s, q)| <= |s|
    decreases |s|
  {
    if s != [] {
      var n := |s| - 1;
      var s' := s[..n];
      assert |Filter(s, p)| == |Filter(s', p)| + (if p(s[n]) then 1 else 0) by {
        assert s == s' + [s[n]];
      }
      assert |Filter(s, q)| == |Filter(s', q)| + (if q(s[n]) then 1 else 0) by {
        assert s == s' + [s[n]];
      }
      assert forall i :: 0 <= i < |s'| ==> s'[i] == s[i];
      FilterDisjointCount(s', p, q);
    }
  }

  /** Two predicates that never hold together keep, between them, exactly what their disjunction keeps. */
  lemma {:induction false} FilterUnionCount<T(!new)>(s: seq<T>, p: T -> bool, q: T -> bool, either: T -> bool)
    requires forall i :: 0 <= i < |s| ==> !(p(s[i]) && q(s[i]))
    requires forall i :: 0 <= i < |s| ==> either(s[i]) == (p(s[i]) || q(s[i]))
    ensures |Filter(s, p)| + |Filter(s, q)| == |Filter(s, either)|
    decreases |s|
  {
    if s != [] {
      var n := |s| - 1;
      var s' := s[..n];
      assert |Filter(s, p)| == |Filter(s', p)| + (if p(s[n]) then 1 else 0) by {
        assert s == s' + [s[n]];
      }
      assert |Filter(s, q)| == |Filter(s', q)| + (if q(s[n]) then 1 else 0) by {
        assert s == s' + [s[n]];
      }
      assert |Filter(s, either)| == |Filter(s', either)| + (if either(s[n]) then 1 else 0) by {
        assert s == s' + [s[n]];
      }
      assert forall i :: 0 <= i < |s'| ==> s'[i] == s[i];
      FilterUnionCount(s', p, q, either);
    }
  }

  /** Position of the first element satisfying `p` (`findIndex`, with None for -1). */
  function FirstIndex<T>(s: seq<T>, p: T -> bool): (r: Option<nat>)
    ensures r.Some? ==> r.value < |s| && p(s[r.value])
    ensures r.Some? ==> forall j :: 0 <= j < r.value ==> !p(s[j])
    ensures r.None? ==> forall j :: 0 <= j < |s| ==> !p(s[j])
    decreases |s|
  {
    if s == [] then None
    else if p(s[0]) then Some(0)
    else match FirstIndex(s[1..], p)
      case None => None
      case Some(i) => Some(i + 1)
  }

  /** The first element a filter keeps is the first element satisfying the predicate. */
  lemma {:induction false} FilterHead<T(!new)>(s: seq<T>, p: T -> bool)
    ensures Filter(s, p) != [] <==> FirstIndex(s, p).Some?
    ensures Filter(s, p) != [] ==> Filter(s, p)[0] == s[FirstIndex(s, p).value]
    decreases |s|
  {
    if s != [] {
      assert [s[0]] + s[1..] == s;
      assert [s[0]][..0] == [];
      FilterAppend([s[0]], s[1..], p);
      FilterHead(s[1..], p);
    }
  }

  /** `Array.prototype.find`: the first element satisfying `p`, or None. */
  function Find<T>(s: seq<T>, p: T -> bool): (r: Option<T>)
    ensures r.None? <==> forall j :: 0 <= j < |s| ==> !p(s[j])
    ensures r.Some? ==> exists i :: 0 <= i < |s| && s[i] == r.value && p(s[i]) && forall j :: 0 <= j < i ==> !p(s[j])
  {
    match FirstIndex(s, p)
    case None => None
    case Some(i) => Some(s[i])
  }

  /** Searching past a prefix with no match finds what searching the rest finds, shifted by the prefix. */
  lemma {:induction false} FirstIndexAfterMisses<T>(a: seq<T>, b: seq<T>, p: T -> bool)
    requires forall i :: 0 <= i < |a| ==> !p(a[i])
    ensures FirstIndex(a + b, p) == match FirstIndex(b, p) case None => None case Some(i) => Some(i + |a|)
    decreases |a|
  {
    if a == [] {
      assert a + b == b;
    } else {
      assert (a + b)[0] == a[0] && !p(a[0]);
      assert (a + b)[1..] == a[1..] + b;
      FirstIndexAfterMisses(a[1..], b, p);
    }
  }

  /** A match inside the prefix is found before anything appended after it. */
  lemma FindInPrefix<T>(a: seq<T>, b: seq<T>, p: T -> bool)
    requires FirstIndex(a, p).Some?
    ensures FirstIndex(a + b, p) == FirstIndex(a, p)
    ensures Find(a + b, p) == Find(a, p)
  {
    var k := FirstIndex(a, p).value;
    assert (a + b)[k] == a[k];
    var r := FirstIndex(a + b, p);
    assert r.Some? && r.value <= k;
    assert forall j :: 0 <= j < k ==> (a + b)[j] == a[j];
  }

  lemma FindAfterMisses<T>(a: seq<T>, b: seq<T>, p: T -> bool)
    requires forall i :: 0 <= i < |a| ==> !p(a[i])
    ensures Find(a + b, p) == Find(b, p)
  {
    FirstIndexAfterMisses(a, b, p);
  }

  /** `s.map(x => sel(x) ? f(x) : x)`: the rewrite every store's update operation performs. */
  function UpdateWhere<T>(s: seq<T>, sel: T -> bool, f: T -> T): (r: seq<T>)
    ensures |r| == |s|
    ensures forall i :: 0 <= i < |s| && !sel(s[i]) ==> r[i] == s[i]
    ensures forall i :: 0 <= i < |s| && sel(s[i]) ==> r[i] == f(s[i])
  {
    seq(|s|, i requires 0 <= i < |s| => if sel(s[i]) then f(s[i]) else s[i])
  }

  /** When nothing is selected the update leaves the sequence as it was. */
  lemma UpdateWhereNoMatch<T>(s: seq<T>, sel: T -> bool, f: T -> T)
    requires forall i :: 0 <= i < |s| ==> !sel(s[i])
    ensures UpdateWhere(s, sel, f) == s
  {
  }

  /** Ordered newest first: keys never increase along the sequence. */
  ghost predicate SortedDesc<T>(s: seq<T>, key: T -> int) {
    forall i, j :: 0 <= i < j < |s| ==> key(s[i]) >= key(s[j])
  }

  /** Places `x` after every element whose key is at least its own, so equal keys keep their order. */
  function Insert<T>(x: T, s: seq<T>, key: T -> int): (r: seq<T>)
    ensures |r| == |s| + 1
    ensures multiset(r) == multiset(s) + multiset{x}
    decreases |s|
  {
    if s == [] then [x]
    else if key(s[0]) >= key(x) then
      assert s == [s[0]] + s[1..];
      [s[0]] + Insert(x, s[1..], key)
    else
      [x] + s
  }

  lemma {:induction false} InsertSorted<T>(x: T, s: seq<T>, key: T -> int)
    requires SortedDesc(s, key)
    ensures SortedDesc(Insert(x, s, key), key)
    decreases |s|
  {
    if s != [] && key(s[0]) >= key(x) {
      var rest := Insert(x, s[1..], key);
      InsertSorted(x, s[1..], key);
      forall j | 0 <= j < |rest| ensures key(s[0]) >= key(rest[j]) {
        assert rest[j] in multiset(rest);
        if rest[j] != x {
          assert rest[j] in multiset(s[1..]);
          var k :| 0 <= k < |s[1..]| && s[1..][k] == rest[j];
          assert s[k + 1] == rest[j];
        }
      }
    }
  }

  /**
   * `[...s].sort((a, b) => key(b) - key(a))`: a stable sort, newest first.
   * Insertion sort stands in for the engine's stable sort.
   */
  function SortDesc<T>(s: seq<T>, key: T -> int): (r: seq<T>)
    ensures |r| == |s|
    ensures multiset(r) == multiset(s)
    ensures SortedDesc(r, key)
    decreases |s|
  {
    if s == [] then []
    else
      assert s == s[..|s| - 1] + [s[|s| - 1]];
      var sortedInit := SortDesc(s[..|s| - 1], key);
      InsertSorted(s[|s| - 1], sortedInit, key);
      Insert(s[|s| - 1], sortedInit, key)
  }

  /** `s.slice(0, n)` for a non-negative `n`. */
  function Take<T>(s: seq<T>, n: nat): (r: seq<T>)
    ensures |r| <= n && |r| <= |s|
    ensures |r| == if n <= |s| then n else |s|
    ensures forall i :: 0 <= i < |r| ==> r[i] == s[i]
  {
    if n <= |s| then s[..n] else s
  }

  /** A prefix draws each element no more often than the whole sequence holds it. */
  lemma TakeIsSubMultiset<T>(s: seq<T>, n: nat)
    ensures multiset(Take(s, n)) <= multiset(s)
  {
    if n <= |s| {
      assert s == s[..n] + s[n..];
    }
  }

  /** Resolves a `slice` bound: negative values count from the end, everything is clamped to the length. */
  function SliceBound(len: nat, b: int): (r: nat)
    ensures r <= len
    ensures 0 <= b <= len ==> r == b
  {
    if b < 0 then (if len + b < 0 then 0 else len + b)
    else if b > len then len
    else b
  }

  /** `Array.prototype.slice(start, end)` with JavaScript's handling of negative and out-of-range bounds. */
  function JsSlice<T>(s: seq<T>, start: int, end: int): (r: seq<T>)
    ensures |r| <= |s|
    ensures 0 <= start <= end ==> |r| <= end - start
    ensures 0 <= start <= end <= |s| ==> r == s[start..end]
    ensures 0 <= start <= |s| <= end ==> r == s[start..]
  {
    var a := SliceBound(|s|, start);
    var b := SliceBound(|s|, end);
    if b <= a then [] else s[a..b]
  }
}

=== FILE: sidebar.dfy ===
/**
 * The navigation sidebar: a fixed table of seven entries, each with the roles
 * it is shown to, filtered by the signed-in user's role. A signed-out visitor
 * is treated as a reseller; the table lists no entry for customers.
 */
module Sidebar {
  import opened Wrappers
  import opened Seqs
  import opened Types

  datatype MenuItem = MenuItem(name: string, href: string, roles: seq<UserRole>)

  /** `menuItems`, in display order. */
  const MenuItems: seq<MenuItem> := [
    MenuItem("Dashboard", "/dashboard", [DistributorRole, ResellerRole]),
    MenuItem("Inventory", "/inventory", [DistributorRole, ResellerRole]),
    MenuItem("Warranty & Services", "/warranty", [DistributorRole, ResellerRole]),
    MenuItem("Support Tickets", "/tickets", [DistributorRole, ResellerRole]),
    MenuItem("Notifications", "/notifications", [DistributorRole, ResellerRole]),
    MenuItem("History & Audit", "/history", [DistributorRole, ResellerRole]),
    MenuItem("Settings", "/settings", [DistributorRole])
  ]

  /** `user?.role || "reseller"`. */
  function SidebarRole(user: Option<User>): (r: UserRole)
    ensures user.Some? ==> r == user.value.role
    ensures user.None? ==> r == ResellerRole
  {
    if user.Some? then user.value.role else ResellerRole
  }

  function VisibleTo(role: UserRole): MenuItem -> bool { (item: MenuItem) => role in item.roles }

  /** `filteredMenuItems`: the table's entries for the user's role, in table order. */
  function FilteredMenuItems(user: Option<User>): (r: seq<MenuItem>)
    ensures IsSubsequence(r, MenuItems)
    ensures forall item :: item in r <==> item in MenuItems && SidebarRole(user) in item.roles
  {
    FilterIsSubsequence(MenuItems, VisibleTo(SidebarRole(user)));
    Filter(MenuItems, VisibleTo(SidebarRole(user)))
  }

  /** A distributor sees all seven entries, Settings last. */
  lemma DistributorSeesEverything(u: User)
    requires u.role == DistributorRole
    ensures FilteredMenuItems(Some(u)) == MenuItems
  {
    FilterKeepsAll(MenuItems, VisibleTo(DistributorRole));
  }

  /** A reseller, and a signed-out visitor, see the first six entries: everything but Settings. */
  lemma ResellerSeesAllButSettings(user: Option<User>)
    requires user.None? || user.value.role == ResellerRole
    ensures FilteredMenuItems(user) == MenuItems[..6]
  {
    var p := VisibleTo(ResellerRole);
    assert Filter(MenuItems, p) == Filter(MenuItems[..6], p) by {
      assert MenuItems[..|MenuItems| - 1] == MenuItems[..6];
      assert !p(MenuItems[6]);
    }
    SixEntriesForResellers();
  }

  lemma SixEntriesForResellers()
    ensures Filter(MenuItems[..6], VisibleTo(ResellerRole)) == MenuItems[..6]
  {
    var first := MenuItems[..6];
    assert forall i :: 0 <= i < 6 ==> ResellerRole in first[i].roles;
    FilterKeepsAll(first, VisibleTo(ResellerRole));
  }

  /** A customer is offered no entry at all. */
  lemma CustomerSeesNothing(u: User)
    requires u.role == CustomerRole
    ensures FilteredMenuItems(Some(u)) == []
  {
    assert forall i :: 0 <= i < |MenuItems| ==> CustomerRole !in MenuItems[i].roles;
    FilterNone(MenuItems, VisibleTo(CustomerRole));
  }

  /** The Settings entry is shown to distributors and to nobody else. */
  lemma SettingsOnlyForDistributors(user: Option<User>)
    ensures MenuItems[6] in FilteredMenuItems(user) <==> user.Some? && user.value.role == DistributorRole
  {
  }
}

=== FILE: text.dfy ===
/**
 * The string operations the screens and stores use: case folding for search,
 * `includes`, `join`, `String(n).padStart(3, "0")`, `replace` of the first
 * match and `split(" ")[0]`. Case folding covers ASCII letters only.
 */
module Text {

  /** `toLowerCase` on one character (ASCII letters). */
  function LowerChar(c: char): char {
    if 'A' <= c <= 'Z' then (c as int + 32) as char else c
  }

  /** `toUpperCase` on one character (ASCII letters). */
  function UpperChar(c: char): char {
    if 'a' <= c <= 'z' then (c as int - 32) as char else c
  }

  function Lower(s: string): (r: string)
    ensures |r| == |s|
    ensures forall i :: 0 <= i < |s| ==> r[i] == LowerChar(s[i])
  {
    seq(|s|, i requires 0 <= i < |s| => LowerChar(s[i]))
  }

  function Upper(s: string): (r: string)
    ensures |r| == |s|
    ensures forall i :: 0 <= i < |s| ==> r[i] == UpperChar(s[i])
  {
    seq(|s|, i requires 0 <= i < |s| => UpperChar(s[i]))
  }

  /** Folding to lower case forgets an earlier fold to upper case. */
  lemma LowerOfUpper(s: string)
    ensures Lower(Upper(s)) == Lower(s)
  {
    assert forall i :: 0 <= i < |s| ==> LowerChar(UpperChar(s[i])) == LowerChar(s[i]);
  }

  /** `needle` occurs in `hay` starting at position `i`. */
  ghost predicate OccursAt(hay: string, needle: string, i: int) {
    0 <= i && i + |needle| <= |hay| && hay[i..i + |needle|] == needle
  }

  /** `hay.includes(needle)`, searching left to right. */
  predicate Contains(hay: string, needle: string)
    decreases |hay|
  {
    needle <= hay || (|hay| > 0 && Contains(hay[1..], needle))
  }

  lemma {:induction false} OccursImpliesContains(hay: string, needle: string, i: int)
    requires OccursAt(hay, needle, i)
    ensures Contains(hay, needle)
    decreases i
  {
    if i == 0 {
      assert needle <= hay;
    } else {
      assert hay[1..][i - 1..i - 1 + |needle|] == hay[i..i + |needle|];
      OccursImpliesContains(hay[1..], needle, i - 1);
    }
  }

  /** `includes` holds exactly when the needle occurs at some position. */
  lemma {:induction false} ContainsIffOccurs(hay: string, needle: string)
    ensures Contains(hay, needle) <==> exists i :: OccursAt(hay, needle, i)
    decreases |hay|
  {
    if exists i :: OccursAt(hay, needle, i) {
      var i :| OccursAt(hay, needle, i);
      OccursImpliesContains(hay, needle, i);
    }
    if needle <= hay {
      assert OccursAt(hay, needle, 0);
    } else if Contains(hay, needle) {
      ContainsIffOccurs(hay[1..], needle);
      var i :| OccursAt(hay[1..], needle, i);
      assert hay[i + 1..i + 1 + |needle|] == hay[1..][i..i + |needle|];
      assert OccursAt(hay, needle, i + 1);
    }
  }

  /** The empty query matches every text. */
  lemma ContainsEmpty(hay: string)
    ensures Contains(hay, "")
  {
  }

  /** Case-insensitive `includes`: `hay.toLowerCase().includes(query.toLowerCase())`. */
  predicate MatchesQuery(hay: string, query: string) {
    Contains(Lower(hay), Lower(query))
  }

  /** `parts.join(sep)`. */
  function Join(parts: seq<string>, sep: string): (r: string)
    ensures parts == [] ==> r == ""
    ensures |parts| == 1 ==> r == parts[0]
    decreases |parts|
  {
    if parts == [] then ""
    else if |parts| == 1 then parts[0]
    else parts[0] + sep + Join(parts[1..], sep)
  }

  /** `s.replace(from, to)` with single-character strings: only the first occurrence changes. */
  function ReplaceFirst(s: string, from: char, to: char): (r: string)
    ensures |r| == |s|
    decreases |s|
  {
    if s == [] then []
    else if s[0] == from then [to] + s[1..]
    else [s[0]] + ReplaceFirst(s[1..], from, to)
  }

  /** A string without `from` is left as it is. */
  lemma {:induction false} ReplaceFirstAbsent(s: string, from: char, to: char)
    requires forall i :: 0 <= i < |s| ==> s[i] != from
    ensures ReplaceFirst(s, from, to) == s
    decreases |s|
  {
    if s != [] {
      ReplaceFirstAbsent(s[1..], from, to);
    }
  }

  /** The first `from`, after a prefix without one, becomes `to`; the rest is kept. */
  lemma {:induction false} ReplaceFirstAfter(a: string, b: string, from: char, to: char)
    requires forall i :: 0 <= i < |a| ==> a[i] != from
    ensures ReplaceFirst(a + [from] + b, from, to) == a + [to] + b
    decreases |a|
  {
    if a != [] {
      assert (a + [from] + b)[1..] == a[1..] + [from] + b;
      ReplaceFirstAfter(a[1..], b, from, to);
    } else {
      assert a + [from] + b == [from] + b;
    }
  }

  /** `s.split(" ")[0]`: everything before the first space. */
  function FirstWord(s: string): (r: string)
    ensures r <= s
    ensures ' ' !in r
    ensures |r| < |s| ==> s[|r|] == ' '
    decreases |s|
  {
    if s == [] || s[0] == ' ' then [] else [s[0]] + FirstWord(s[1..])
  }

  predicate IsDigit(c: char) {
    '0' <= c <= '9'
  }

  predicate AllDigits(s: string) {
    forall i :: 0 <= i < |s| ==> IsDigit(s[i])
  }

  function DigitChar(d: nat): (c: char)
    requires d < 10
    ensures IsDigit(c)
  {
    (d + '0' as int) as char
  }

  /** `String(n)` for a non-negative integer: its decimal digits, without leading zeros. */
  function NatToString(n: nat): (r: string)
    ensures |r| >= 1
    ensures AllDigits(r)
    decreases n
  {
    if n < 10 then [DigitChar(n)] else NatToString(n / 10) + [DigitChar(n % 10)]
  }

  /** A JavaScript number printed in decimal. */
  function IntToString(n: int): (r: string)
    ensures |r| >= 1
    ensures n >= 0 ==> AllDigits(r) && DigitsValue(r) == n
    ensures n < 0 ==> |r| >= 2 && r[0] == '-' && AllDigits(r[1..]) && DigitsValue(r[1..]) == -n
  {
    if n < 0 then
      NatToStringRoundTrip(-n);
      var r := "-" + NatToString(-n);
      assert r[1..] == NatToString(-n);
      r
    else
      NatToStringRoundTrip(n);
      NatToString(n)
  }

  /** The number a string of decimal digits denotes (leading zeros allowed). */
  function DigitsValue(s: string): nat
    requires AllDigits(s)
    decreases |s|
  {
    if s == [] then 0
    else DigitsValue(s[..|s| - 1]) * 10 + (s[|s| - 1] as int - '0' as int)
  }

  lemma {:induction false} NatToStringRoundTrip(n: nat)
    ensures DigitsValue(NatToString(n)) == n
    decreases n
  {
    if n >= 10 {
      NatToStringRoundTrip(n / 10);
      var s := NatToString(n);
      assert s[..|s| - 1] == NatToString(n / 10);
    }
  }

  /** `c` repeated `k` times. */
  function Repeat(c: char, k: nat): (r: string)
    ensures |r| == k
    ensures forall i :: 0 <= i < k ==> r[i] == c
  {
    seq(k, _ => c)
  }

  /** `s.padStart(width, c)` with a one-character pad. */
  function PadStart(s: string, width: nat, c: char): (r: string)
    ensures |r| == if |s| >= width then |s| else width
    ensures s <= r[|r| - |s|..] && r[|r| - |s|..] == s
    ensures forall i :: 0 <= i < |r| - |s| ==> r[i] == c
  {
    if |s| >= width then s else Repeat(c, width - |s|) + s
  }

  /** Leading zeros do not change the value of a digit string. */
  lemma {:induction false} LeadingZeros(k: nat, s: string)
    requires AllDigits(s)
    ensures AllDigits(Repeat('0', k) + s)
    ensures DigitsValue(Repeat('0', k) + s) == DigitsValue(s)
    decreases |s|, k
  {
    var z := Repeat('0', k);
    if s == [] {
      assert z + s == z;
      if k > 0 {
        assert z[..k - 1] == Repeat('0', k - 1);
        LeadingZeros(k - 1, s);
        assert Repeat('0', k - 1) + s == Repeat('0', k - 1);
      }
    } else {
      var init := s[..|s| - 1];
      LeadingZeros(k, init);
      assert (z + s)[..|z + s| - 1] == z + init;
    }
  }

  /** `String(n).padStart(3, "0")`: the sequence-number suffix of generated ids. */
  function SequenceNumber(n: nat): (r: string)
    ensures |r| >= 3
    ensures AllDigits(r)
    ensures n < 1000 ==> |r| == 3
  {
    var digits := NatToString(n);
    NatToStringLength(n);
    var r := PadStart(digits, 3, '0');
    assert |digits| < 3 ==> r == Repeat('0', 3 - |digits|) + digits;
    LeadingZeros(if |digits| < 3 then 3 - |digits| else 0, digits);
    r
  }

  lemma {:induction false} NatToStringLength(n: nat)
    ensures n < 1000 ==> |NatToString(n)| <= 3
    ensures n < 10 <==> |NatToString(n)| == 1
    decreases n
  {
    if n >= 10 {
      NatToStringLength(n / 10);
    }
  }

  /** The padded sequence number reads back as the number it was made from. */
  lemma SequenceNumberRoundTrip(n: nat)
    ensures DigitsValue(SequenceNumber(n)) == n
  {
    var digits := NatToString(n);
    NatToStringRoundTrip(n);
    if |digits| < 3 {
      LeadingZeros(3 - |digits|, digits);
    } else {
      assert SequenceNumber(n) == digits;
    }
  }

  /** Different counts never produce the same sequence number. */
  lemma SequenceNumberInjective(n: nat, m: nat)
    requires SequenceNumber(n) == SequenceNumber(m)
    ensures n == m
  {
    SequenceNumberRoundTrip(n);
    SequenceNumberRoundTrip(m);
  }

  /** `${prefix}${String(n).padStart(3, "0")}`: the ids the stores and forms synthesise from a count. */
  function SequentialId(prefix: string, n: nat): (r: string)
    ensures |r| >= |prefix| + 3 && r[..|prefix|] == prefix
    ensures AllDigits(r[|prefix|..]) && DigitsValue(r[|prefix|..]) == n
    ensures n < 1000 ==> |r| == |prefix| + 3
  {
    SequenceNumberRoundTrip(n);
    var r := prefix + SequenceNumber(n);
    assert r[|prefix|..] == SequenceNumber(n);
    r
  }

  /** Ids with the same prefix are equal exactly when the counts are. */
  lemma SequentialIdInjective(prefix: string, m: nat, n: nat)
    ensures SequentialId(prefix, m) == SequentialId(prefix, n) <==> m == n
  {
    if SequentialId(prefix, m) == SequentialId(prefix, n) {
      assert SequentialId(prefix, m)[|prefix|..] == SequentialId(prefix, n)[|prefix|..];
    }
  }
}

=== FILE: ticket_store.dfy ===
/**
 * The ticket store: tickets with an append-only timeline. Creation numbers the
 * ticket from the current count; status changes, comments and assignments each
 * append one timeline entry to the ticket with the given id. No transition is
 * refused: any status may follow any other, `closed` included.
 */
module TicketStore {
  import opened Wrappers
  import opened Seqs
  import opened Text
  import opened Calendar
  import opened Types

  /** `TKT` followed by the new count, zero-padded to at least three digits. */
  function TicketId(count: nat): (r: string)
    ensures |r| >= 6 && r[..3] == "TKT"
    ensures AllDigits(r[3..]) && DigitsValue(r[3..]) == count + 1
    ensures count + 1 < 1000 ==> |r| == 6
  {
    SequentialId("TKT", count + 1)
  }

  /** The ticket `createTicket` builds from a draft when the store holds `count` tickets. */
  function NewTicket(draft: TicketDraft, count: nat, now: Instant): (t: Ticket)
    ensures t.id == TicketId(count) && t.createdAt == now && t.updatedAt == now
    ensures t.timeline == [TimelineEntry("Ticket Created", draft.customerId, now, "Initial ticket submission")]
    ensures t.customerId == draft.customerId && t.status == draft.status && t.assignedTo == draft.assignedTo
    ensures t.subject == draft.subject && t.description == draft.description && t.serialNumber == draft.serialNumber
    ensures t.productName == draft.productName && t.category == draft.category && t.priority == draft.priority
    ensures t.warrantyStatus == draft.warrantyStatus && t.serviceStatus == draft.serviceStatus
  {
    Ticket(
      TicketId(count), draft.customerId, draft.serialNumber, draft.productName, draft.category,
      draft.priority, draft.subject, draft.description, draft.status, draft.warrantyStatus,
      draft.serviceStatus, now, now,
      [TimelineEntry("Ticket Created", draft.customerId, now, "Initial ticket submission")],
      draft.assignedTo)
  }

  /** `Status Updated to ${status.replace("_", " ")}`. */
  function StatusAction(status: TicketStatus): string {
    "Status Updated to " + ReplaceFirst(status.Name(), '_', ' ')
  }

  /** The timeline reads "in progress", with a space, for the two-word status. */
  lemma StatusActionWording()
    ensures StatusAction(InProgress) == "Status Updated to " + "in progress"
    ensures StatusAction(Closed) == "Status Updated to " + "closed"
  {
    SpacedStatusName(InProgress);
    SpacedStatusName(Closed);
  }

  /** The status names with their underscore turned into a space: only "in_progress" has one. */
  lemma SpacedStatusName(status: TicketStatus)
    ensures ReplaceFirst(status.Name(), '_', ' ') == match status
      case Open => "open"
      case InProgress => "in progress"
      case Resolved => "resolved"
      case Closed => "closed"
  {
    match status
    case Open => ReplaceFirstAbsent("open", '_', ' ');
    case InProgress =>
      assert "in_progress" == "in" + ['_'] + "progress";
      ReplaceFirstAbsent("in", '_', ' ');
      ReplaceFirstAfter("in", "progress", '_', ' ');
      assert "in" + [' '] + "progress" == "in progress";
    case Resolved => ReplaceFirstAbsent("resolved", '_', ' ');
    case Closed => ReplaceFirstAbsent("closed", '_', ' ');
  }

  /** One ticket after `updateTicketStatus`: new status and stamp, one entry appended, nothing else changed. */
  function WithStatus(t: Ticket, status: TicketStatus, note: string, author: string, now: Instant): (r: Ticket)
    ensures r.status == status && r.updatedAt == now
    ensures |r.timeline| == |t.timeline| + 1 && r.timeline[..|t.timeline|] == t.timeline
    ensures r.timeline[|t.timeline|] == TimelineEntry(StatusAction(status), author, now, note)
    ensures r.id == t.id && r.customerId == t.customerId && r.assignedTo == t.assignedTo && r.createdAt == t.createdAt
    ensures r == t.(status := r.status, updatedAt := r.updatedAt, timeline := r.timeline)
  {
    t.(status := status, updatedAt := now, timeline := t.timeline + [TimelineEntry(StatusAction(status), author, now, note)])
  }

  /** One ticket after `addComment`: the entry appended verbatim and the stamp renewed; nothing else changed. */
  function WithComment(t: Ticket, comment: TimelineEntry, now: Instant): (r: Ticket)
    ensures r.timeline == t.timeline + [comment] && r.updatedAt == now
    ensures r.status == t.status && r.assignedTo == t.assignedTo && r.id == t.id
    ensures r == t.(updatedAt := r.updatedAt, timeline := r.timeline)
  {
    t.(updatedAt := now, timeline := t.timeline + [comment])
  }

  /** One ticket after `assignTicket`: the assignee set and a "Ticket Assigned" entry appended; nothing else changed. */
  function WithAssignee(t: Ticket, assignedTo: string, author: string, now: Instant): (r: Ticket)
    ensures r.assignedTo == Some(assignedTo) && r.updatedAt == now && r.status == t.status && r.id == t.id
    ensures r.timeline == t.timeline + [TimelineEntry("Ticket Assigned", author, now, "Assigned to " + assignedTo)]
    ensures r == t.(assignedTo := r.assignedTo, updatedAt := r.updatedAt, timeline := r.timeline)
  {
    t.(assignedTo := Some(assignedTo), updatedAt := now,
       timeline := t.timeline + [TimelineEntry("Ticket Assigned", author, now, "Assigned to " + assignedTo)])
  }

  function TicketIdIs(id: string): Ticket -> bool { (t: Ticket) => t.id == id }
  function TicketCustomerIs(customerId: string): Ticket -> bool { (t: Ticket) => t.customerId == customerId }

  /** Every mutator rewrites only the tickets with its id: count and other tickets stay as they were. */
  lemma MutatorsTouchOnlyTheirId(tickets: seq<Ticket>, id: string, f: Ticket -> Ticket)
    ensures |UpdateWhere(tickets, TicketIdIs(id), f)| == |tickets|
    ensures forall i :: 0 <= i < |tickets| && tickets[i].id != id ==> UpdateWhere(tickets, TicketIdIs(id), f)[i] == tickets[i]
    ensures (forall i :: 0 <= i < |tickets| ==> tickets[i].id != id) ==> UpdateWhere(tickets, TicketIdIs(id), f) == tickets
  {
  }

  /** A closed ticket can be moved to any status: there is no transition guard. */
  lemma NoTransitionGuard(t: Ticket, status: TicketStatus, note: string, author: string, now: Instant)
    requires t.status == Closed
    ensures WithStatus(t, status, note, author, now).status == status
  {
  }

  /** `getTicketsByCustomer(customerId)`: that customer's tickets, in store order. */
  function TicketsByCustomer(tickets: seq<Ticket>, customerId: string): (r: seq<Ticket>)
    ensures IsSubsequence(r, tickets)
    ensures forall t :: t in r <==> t in tickets && t.customerId == customerId
  {
    FilterIsSubsequence(tickets, TicketCustomerIs(customerId));
    Filter(tickets, TicketCustomerIs(customerId))
  }

  /** `getTicketById(id)`: the first ticket with the id, or undefined. */
  function TicketById(tickets: seq<Ticket>, id: string): (r: Option<Ticket>)
    ensures r.None? <==> forall i :: 0 <= i < |tickets| ==> tickets[i].id != id
    ensures r.Some? ==> exists i :: 0 <= i < |tickets| && tickets[i] == r.value && r.value.id == id
                                    && forall j :: 0 <= j < i ==> tickets[j].id != id
  {
    Find(tickets, TicketIdIs(id))
  }

  class TicketStore {
    var tickets: seq<Ticket>

    constructor (initial: seq<Ticket>)
      ensures tickets == initial
    {
      tickets := initial;
    }

    /** `createTicket`: appends exactly one ticket, numbered from the current count, and returns it. */
    method CreateTicket(draft: TicketDraft, now: Instant) returns (t: Ticket)
      modifies this
      ensures t == NewTicket(draft, |old(tickets)|, now)
      ensures tickets == old(tickets) + [t]
    {
      t := NewTicket(draft, |tickets|, now);
      tickets := tickets + [t];
    }

    /** `updateTicketStatus`. */
    method UpdateTicketStatus(id: string, status: TicketStatus, note: string, author: string, now: Instant)
      modifies this
      ensures tickets == UpdateWhere(old(tickets), TicketIdIs(id), t => WithStatus(t, status, note, author, now))
    {
      tickets := UpdateWhere(tickets, TicketIdIs(id), t => WithStatus(t, status, note, author, now));
    }

    /** `addComment`. */
    method AddComment(ticketId: string, comment: TimelineEntry, now: Instant)
      modifies this
      ensures tickets == UpdateWhere(old(tickets), TicketIdIs(ticketId), t => WithComment(t, comment, now))
    {
      tickets := UpdateWhere(tickets, TicketIdIs(ticketId), t => WithComment(t, comment, now));
    }

    /** `assignTicket`. */
    method AssignTicket(ticketId: string, assignedTo: string, author: string, now: Instant)
      modifies this
      ensures tickets == UpdateWhere(old(tickets), TicketIdIs(ticketId), t => WithAssignee(t, assignedTo, author, now))
    {
      tickets := UpdateWhere(tickets, TicketIdIs(ticketId), t => WithAssignee(t, assignedTo, author, now));
    }
  }
}

=== FILE: tickets_page.dfy ===
/**
 * The support-ticket list: the filter chain behind the table, the per-status
 * tabs, and the status and warranty badges. A reseller sees only the tickets of
 * its own customer id; the status tabs are computed from that scoped list
 * alone, before search and status filtering.
 */
module TicketsPage {
  import opened Wrappers
  import opened Seqs
  import opened Text
  import opened Types
  import opened OwnScope
  import opened Badges
  import TicketStore

  /** The search step: the query occurs, ignoring case, in the id, the subject or the serial number. */
  predicate SearchMatches(t: Ticket, query: string) {
    MatchesQuery(t.id, query) || MatchesQuery(t.subject, query) || MatchesQuery(t.serialNumber, query)
  }

  function SearchHit(query: string): Ticket -> bool { (t: Ticket) => SearchMatches(t, query) }

  function StatusIs(status: TicketStatus): Ticket -> bool { (t: Ticket) => t.status == status }

  /** Scope: a reseller's own customer's tickets; everyone else all of them. */
  predicate InScope(t: Ticket, user: Option<User>) {
    IsReseller(user) ==> Some(t.customerId) == user.value.customerId
  }

  /**
   * The reference statement: a ticket is listed iff it is in scope, matches a
   * non-empty search, and has the selected status (None stands for "all").
   */
  predicate Listed(t: Ticket, user: Option<User>, query: string, statusFilter: Option<TicketStatus>) {
    && InScope(t, user)
    && (query == "" || SearchMatches(t, query))
    && (statusFilter.None? || t.status == statusFilter.value)
  }

  function ListedBy(user: Option<User>, query: string, statusFilter: Option<TicketStatus>): Ticket -> bool {
    (t: Ticket) => Listed(t, user, query, statusFilter)
  }

  function AfterScope(user: Option<User>): Ticket -> bool { (t: Ticket) => InScope(t, user) }

  function AfterSearch(user: Option<User>, query: string): Ticket -> bool {
    (t: Ticket) => InScope(t, user) && (query == "" || SearchMatches(t, query))
  }

  lemma ScopeStep(tickets: seq<Ticket>, user: Option<User>)
    ensures IsReseller(user) ==>
              Filter(tickets, OwnedBy(TicketOwner(), user.value.customerId)) == Filter(tickets, AfterScope(user))
    ensures !IsReseller(user) ==> tickets == Filter(tickets, AfterScope(user))
  {
    if IsReseller(user) {
      FilterCongruent(tickets, OwnedBy(TicketOwner(), user.value.customerId), AfterScope(user));
    } else {
      FilterKeepsAll(tickets, AfterScope(user));
    }
  }

  lemma SearchStep(tickets: seq<Ticket>, user: Option<User>, query: string)
    ensures query != "" ==>
              Filter(Filter(tickets, AfterScope(user)), SearchHit(query)) == Filter(tickets, AfterSearch(user, query))
    ensures query == "" ==> Filter(tickets, AfterScope(user)) == Filter(tickets, AfterSearch(user, query))
  {
    if query != "" {
      FilterThen(tickets, AfterScope(user), SearchHit(query), AfterSearch(user, query));
    } else {
      FilterCongruent(tickets, AfterScope(user), AfterSearch(user, query));
    }
  }

  lemma StatusStep(tickets: seq<Ticket>, user: Option<User>, query: string, statusFilter: Option<TicketStatus>)
    ensures statusFilter.Some? ==>
              Filter(Filter(tickets, AfterSearch(user, query)), StatusIs(statusFilter.value))
              == Filter(tickets, ListedBy(user, query, statusFilter))
    ensures statusFilter.None? ==>
              Filter(tickets, AfterSearch(user, query)) == Filter(tickets, ListedBy(user, query, statusFilter))
  {
    if statusFilter.Some? {
      FilterThen(tickets, AfterSearch(user, query), StatusIs(statusFilter.value), ListedBy(user, query, statusFilter));
    } else {
      FilterCongruent(tickets, AfterSearch(user, query), ListedBy(user, query, statusFilter));
    }
  }

  /**
   * `filteredTickets`: narrows `filtered` step by step. The result is exactly
   * the tickets the reference statement lists, in store order, and a
   * subsequence of the "all" tab.
   */
  method FilteredTickets(tickets: seq<Ticket>, user: Option<User>, query: string, statusFilter: Option<TicketStatus>)
    returns (filtered: seq<Ticket>)
    ensures filtered == Filter(tickets, ListedBy(user, query, statusFilter))
    ensures IsSubsequence(filtered, TicketsByStatus(tickets, user).all)
  {
    filtered := tickets;

    ScopeStep(tickets, user);
    if IsReseller(user) {
      filtered := Filter(filtered, OwnedBy(TicketOwner(), user.value.customerId));
    }

    SearchStep(tickets, user, query);
    if query != "" {
      filtered := Filter(filtered, SearchHit(query));
    }

    StatusStep(tickets, user, query, statusFilter);
    if statusFilter.Some? {
      filtered := Filter(filtered, StatusIs(statusFilter.value));
    }

    ListedWithinScope(tickets, user, query, statusFilter);
  }

  /** Everything listed is in the scoped "all" list, in the same order. */
  lemma ListedWithinScope(tickets: seq<Ticket>, user: Option<User>, query: string, statusFilter: Option<TicketStatus>)
    ensures IsSubsequence(Filter(tickets, ListedBy(user, query, statusFilter)), TicketsByStatus(tickets, user).all)
  {
    var all := TicketsByStatus(tickets, user).all;
    ScopeStep(tickets, user);
    assert all == Filter(tickets, AfterScope(user));
    FilterThen(tickets, AfterScope(user), ListedBy(user, query, statusFilter), ListedBy(user, query, statusFilter));
    FilterIsSubsequence(all, ListedBy(user, query, statusFilter));
  }

  /** An empty search with "all" selected lists the whole scoped list. */
  lemma NoFiltersListWholeScope(tickets: seq<Ticket>, user: Option<User>)
    ensures Filter(tickets, ListedBy(user, "", None)) == TicketsByStatus(tickets, user).all
  {
    ScopeStep(tickets, user);
    FilterCongruent(tickets, ListedBy(user, "", None), AfterScope(user));
  }

  // ---- tabs ----

  datatype ByStatus = ByStatus(
    all: seq<Ticket>,
    open: seq<Ticket>,
    inProgress: seq<Ticket>,
    resolved: seq<Ticket>,
    closed: seq<Ticket>)

  /** `ticketsByStatus`: the scoped list and its four per-status sublists. */
  function TicketsByStatus(tickets: seq<Ticket>, user: Option<User>): (r: ByStatus)
    ensures r.all == ResellerScoped(tickets, TicketOwner(), user)
  {
    var all := ResellerScoped(tickets, TicketOwner(), user);
    ByStatus(all, Filter(all, StatusIs(Open)), Filter(all, StatusIs(InProgress)),
             Filter(all, StatusIs(Resolved)), Filter(all, StatusIs(Closed)))
  }

  function OpenOrInProgress(): Ticket -> bool { (t: Ticket) => t.status == Open || t.status == InProgress }
  function ResolvedOrClosed(): Ticket -> bool { (t: Ticket) => t.status == Resolved || t.status == Closed }
  function AnyStatus(): Ticket -> bool { (t: Ticket) => true }

  /**
   * The four status tabs partition the "all" tab: each scoped ticket is in
   * exactly the tab of its status, and the tab sizes add up to the total.
   */
  lemma {:induction false} StatusTabsPartition(tickets: seq<Ticket>, user: Option<User>)
    ensures var b := TicketsByStatus(tickets, user);
      |b.open| + |b.inProgress| + |b.resolved| + |b.closed| == |b.all|
    ensures var b := TicketsByStatus(tickets, user);
      forall t: Ticket :: t in b.all <==> t in b.open || t in b.inProgress || t in b.resolved || t in b.closed
    ensures var b := TicketsByStatus(tickets, user);
      forall t: Ticket :: (t in b.open ==> t.status == Open) && (t in b.inProgress ==> t.status == InProgress)
                      && (t in b.resolved ==> t.status == Resolved) && (t in b.closed ==> t.status == Closed)
  {
    var b := TicketsByStatus(tickets, user);
    assert b.open == Filter(b.all, StatusIs(Open)) && b.inProgress == Filter(b.all, StatusIs(InProgress));
    assert b.resolved == Filter(b.all, StatusIs(Resolved)) && b.closed == Filter(b.all, StatusIs(Closed));
    TabCounts(b.all);
    TabUnion(b.all);
    TabStatuses(b.all);
  }

  /** Every ticket of a list is in one of its four status tabs, and the tabs hold nothing else. */
  lemma TabUnion(all: seq<Ticket>)
    ensures forall t: Ticket :: t in all <==>
              (t in Filter(all, StatusIs(Open)) || t in Filter(all, StatusIs(InProgress))
               || t in Filter(all, StatusIs(Resolved)) || t in Filter(all, StatusIs(Closed)))
  {
    forall t: Ticket | t in all
      ensures t in Filter(all, StatusIs(t.status))
    {
    }
  }

  /** Each status tab holds only tickets of its status. */
  lemma TabStatuses(all: seq<Ticket>)
    ensures forall t: Ticket :: (t in Filter(all, StatusIs(Open)) ==> t.status == Open)
                             && (t in Filter(all, StatusIs(InProgress)) ==> t.status == InProgress)
                             && (t in Filter(all, StatusIs(Resolved)) ==> t.status == Resolved)
                             && (t in Filter(all, StatusIs(Closed)) ==> t.status == Closed)
  {
  }

  /** Filtering any list by each of the four statuses splits its length four ways. */
  lemma TabCounts(all: seq<Ticket>)
    ensures |Filter(all, StatusIs(Open))| + |Filter(all, StatusIs(InProgress))|
          + |Filter(all, StatusIs(Resolved))| + |Filter(all, StatusIs(Closed))| == |all|
  {
    FilterUnionCount(all, StatusIs(Open), StatusIs(InProgress), OpenOrInProgress());
    FilterUnionCount(all, StatusIs(Resolved), StatusIs(Closed), ResolvedOrClosed());
    FilterUnionCount(all, OpenOrInProgress(), ResolvedOrClosed(), AnyStatus());
    FilterKeepsAll(all, AnyStatus());
  }

  // ---- badges ----

  /** `getStatusBadge`: the status with its underscore turned into a space, and its variant. */
  function StatusBadge(status: TicketStatus): Badge {
    var variant := match status
      case Open => Destructive
      case InProgress => Warning
      case Resolved => Success
      case Closed => Secondary;
    Badge(ReplaceFirst(status.Name(), '_', ' '), variant)
  }

  /** The four badge texts: "in_progress" is shown as "in progress". */
  lemma StatusBadgeText(status: TicketStatus)
    ensures StatusBadge(status).text == match status
      case Open => "open"
      case InProgress => "in progress"
      case Resolved => "resolved"
      case Closed => "closed"
  {
    TicketStore.SpacedStatusName(status);
  }

  /** Different statuses get different badges, in both text and variant. */
  lemma StatusBadgesDistinct(s1: TicketStatus, s2: TicketStatus)
    ensures s1 != s2 ==> StatusBadge(s1).variant != StatusBadge(s2).variant
    ensures s1 != s2 ==> StatusBadge(s1).text != StatusBadge(s2).text
  {
    StatusBadgeText(s1);
    StatusBadgeText(s2);
  }

  /** `getWarrantyStatusBadge`. */
  function WarrantyStatusBadge(warrantyStatus: string): Badge {
    if warrantyStatus == "active" then Badge("Under Warranty", Success) else Badge("Out of Warranty", Danger)
  }

  /** "Under Warranty" is shown for "active" and only for it; "expiring" counts as out of warranty. */
  lemma UnderWarrantyOnlyWhenActive(warrantyStatus: string)
    ensures WarrantyStatusBadge(warrantyStatus).text == "Under Warranty" <==> warrantyStatus == "active"
    ensures WarrantyStatusBadge("expiring").variant == Danger
  {
  }
}

=== FILE: types.dfy ===
/**
 * The records the dashboard keeps: users, customers, inventory items, tickets,
 * notifications, the inventory filter state, parent and child contracts and the
 * reseller's acting-as context. Dates are instants; a nullable field is an Option.
 *
 * A `Partial<T>` update is a patch: one optional field per record field, where a
 * field that is itself nullable takes an `Option<Option<_>>` (absent, set to null,
 * set to a value). `ApplyTo` is the shallow merge `{ ...record, ...patch }`.
 */
module Types {
  import opened Wrappers
  import opened Calendar

  datatype UserRole = DistributorRole | ResellerRole | CustomerRole {
    /** The role's name as the permission table and the menu table spell it. */
    function Name(): string {
      match this
      case DistributorRole => "distributor"
      case ResellerRole => "reseller"
      case CustomerRole => "customer"
    }
  }

  /** A signed-in user; only the fields the logic reads are kept. */
  datatype User = User(
    id: string,
    email: string,
    role: UserRole,
    customerId: Option<string>,
    companyName: string,
    managedCustomerIds: Option<seq<string>>)

  datatype ResellerMode = AsDistributor | AsCustomer

  datatype ResellerContext = ResellerContext(mode: ResellerMode, selectedManagedCustomerId: Option<string>)

  datatype CustomerStatus = CustomerActive | CustomerInactive

  datatype CustomerType = Direct | ViaReseller | EndCustomer

  datatype Customer = Customer(
    id: string,
    name: string,
    email: string,
    phone: string,
    address: string,
    gstNumber: string,
    contactPerson: string,
    industry: string,
    createdAt: Instant,
    status: CustomerStatus,
    managedBy: string,
    customerType: CustomerType)

  datatype CustomerPatch = CustomerPatch(
    id: Option<string> := None,
    name: Option<string> := None,
    email: Option<string> := None,
    phone: Option<string> := None,
    address: Option<string> := None,
    gstNumber: Option<string> := None,
    contactPerson: Option<string> := None,
    industry: Option<string> := None,
    createdAt: Option<Instant> := None,
    status: Option<CustomerStatus> := None,
    managedBy: Option<string> := None,
    customerType: Option<CustomerType> := None)
  {
    function ApplyTo(c: Customer): Customer {
      Customer(
        id.GetOr(c.id), name.GetOr(c.name), email.GetOr(c.email), phone.GetOr(c.phone),
        address.GetOr(c.address), gstNumber.GetOr(c.gstNumber), contactPerson.GetOr(c.contactPerson),
        industry.GetOr(c.industry), createdAt.GetOr(c.createdAt), status.GetOr(c.status),
        managedBy.GetOr(c.managedBy), customerType.GetOr(c.customerType))
    }
  }

  datatype ItemStatus = Delivered | Pending | Cancelled

  datatype InventoryItem = InventoryItem(
    id: string,
    contractId: string,
    contractNumber: string,
    customerId: string,
    productName: string,
    serialNumber: string,
    quantity: int,
    unitPrice: real,
    totalPrice: real,
    deliveryDate: Instant,
    warrantyStartDate: Option<Instant>,
    warrantyEndDate: Option<Instant>,
    warrantyContractId: Option<string>,
    licenseEndDate: Option<Instant>,
    licenseContractId: Option<string>,
    serviceType: Option<string>,
    serviceStartDate: Option<Instant>,
    serviceEndDate: Option<Instant>,
    serviceContractId: Option<string>,
    category: string,
    manufacturer: string,
    model: string,
    invoiceNumber: string,
    challanNumber: string,
    poNumber: string,
    status: ItemStatus,
    notes: string)

  datatype InventoryPatch = InventoryPatch(
    id: Option<string> := None,
    contractId: Option<string> := None,
    contractNumber: Option<string> := None,
    customerId: Option<string> := None,
    productName: Option<string> := None,
    serialNumber: Option<string> := None,
    quantity: Option<int> := None,
    unitPrice: Option<real> := None,
    totalPrice: Option<real> := None,
    deliveryDate: Option<Instant> := None,
    warrantyStartDate: Option<Option<Instant>> := None,
    warrantyEndDate: Option<Option<Instant>> := None,
    warrantyContractId: Option<Option<string>> := None,
    licenseEndDate: Option<Option<Instant>> := None,
    licenseContractId: Option<Option<string>> := None,
    serviceType: Option<Option<string>> := None,
    serviceStartDate: Option<Option<Instant>> := None,
    serviceEndDate: Option<Option<Instant>> := None,
    serviceContractId: Option<Option<string>> := None,
    category: Option<string> := None,
    manufacturer: Option<string> := None,
    model: Option<string> := None,
    invoiceNumber: Option<string> := None,
    challanNumber: Option<string> := None,
    poNumber: Option<string> := None,
    status: Option<ItemStatus> := None,
    notes: Option<string> := None)
  {
    function ApplyTo(i: InventoryItem): InventoryItem {
      InventoryItem(
        id.GetOr(i.id), contractId.GetOr(i.contractId), contractNumber.GetOr(i.contractNumber),
        customerId.GetOr(i.customerId), productName.GetOr(i.productName), serialNumber.GetOr(i.serialNumber),
        quantity.GetOr(i.quantity), unitPrice.GetOr(i.unitPrice), totalPrice.GetOr(i.totalPrice),
        deliveryDate.GetOr(i.deliveryDate), warrantyStartDate.GetOr(i.warrantyStartDate),
        warrantyEndDate.GetOr(i.warrantyEndDate), warrantyContractId.GetOr(i.warrantyContractId),
        licenseEndDate.GetOr(i.licenseEndDate), licenseContractId.GetOr(i.licenseContractId),
        serviceType.GetOr(i.serviceType), serviceStartDate.GetOr(i.serviceStartDate),
        serviceEndDate.GetOr(i.serviceEndDate), serviceContractId.GetOr(i.serviceContractId),
        category.GetOr(i.category), manufacturer.GetOr(i.manufacturer), model.GetOr(i.model),
        invoiceNumber.GetOr(i.invoiceNumber), challanNumber.GetOr(i.challanNumber),
        poNumber.GetOr(i.poNumber), status.GetOr(i.status), notes.GetOr(i.notes))
    }
  }

  datatype TicketStatus = Open | InProgress | Resolved | Closed {
    /** The status as stored and displayed: `open`, `in_progress`, `resolved`, `closed`. */
    function Name(): string {
      match this
      case Open => "open"
      case InProgress => "in_progress"
      case Resolved => "resolved"
      case Closed => "closed"
    }
  }

  /** One timeline line; `author` is the `by` field (a reserved word here). */
  datatype TimelineEntry = TimelineEntry(action: string, author: string, at: Instant, note: string)

  /**
   * A support ticket. `warrantyStatus` and `serviceStatus` are kept as text: the
   * new-ticket screen writes `"expiring"`, a value outside the declared union.
   */
  datatype Ticket = Ticket(
    id: string,
    customerId: string,
    serialNumber: string,
    productName: string,
    category: string,
    priority: string,
    subject: string,
    description: string,
    status: TicketStatus,
    warrantyStatus: string,
    serviceStatus: string,
    createdAt: Instant,
    updatedAt: Instant,
    timeline: seq<TimelineEntry>,
    assignedTo: Option<string>)

  /** What `createTicket` is handed: a ticket without id, timestamps and timeline. */
  datatype TicketDraft = TicketDraft(
    customerId: string,
    serialNumber: string,
    productName: string,
    category: string,
    priority: string,
    subject: string,
    description: string,
    status: TicketStatus,
    warrantyStatus: string,
    serviceStatus: string,
    assignedTo: Option<string>)

  datatype NotificationType = WarrantyExpiry | LicenseExpiry | TicketUpdate | System

  /** A notification; a missing `customerId` is a broadcast to everyone. */
  datatype Notification = Notification(
    id: string,
    customerId: Option<string>,
    kind: NotificationType,
    title: string,
    message: string,
    serialNumber: Option<string>,
    isRead: bool,
    createdAt: Instant)

  /** What `addNotification` is handed: a notification without id and timestamp. */
  datatype NotificationDraft = NotificationDraft(
    customerId: Option<string>,
    kind: NotificationType,
    title: string,
    message: string,
    serialNumber: Option<string>,
    isRead: bool)

  datatype FilterState = FilterState(
    search: string,
    category: string,
    status: string,
    customerId: string,
    dateFrom: string,
    dateTo: string)

  datatype FilterPatch = FilterPatch(
    search: Option<string> := None,
    category: Option<string> := None,
    status: Option<string> := None,
    customerId: Option<string> := None,
    dateFrom: Option<string> := None,
    dateTo: Option<string> := None)
  {
    function ApplyTo(f: FilterState): FilterState {
      FilterState(
        search.GetOr(f.search), category.GetOr(f.category), status.GetOr(f.status),
        customerId.GetOr(f.customerId), dateFrom.GetOr(f.dateFrom), dateTo.GetOr(f.dateTo))
    }
  }

  datatype ContractStatus = Draft | Active | ExpiringSoon | Expired | Terminated

  datatype ChildContractType = AMC | Support | License | ExtendedWarranty {
    function Label(): string {
      match this
      case AMC => "AMC"
      case Support => "Support"
      case License => "License"
      case ExtendedWarranty => "Extended Warranty"
    }
  }

  datatype CoverageType = Full | Limited | PartsOnly | LaborOnly {
    function Label(): string {
      match this
      case Full => "full"
      case Limited => "limited"
      case PartsOnly => "parts_only"
      case LaborOnly => "labor_only"
    }
  }

  datatype ParentContract = ParentContract(
    id: string,
    contractNumber: string,
    customerId: string,
    customerName: string,
    title: string,
    description: string,
    startDate: Instant,
    endDate: Instant,
    status: ContractStatus,
    totalValue: real,
    createdBy: string,
    createdAt: Instant,
    updatedAt: Instant,
    productIds: seq<string>,
    childContractIds: seq<string>,
    terms: string,
    autoRenew: bool,
    renewalReminderDays: int)

  datatype ParentPatch = ParentPatch(
    id: Option<string> := None,
    contractNumber: Option<string> := None,
    customerId: Option<string> := None,
    customerName: Option<string> := None,
    title: Option<string> := None,
    description: Option<string> := None,
    startDate: Option<Instant> := None,
    endDate: Option<Instant> := None,
    status: Option<ContractStatus> := None,
    totalValue: Option<real> := None,
    createdBy: Option<string> := None,
    createdAt: Option<Instant> := None,
    productIds: Option<seq<string>> := None,
    childContractIds: Option<seq<string>> := None,
    terms: Option<string> := None,
    autoRenew: Option<bool> := None,
    renewalReminderDays: Option<int> := None)
  {
    /** `{ ...c, ...patch, updatedAt: now }`: the store stamps the time last, over any supplied value. */
    function ApplyTo(c: ParentContract, now: Instant): ParentContract {
      ParentContract(
        id.GetOr(c.id), contractNumber.GetOr(c.contractNumber), customerId.GetOr(c.customerId),
        customerName.GetOr(c.customerName), title.GetOr(c.title), description.GetOr(c.description),
        startDate.GetOr(c.startDate), endDate.GetOr(c.endDate), status.GetOr(c.status),
        totalValue.GetOr(c.totalValue), createdBy.GetOr(c.createdBy), createdAt.GetOr(c.createdAt),
        now, productIds.GetOr(c.productIds), childContractIds.GetOr(c.childContractIds),
        terms.GetOr(c.terms), autoRenew.GetOr(c.autoRenew), renewalReminderDays.GetOr(c.renewalReminderDays))
    }
  }

  datatype ChildContract = ChildContract(
    id: string,
    contractNumber: string,
    parentContractId: string,
    parentContractNumber: string,
    customerId: string,
    kind: ChildContractType,
    title: string,
    description: string,
    startDate: Instant,
    endDate: Instant,
    status: ContractStatus,
    value: real,
    coverageType: CoverageType,
    responseTime: string,
    coveredSerialNumbers: seq<string>,
    createdBy: string,
    createdAt: Instant,
    updatedAt: Instant)

  datatype ChildPatch = ChildPatch(
    id: Option<string> := None,
    contractNumber: Option<string> := None,
    parentContractId: Option<string> := None,
    parentContractNumber: Option<string> := None,
    customerId: Option<string> := None,
    kind: Option<ChildContractType> := None,
    title: Option<string> := None,
    description: Option<string> := None,
    startDate: Option<Instant> := None,
    endDate: Option<Instant> := None,
    status: Option<ContractStatus> := None,
    value: Option<real> := None,
    coverageType: Option<CoverageType> := None,
    responseTime: Option<string> := None,
    coveredSerialNumbers: Option<seq<string>> := None,
    createdBy: Option<string> := None,
    createdAt: Option<Instant> := None)
  {
    /** `{ ...c, ...patch, updatedAt: now }`. */
    function ApplyTo(c: ChildContract, now: Instant): ChildContract {
      ChildContract(
        id.GetOr(c.id), contractNumber.GetOr(c.contractNumber), parentContractId.GetOr(c.parentContractId),
        parentContractNumber.GetOr(c.parentContractNumber), customerId.GetOr(c.customerId),
        kind.GetOr(c.kind), title.GetOr(c.title), description.GetOr(c.description),
        startDate.GetOr(c.startDate), endDate.GetOr(c.endDate), status.GetOr(c.status),
        value.GetOr(c.value), coverageType.GetOr(c.coverageType), responseTime.GetOr(c.responseTime),
        coveredSerialNumbers.GetOr(c.coveredSerialNumbers), createdBy.GetOr(c.createdBy),
        createdAt.GetOr(c.createdAt), now)
    }
  }
}

=== FILE: warranty_page.dfy ===
/**
 * The warranty and service screen: the scoped item list, its four headline
 * counts, the dialogs that edit an item's warranty end date and service
 * contract, and the one-click renewal that moves the end date a year on. Date
 * inputs are modelled by the instant they hold, with an empty input as None.
 */
module WarrantyPage {
  import opened Wrappers
  import opened Seqs
  import opened Calendar
  import opened Types
  import opened OwnScope
  import DateUtils
  import InventoryStore

  /** `filteredItems`: a reseller's own items, everyone else's view unfiltered. */
  function WarrantyItems(items: seq<InventoryItem>, user: Option<User>): (r: seq<InventoryItem>)
    ensures IsSubsequence(r, items)
    ensures !IsReseller(user) ==> r == items
    ensures forall i :: i in r <==> i in items && (IsReseller(user) ==> Some(i.customerId) == user.value.customerId)
  {
    ResellerScoped(items, ItemOwner(), user)
  }

  // ---- stats ----

  predicate ActiveWarranty(item: InventoryItem, now: Instant) {
    DateUtils.TierOf(item.warrantyEndDate, now) == DateUtils.Active
  }

  /** `daysUntilExpiry` between 1 and 30; a missing end date gives NaN and fails both tests. */
  predicate ExpiresWithin30(item: InventoryItem, now: Instant) {
    item.warrantyEndDate.Some?
    && var days := DateUtils.DaysUntilExpiry(item.warrantyEndDate.value, now);
    days > 0 && days <= 30
  }

  predicate ExpiredWarranty(item: InventoryItem, now: Instant) {
    DateUtils.TierOf(item.warrantyEndDate, now) == DateUtils.Expired
  }

  predicate HasService(item: InventoryItem) {
    item.serviceType.Some?
  }

  function IsActive(now: Instant): InventoryItem -> bool { (i: InventoryItem) => ActiveWarranty(i, now) }
  function IsExpiring30(now: Instant): InventoryItem -> bool { (i: InventoryItem) => ExpiresWithin30(i, now) }
  function IsExpired(now: Instant): InventoryItem -> bool { (i: InventoryItem) => ExpiredWarranty(i, now) }
  function IsActiveOrExpiring30(now: Instant): InventoryItem -> bool {
    (i: InventoryItem) => ActiveWarranty(i, now) || ExpiresWithin30(i, now)
  }
  function WithService(): InventoryItem -> bool { (i: InventoryItem) => HasService(i) }

  datatype WarrantyStats = WarrantyStats(
    activeWarranties: nat,
    expiring30Days: nat,
    expired: nat,
    activeServiceContracts: nat)

  /** An item counted as expiring within 30 days is in the expiring-soon tier: neither active nor expired. */
  lemma Expiring30IsExpiringSoonTier(item: InventoryItem, now: Instant)
    requires ExpiresWithin30(item, now)
    ensures DateUtils.TierOf(item.warrantyEndDate, now) == DateUtils.ExpiringSoon
  {
  }

  /**
   * `stats`. The three warranty counts never count an item twice, so together
   * they never exceed the number of listed items.
   */
  function ComputeWarrantyStats(items: seq<InventoryItem>, now: Instant): (s: WarrantyStats)
    ensures s.activeWarranties + s.expiring30Days + s.expired <= |items|
    ensures s.activeServiceContracts <= |items|
  {
    forall k | 0 <= k < |items| && ExpiresWithin30(items[k], now)
      ensures DateUtils.TierOf(items[k].warrantyEndDate, now) == DateUtils.ExpiringSoon
    {
      Expiring30IsExpiringSoonTier(items[k], now);
    }
    FilterUnionCount(items, IsActive(now), IsExpiring30(now), IsActiveOrExpiring30(now));
    FilterDisjointCount(items, IsActiveOrExpiring30(now), IsExpired(now));
    WarrantyStats(
      |Filter(items, IsActive(now))|,
      |Filter(items, IsExpiring30(now))|,
      |Filter(items, IsExpired(now))|,
      |Filter(items, WithService())|)
  }

  // ---- warranty edit ----

  /** The patch `handleSaveWarranty` sends: the end date and nothing else. */
  function EndDatePatch(endDate: Instant): InventoryPatch {
    InventoryPatch(warrantyEndDate := Some(Some(endDate)))
  }

  /** Applying an end-date patch changes that field only. */
  lemma EndDatePatchChangesOnlyEndDate(item: InventoryItem, endDate: Instant)
    ensures EndDatePatch(endDate).ApplyTo(item) == item.(warrantyEndDate := Some(endDate))
  {
  }

  /** Only the items with the id get the new end date; nothing else in the list changes. */
  lemma SetEndDateTouchesOnlyTheItem(items: seq<InventoryItem>, id: string, endDate: Instant)
    ensures var r := InventoryStore.UpdateItems(items, id, EndDatePatch(endDate));
      |r| == |items|
      && forall k :: 0 <= k < |items| ==>
           r[k] == if items[k].id == id then items[k].(warrantyEndDate := Some(endDate)) else items[k]
  {
    forall k | 0 <= k < |items| && items[k].id == id {
      EndDatePatchChangesOnlyEndDate(items[k], endDate);
    }
  }

  // ---- service edit ----

  /** The select's value `handleEditService` loads: the service type, or "none" when it is null or empty. */
  function ServiceField(serviceType: Option<string>): (r: string)
    ensures r != ""
    ensures r == "none" <==> serviceType.None? || serviceType.value == "" || serviceType.value == "none"
  {
    if serviceType.None? || serviceType.value == "" then "none" else serviceType.value
  }

  /** The service type `handleSaveService` stores: null for "none" or an empty select. */
  function StoredServiceType(field: string): (r: Option<string>)
    ensures r.None? <==> field == "none" || field == ""
    ensures r.Some? ==> r.value == field
  {
    if field == "none" then None else if field == "" then None else Some(field)
  }

  /** The patch `handleSaveService` sends: the service type and both service dates. */
  function ServicePatch(field: string, start: Option<Instant>, end: Option<Instant>): InventoryPatch {
    InventoryPatch(serviceType := Some(StoredServiceType(field)),
                   serviceStartDate := Some(start),
                   serviceEndDate := Some(end))
  }

  /**
   * Opening the service editor and saving it unchanged keeps the service type
   * exactly when it is null or a non-empty type other than "none"; the empty
   * string and the literal "none" both come back as null.
   */
  lemma EditThenSaveServiceType(serviceType: Option<string>)
    ensures StoredServiceType(ServiceField(serviceType)) == serviceType <==>
              serviceType.None? || (serviceType.value != "" && serviceType.value != "none")
    ensures serviceType.Some? && (serviceType.value == "" || serviceType.value == "none") ==>
              StoredServiceType(ServiceField(serviceType)).None?
  {
  }

  /** Saving the editor unchanged leaves the item as it was, apart from the service type rule above. */
  lemma EditThenSaveServiceKeepsItem(item: InventoryItem)
    requires item.serviceType.None? || (item.serviceType.value != "" && item.serviceType.value != "none")
    ensures ServicePatch(ServiceField(item.serviceType), item.serviceStartDate, item.serviceEndDate).ApplyTo(item) == item
  {
    EditThenSaveServiceType(item.serviceType);
  }

  // ---- renewal ----

  /**
   * `handleRenewWarranty`'s new end date: one calendar year after the current
   * end date, at the start of that day. A missing end date is read as the epoch.
   */
  function RenewedEndDate(endDate: Option<Instant>): (r: Instant)
    ensures r % MsPerDay == 0
    ensures DayIndex(r) == DayIndex(AddYears(endDate.GetOr(0), 1))
  {
    StartOfDay(AddYears(endDate.GetOr(0), 1))
  }

  /** Renewal moves 29 February 2024 to 28 February 2025. */
  lemma RenewalOfLeapDay()
    ensures DateOf(1_709_164_800_000) == CivilDate(2024, 2, 29)
    ensures RenewedEndDate(Some(1_709_164_800_000)) == 1_740_700_800_000
    ensures DateOf(1_740_700_800_000) == CivilDate(2025, 2, 28)
  {
    assert DayIndex(1_709_164_800_000) == 19782;
    CivilOfDay19782();
    assert DateOf(1_709_164_800_000) == CivilDate(2024, 2, 29);
    DaysOf20250228();
    assert AddYears(1_709_164_800_000, 1) == 1_740_700_800_000;
    assert DayIndex(1_740_700_800_000) == 20147;
    CivilOfDay20147();
  }

  lemma CivilOfDay19782()
    ensures CivilFromDays(19782) == CivilDate(2024, 2, 29)
  {
    assert 739250 / 146097 == 5;
    assert 8765 / 1460 == 6 && 8765 / 36524 == 0 && 8765 / 146096 == 0 && 8759 / 365 == 23;
    assert (5 * 365 + 2) / 153 == 11 && (153 * 11 + 2) / 5 == 337;
  }

  lemma DaysOf20250228()
    ensures DaysFromCivil(CivilDate(2025, 2, 28)) == 20147
  {
    assert 2024 / 400 == 5 && (2 + 9) % 12 == 11 && (153 * 11 + 2) / 5 == 337 && 24 / 4 == 6 && 24 / 100 == 0;
  }

  lemma CivilOfDay20147()
    ensures CivilFromDays(20147) == CivilDate(2025, 2, 28)
  {
    assert 739615 / 146097 == 5;
    assert 9130 / 1460 == 6 && 9130 / 36524 == 0 && 9130 / 146096 == 0 && 9124 / 365 == 24;
    assert (5 * 364 + 2) / 153 == 11 && (153 * 11 + 2) / 5 == 337;
  }

  /** An end date at 10:00 on 15 June 2025 renews to the start of 15 June 2026. */
  lemma RenewalOfOrdinaryDate()
    ensures DateOf(1_749_981_600_000) == CivilDate(2025, 6, 15)
    ensures RenewedEndDate(Some(1_749_981_600_000)) == 1_781_481_600_000
    ensures DateOf(1_781_481_600_000) == CivilDate(2026, 6, 15)
  {
    assert DayIndex(1_749_981_600_000) == 20254;
    CivilOfDay20254();
    assert DateOf(1_749_981_600_000) == CivilDate(2025, 6, 15);
    DaysOf20260615();
    assert AddYears(1_749_981_600_000, 1) == 1_781_517_600_000;
    assert DayIndex(1_781_517_600_000) == 20619;
    CivilOfDay20619();
  }

  lemma CivilOfDay20254()
    ensures CivilFromDays(20254) == CivilDate(2025, 6, 15)
  {
    assert 739722 / 146097 == 5;
    assert 9237 / 1460 == 6 && 9237 / 36524 == 0 && 9237 / 146096 == 0 && 9231 / 365 == 25;
    assert (5 * 106 + 2) / 153 == 3 && (153 * 3 + 2) / 5 == 92;
  }

  lemma DaysOf20260615()
    ensures DaysFromCivil(CivilDate(2026, 6, 15)) == 20619
  {
    assert 2026 / 400 == 5 && (6 + 9) % 12 == 3 && (153 * 3 + 2) / 5 == 92 && 26 / 4 == 6 && 26 / 100 == 0;
  }

  lemma CivilOfDay20619()
    ensures CivilFromDays(20619) == CivilDate(2026, 6, 15)
  {
    assert 740087 / 146097 == 5;
    assert 9602 / 1460 == 6 && 9602 / 36524 == 0 && 9602 / 146096 == 0 && 9596 / 365 == 26;
    assert (5 * 106 + 2) / 153 == 3 && (153 * 3 + 2) / 5 == 92;
  }

  /** The screen's dialog state, as one value, so that a handler's whole effect reads as one update. */
  datatype Dialogs = Dialogs(
    editDialogOpen: bool,
    serviceDialogOpen: bool,
    selectedItem: Option<InventoryItem>,
    warrantyEndDate: Option<Instant>,
    serviceType: string,
    serviceStartDate: Option<Instant>,
    serviceEndDate: Option<Instant>,
    serviceNotes: string)

  class WarrantyPageState {
    var editDialogOpen: bool
    var serviceDialogOpen: bool
    var selectedItem: Option<InventoryItem>
    var warrantyEndDate: Option<Instant>
    var serviceType: string
    var serviceStartDate: Option<Instant>
    var serviceEndDate: Option<Instant>
    var serviceNotes: string

    function State(): Dialogs
      reads this
    {
      Dialogs(editDialogOpen, serviceDialogOpen, selectedItem, warrantyEndDate,
              serviceType, serviceStartDate, serviceEndDate, serviceNotes)
    }

    constructor ()
      ensures State() == Dialogs(false, false, None, None, "", None, None, "")
    {
      editDialogOpen := false;
      serviceDialogOpen := false;
      selectedItem := None;
      warrantyEndDate := None;
      serviceType := "";
      serviceStartDate := None;
      serviceEndDate := None;
      serviceNotes := "";
    }

    /** `handleEditWarranty(item)`: selects the item, loads its end date and opens the warranty dialog; nothing else changes. */
    method EditWarranty(item: InventoryItem)
      modifies this
      ensures State() == old(State()).(selectedItem := Some(item), warrantyEndDate := item.warrantyEndDate,
                                       editDialogOpen := true)
    {
      selectedItem := Some(item);
      warrantyEndDate := item.warrantyEndDate;
      editDialogOpen := true;
    }

    /**
     * `handleSaveWarranty`: with an item selected and a date entered, that
     * item's end date is replaced, the selection cleared and the dialog closed;
     * otherwise nothing happens. The entered date and the service fields stay.
     */
    method SaveWarranty(store: InventoryStore.InventoryStore)
      modifies this, store
      ensures old(selectedItem).Some? && old(warrantyEndDate).Some? ==>
                store.items == InventoryStore.UpdateItems(old(store.items), old(selectedItem).value.id,
                                                          EndDatePatch(old(warrantyEndDate).value))
                && State() == old(State()).(selectedItem := None, editDialogOpen := false)
      ensures !(old(selectedItem).Some? && old(warrantyEndDate).Some?) ==>
                store.items == old(store.items) && State() == old(State())
      ensures store.filters == old(store.filters)
    {
      if selectedItem.Some? && warrantyEndDate.Some? {
        store.UpdateItem(selectedItem.value.id, EndDatePatch(warrantyEndDate.value));
        editDialogOpen := false;
        selectedItem := None;
      }
    }

    /**
     * `handleEditService(item)`: selects the item, loads its service fields with
     * the notes cleared and opens the service dialog; nothing else changes.
     */
    method EditService(item: InventoryItem)
      modifies this
      ensures State() == old(State()).(selectedItem := Some(item), serviceType := ServiceField(item.serviceType),
                                       serviceStartDate := item.serviceStartDate,
                                       serviceEndDate := item.serviceEndDate,
                                       serviceNotes := "", serviceDialogOpen := true)
    {
      selectedItem := Some(item);
      serviceType := ServiceField(item.serviceType);
      serviceStartDate := item.serviceStartDate;
      serviceEndDate := item.serviceEndDate;
      serviceNotes := "";
      serviceDialogOpen := true;
    }

    /**
     * `handleSaveService`: with an item selected, its service type and dates are
     * replaced, the selection cleared and the dialog closed; otherwise nothing
     * happens. The entered service fields stay.
     */
    method SaveService(store: InventoryStore.InventoryStore)
      modifies this, store
      ensures old(selectedItem).Some? ==>
                store.items == InventoryStore.UpdateItems(old(store.items), old(selectedItem).value.id,
                                 ServicePatch(old(serviceType), old(serviceStartDate), old(serviceEndDate)))
                && State() == old(State()).(selectedItem := None, serviceDialogOpen := false)
      ensures old(selectedItem).None? ==> store.items == old(store.items) && State() == old(State())
      ensures store.filters == old(store.filters)
    {
      if selectedItem.Some? {
        store.UpdateItem(selectedItem.value.id, ServicePatch(serviceType, serviceStartDate, serviceEndDate));
        serviceDialogOpen := false;
        selectedItem := None;
      }
    }

    /** `handleRenewWarranty(item)`: the item's end date moves a calendar year on. */
    method RenewWarranty(store: InventoryStore.InventoryStore, item: InventoryItem)
      modifies store
      ensures store.items == InventoryStore.UpdateItems(old(store.items), item.id,
                                                        EndDatePatch(RenewedEndDate(item.warrantyEndDate)))
      ensures store.filters == old(store.filters)
    {
      store.UpdateItem(item.id, EndDatePatch(RenewedEndDate(item.warrantyEndDate)));
    }
  }
}

=== FILE: wrappers.dfy ===
/**
 * Optional values, the model's rendering of TypeScript's `T | null` and
 * `T | undefined`, and outcomes that either carry a value or the message a
 * form reports instead.
 */
module Wrappers {

  datatype Option<+T> = None | Some(value: T) {

    /** The wrapped value, or `default` when there is none (the `??` and `||` fallbacks). */
    function GetOr(default: T): T {
      match this
      case Some(v) => v
      case None => default
    }
  }

  datatype Result<+T> = Ok(value: T) | Err(message: string)
}
